=== FILE: README.md ===
# Smart DPO register — a Dafny model

Smart DPO is a register of personal-data processing activities kept for a
data-protection officer under the GDPR. Each registered processing activity
(a *traitement*) has a legal basis, a retention period, data categories and a
compliance status. Each one carries risks, scored on three axes, and risks in
turn carry corrective measures. An alert scanner flags non-compliant
activities, overdue measures and critical untreated risks. Every change is
appended to an audit journal.

This project models the core of that system and proves properties of the model:

- **Backend services and routes**:
  - the additive risk scorer that seeds a risk for each new activity;
  - the alert scanner, with its 24-hour de-duplication and the mark-as-read route;
  - the role middleware;
  - the creation of an activity, with its seeded risk and journal entry;
  - the spreadsheet import (route and script), which normalises each row and upserts it by name;
  - the dashboard aggregates.
- **Front end**:
  - the role table and the page role guard;
  - the string utilities;
  - the risk page, the risk dialog, the header;
  - the treatments, journal, users and measures pages;
  - the reports page, whose export and import panel is a class holding the page state.

Modules follow the source files:

| module | models |
|---|---|
| `Common` | sequences: filter, count, subsequence, duplicate-free lists, SQL `GROUP BY` counts, SQL `=` vs null-safe equality |
| `Text` | case mapping, `includes`, `split(" ")`, initials |
| `Records` | table rows |
| `RiskAssessment` | the scorer |
| `AlertService` | the scanner, the de-duplicated insert, the alert store |
| `AlertRoutes` | the alert routes |
| `RoleMiddleware` | the role middleware |
| `Registry` | the activity table with its risks and journal |
| `ExcelRow` | the normalisation of one spreadsheet row |
| `ImportRoute`, `ImportScript` | the two importers |
| `Dashboard` | the statistics route |
| `Roles`, `RoleGuard`, `Utils` | the front-end library |
| `RiskPage`, `RiskDialog`, `TreatmentsPage`, `JournalPage`, `UsersPage`, `MeasuresPage`, `Header`, `ReportsPage` | one page or component each |

How things are represented:

- Nullable columns are `Option`s.
- Dates are day numbers and timestamps are seconds.
- The database clock, the current day, the success or failure of a read, the
  outcome of a browser `fetch` and the time of a finished export are all
  parameters of the operations.

## Model

| member | source | states |
|---|---|---|
| RiskAssessment.Clamp | backend/services/riskAssessment.js:51-53 | the result lies in [1,5], equals the input inside that range, 1 below it and 5 above it |
| RiskAssessment.Evaluate | backend/services/riskAssessment.js:16-53 | every axis of the evaluation lies in [1,5] |
| RiskAssessment.EvaluateRisk | backend/services/riskAssessment.js:4-60 | a failed read or no row gives no evaluation; otherwise the result is the rule-by-rule evaluation of the first row, within [1,5] on every axis |
| RiskAssessment.EvaluateById | backend/services/riskAssessment.js:6-8 | reading by id yields nothing when no row has the id, and otherwise a row of the table with that id |
| RiskAssessment.NullCategoryAddsNothing | backend/services/riskAssessment.js:16-24 | a NULL data category triggers neither keyword rule, so criticality depends only on retention and transfer |
| RiskAssessment.BothKeywordsFire | backend/services/riskAssessment.js:16-24 | one category can trigger both the "sensible" and the "santé" rule, whatever the case, for at least 6 raw criticality and impact |
| RiskAssessment.SubjectThresholds | backend/services/riskAssessment.js:27-32 | the subject-count thresholds are strict: 1000 counts only as over 100; 100 or NULL counts as neither |
| RiskAssessment.ConsentIsExact | backend/services/riskAssessment.js:46-48 | only the exact basis "Consentement" adds one to probability |
| RiskAssessment.TransferNeverLowers | backend/services/riskAssessment.js:40-43 | turning the transfer flag on never lowers an axis and leaves probability unchanged |
| RiskAssessment.NoRuleYieldsOnes | backend/services/riskAssessment.js:9-53 | an activity that triggers no rule is scored (1,1,1) |
| RiskAssessment.RawCanExceedScale | backend/services/riskAssessment.js:16-53 | raw criticality can reach 9 and is then clamped to 5 |
| RiskAssessment.HealthExample | backend/services/riskAssessment.js:16-53 | health data, transferred, kept 10 years, 2000 subjects, on consent scores (5,4,5) |
| AlertService.RowsForSpec | backend/services/alertService.js:24-30 | a measure's join rows are exactly its pairings with the risks whose id is its risk id: each such risk gives a row, and every row comes from one |
| AlertService.OverdueRowsSpec | backend/services/alertService.js:24-30 | the join has a row for every overdue measure and every risk carrying its risk id, and no other row |
| AlertService.NullsNotSelected | backend/services/alertService.js:6-48 | NULL columns read as unknown: an activity with a basis but no status is not selected, one with a NULL or empty basis is; a measure without due date or status and a risk without score never are |
| AlertService.NonCompliantCandidates | backend/services/alertService.js:6-21 | as many candidates as non-compliant activities |
| AlertService.NonCompliantCandidatesSpec | backend/services/alertService.js:6-21 | every non-compliant activity has its "Critique" candidate, with a NULL risk id and the activity's owner, and every candidate is one of those |
| AlertService.OverdueCandidates | backend/services/alertService.js:24-41 | as many candidates as joined overdue rows |
| AlertService.OverdueCandidatesSpec | backend/services/alertService.js:24-41 | every overdue measure gets an "Attention" candidate for each risk carrying its risk id, with that risk's activity and the measure's owner, and every candidate is one of those |
| AlertService.CriticalCandidates | backend/services/alertService.js:44-59 | as many candidates as risks scored 60 or more and still "Identifié" |
| AlertService.CriticalCandidatesSpec | backend/services/alertService.js:44-59 | every such risk has its "Critique" candidate with both its ids and a NULL user, and every candidate is one of those |
| AlertService.Raise | backend/services/alertService.js:65-89 | `createAlert` appends at most one alert, leaves the existing ones as they were, and advances the id counter by the rows inserted |
| AlertService.RaiseSpec | backend/services/alertService.js:65-89 | raising keeps the log as a prefix and appends exactly one new alert iff no alert with the same key exists in the trailing 24 hours |
| AlertService.RaiseAll | backend/services/alertService.js:12-59 | a loop of `createAlert` calls only appends, at most one alert per candidate, with the counter following |
| AlertService.RaiseAllAppend | backend/services/alertService.js:12-59 | raising two lists in turn is raising them joined |
| AlertService.Scan | backend/services/alertService.js:3-59 | a scan only appends, at most one alert per candidate of the three SELECTs |
| AlertService.ScanIsRaiseAll | backend/services/alertService.js:3-59 | the three loops raise the three candidate lists joined, in source order |
| AlertService.InterruptedScanIsPrefix | backend/services/alertService.js:3-63 | when a SELECT throws, the catch ends the scan with a prefix of the full scan's log; with all three through it is the full scan |
| AlertService.NextStage | backend/services/alertService.js:3-59 | each further successful SELECT only appends to the log |
| AlertService.RaiseValid | backend/services/alertService.js:65-89 | raising preserves increasing ids and de-duplication, and never changes an existing alert's read flag |
| AlertService.RaiseAllValid | backend/services/alertService.js:12-59 | raising a batch preserves the log invariant and the read flags |
| AlertService.RaiseAllMatched | backend/services/alertService.js:68-77 | a batch whose candidates all already have a recent match leaves the log unchanged |
| AlertService.NullKeyAlwaysAppended | backend/services/alertService.js:70-71 | under SQL `=`, a candidate with a NULL id never finds a match, so it is always appended |
| AlertService.RaiseAllNew | backend/services/alertService.js:77-84 | every alert a batch appends is unread, stamped with the clock, and carries the values of one of the candidates |
| AlertService.NullKeyCount | backend/services/alertService.js:12-59 | of one scan's candidates exactly the non-compliance ones have a NULL id |
| AlertService.RaiseAllAppendsNullKeys | backend/services/alertService.js:68-77 | as written, when every candidate with both ids already has a recent match, a batch appends exactly one alert per NULL-id candidate |
| AlertService.ScanStillLive | backend/services/alertService.js:72 | if no alert leaves the 24-hour window between `now` and a reading less than 24 hours later, the same holds after a scan at `now` |
| AlertService.RescanRepeatsNonCompliant | backend/services/alertService.js:3-77 | as written, a second scan less than 24 hours later, with no older alert expiring in between, appends exactly one more alert per non-compliant activity |
| AlertService.NullSafeRescanAddsNothing | backend/services/alertService.js:3-77 | with null-safe comparison, a second scan under the same conditions leaves the log unchanged |
| AlertService.ExpiringAlertRaisedAgain | backend/services/alertService.js:72 | an alert one second short of 24 hours old suppresses its candidate, and one second later no longer does, so the two lemmas above need the no-expiry condition |
| AlertService.RaiseAllOutsideWindow | backend/services/alertService.js:68-85 | with null-safe comparison, over a log with no alert inside the window, a batch appends exactly one fresh alert per candidate key |
| AlertService.NullSafeRescanAfterWindow | backend/services/alertService.js:3-85 | with null-safe comparison, a scan 24 hours or more after the previous one keeps the log and appends exactly one fresh alert per candidate key |
| AlertService.NonCompliantDuplicated | backend/services/alertService.js:18 | as written, raising the same non-compliant alert twice stores two alerts with the same key |
| AlertService.NullSafeRaiseIdempotent | backend/services/alertService.js:68-85 | with null-safe comparison, raising the same candidate twice equals raising it once |
| AlertService.MarkedRead | backend/routes/alertes.js:36 | alerts with the id get `lu` set and every other alert is unchanged |
| AlertService.MarkedReadIdempotent | backend/routes/alertes.js:36 | marking read twice equals marking once |
| AlertService.MarkedReadUnknown | backend/routes/alertes.js:36 | an unknown id changes nothing |
| AlertService.MarkedReadValid | backend/routes/alertes.js:36 | marking read preserves the log invariant and never clears a read flag |
| AlertService.AlertStore.constructor | backend/services/alertService.js:65-89 | the store starts empty at the given clock reading |
| AlertService.AlertStore.Tick | backend/services/alertService.js:72 | time advances and the log is unchanged |
| AlertService.AlertStore.CreateAlert | backend/services/alertService.js:65-89 | the new log is the specified raise of the candidate and read flags are kept |
| AlertService.AlertStore.RaiseEach | backend/services/alertService.js:12-59 | the loop leaves the log equal to raising the batch in order |
| AlertService.AlertStore.CheckAlerts | backend/services/alertService.js:3-63 | the new log is the scan cut short after the SELECTs that succeeded, the catch ending it; with all three through it is the full scan of the three candidate families in source order |
| AlertService.AlertStore.MarkRead | backend/routes/alertes.js:30-43 | the alerts become MarkedRead of the old ones and the reply is the fixed message |
| AlertRoutes.InsertDesc | backend/routes/alertes.js:19 | insertion keeps the list sorted by creation time, newest first, and adds exactly the element |
| AlertRoutes.SortByCreeLeDesc | backend/routes/alertes.js:19 | the result is sorted newest first and is a permutation of the input |
| AlertRoutes.SortedDescPairs | backend/routes/alertes.js:19 | in a sorted list every earlier alert is at least as recent as every later one |
| AlertRoutes.GetAlerts | backend/routes/alertes.js:8-27 | a listing is returned iff the middleware admits the user, and it is a newest-first permutation of all alerts; otherwise 403 |
| AlertRoutes.PutRead | backend/routes/alertes.js:30-43 | a refused user gets 403 and nothing changes; an admitted user gets the alert marked read; read flags are never cleared; the clock and the id counter are unchanged |
| AlertRoutes.AlertRolesExact | backend/routes/alertes.js:11 | the alert routes admit exactly "Admin", "DPO", "SuperAdmin" and "Collaborateur" |
| RoleMiddleware.Decide | backend/middleware/authorize.js:1-8 | the request passes iff a user with a role in the list is present; otherwise 403 with the fixed message |
| RoleMiddleware.EmptyListRejects | backend/middleware/authorize.js:3-4 | an empty role list refuses everyone |
| RoleMiddleware.LowercaseListRejectsAdmin | backend/routes/journal.js:8 | the journal route's lower-case list refuses a user whose role is "Admin" |
| RoleMiddleware.MonotoneInList | backend/middleware/authorize.js:3 | enlarging the list never refuses someone it admitted |
| RoleMiddleware.OnlyRoleMatters | backend/middleware/authorize.js:3 | the decision depends only on the user's role |
| Registry.IndexOfNom | backend/routes/traitements.js:303-332 | the found index holds the name, and none is found only when no row has it |
| Registry.UpsertSpec | backend/routes/traitements.js:303-332 | the upsert keeps names unique, leaves other rows alone, overwrites the row with the name, and adds a row iff the name was absent |
| Registry.ImportAllSpec | backend/routes/traitements.js:273-333 | importing keeps names unique, never renames or re-ids an existing row, and every named row ends up in the table |
| Registry.Database.constructor | backend/routes/traitements.js:119-138 | an empty register with the given schema defaults |
| Registry.Database.CreateTreatment | backend/routes/traitements.js:100-166 | a user whose role is not Admin, DPO, SuperAdmin or Collaborateur gets 403 and nothing changes; otherwise the handler runs for that user's id |
| Registry.Database.CreateHandler | backend/routes/traitements.js:104-166 | a duplicate name is a server error that changes nothing; otherwise the activity is appended, a risk is seeded from its evaluation unless the read fails, and one "Création" entry is journalled |
| Registry.Database.Upsert | backend/routes/traitements.js:303-332 | the table becomes the specified upsert, and risks and journal are unchanged |
| Registry.NewRowSelected | backend/routes/traitements.js:161-162 | a freshly inserted row with a new id is the only row selected by that id |
| ExcelRow.FirstMatch | backend/routes/traitements.js:280-287 | a found basis is the basis of one of the rules |
| ExcelRow.FirstMatchSpec | backend/routes/traitements.js:280-287 | no basis iff no keyword occurs; otherwise the basis is that of the first rule whose keyword occurs |
| ExcelRow.ChainUnrolled | backend/routes/traitements.js:280-287 | the rule list is the source's if-chain, in its order |
| ExcelRow.FirstMatchBases | backend/routes/traitements.js:280-287 | a found basis is one of the six legal bases |
| ExcelRow.LegalBasis | backend/routes/traitements.js:280-287 | a row's basis, when there is one, is one of the six legal bases |
| ExcelRow.ContractBeforeConsent | backend/routes/traitements.js:280-284 | "contrat" wins over every later rule when "obligation" is absent |
| ExcelRow.PicksConsent | backend/routes/traitements.js:280-285 | text mentioning "consent", and none of the three earlier keywords, maps to "Consentement" |
| ExcelRow.ConsentByStem | backend/routes/traitements.js:280-285 | "CONSENTEMENT" maps to "Consentement" whatever its case |
| ExcelRow.ConsentementKeywords | backend/routes/traitements.js:281-284 | "consentement" contains "consent" and none of the three earlier keywords |
| ExcelRow.EmptyBasisIsNull | backend/routes/traitements.js:280-287 | a missing or empty basis cell gives NULL |
| ExcelRow.LeadingDigits | backend/routes/traitements.js:290-292 | the longest digit prefix: all digits, followed by a non-digit or the end |
| ExcelRow.FirstDigitRunSpec | backend/routes/traitements.js:290-292 | no run iff the text has no digit; otherwise the run is the first maximal run of digits |
| ExcelRow.DecimalRoundTrip | backend/routes/traitements.js:290-292 | parsing the decimal text of n gives n back |
| ExcelRow.DurationOfNumberAndUnit | backend/routes/traitements.js:290-292 | a duration written as a number followed by a unit parses to that number |
| ExcelRow.Duration | backend/routes/traitements.js:290-292 | NULL iff the cell holds no digit; otherwise the value of the first maximal run of digits |
| ExcelRow.RowSpec | backend/routes/traitements.js:274-301 | a row without a name is skipped; otherwise the name is kept, the subject count is 0, and the transfer flag and compliance status follow "oui" in their columns |
| ExcelRow.NeverToReview | backend/routes/traitements.js:297-301 | the import never produces the status "À vérifier" |
| ExcelRow.OuiExamples | backend/routes/traitements.js:293-295 | "OUI - Maroc" counts as yes and "Non" does not |
| ExcelRow.OuiAnyCase | backend/routes/traitements.js:293-295 | the "oui" test gives a text and its upper-cased form the same answer |
| ImportRoute.MapRow | backend/routes/traitements.js:274-301 | the stepwise normalisation of a row equals the row specification |
| ImportRoute.ImportFile | backend/routes/traitements.js:258-341 | refused users get 403 and no file gives 400, both changing nothing; otherwise the table becomes the import of every row, and the count is the number of rows |
| ImportRoute.CountIncludesSkipped | backend/routes/traitements.js:274-275 | a skipped row leaves the table unchanged although it is counted |
| ImportRoute.SkippedRowsChangeNothing | backend/routes/traitements.js:274-275 | a sheet of unnamed rows leaves the table unchanged |
| ImportRoute.ImportRolesExact | backend/routes/traitements.js:261 | the import admits exactly "Admin", "DPO", "SuperAdmin", "Collaborateur" and "Rapport" |
| ImportScript.RunImport | backend/scripts/importExcel.js:22-52 | the script leaves the table equal to the import of every row, and risks and journal unchanged |
| Dashboard.RiskLevel | backend/routes/dashboard.js:20-31 | Critique iff score at least 80, Élevé iff in [60,80), Moyen iff in [40,60), Faible for lower or NULL scores |
| Dashboard.LevelMonotone | backend/routes/dashboard.js:20-31 | a higher score never gets a lower level |
| Dashboard.NonNullPolesSpec | backend/routes/dashboard.js:44-49 | each department is counted as often as activities carry it, and NULL departments are dropped |
| Dashboard.ConformiteCounts | backend/routes/dashboard.js:10-17 | the compliance groups have distinct keys, sum to the activity total, count each status exactly, and include NULL iff some status is NULL |
| Dashboard.RisqueCounts | backend/routes/dashboard.js:20-31 | the level groups have distinct keys, sum to the number of risks and count each level exactly |
| Dashboard.MesureCounts | backend/routes/dashboard.js:34-38 | the measure groups have distinct keys, sum to the number of measures and count each status exactly |
| Dashboard.PoleCounts | backend/routes/dashboard.js:44-49 | the department groups have distinct keys, count each department exactly, and sum to the number of activities with a department |
| Dashboard.UnreadSpec | backend/routes/dashboard.js:41 | unread and read alerts add up to all alerts, and the count is 0 iff every alert is read |
| Dashboard.UnreadAfterMarkRead | backend/routes/dashboard.js:41 | marking an id read lowers the unread count by exactly the unread alerts with that id |
| Roles.RolePermissions | frontend/lib/role.ts:10-14 | every role can read |
| Roles.HasRole | frontend/lib/role.ts:16-18 | true iff the role is among the user's roles |
| Roles.Authorize | frontend/lib/role.ts:20-22 | true iff some allowed role is one of the user's |
| Roles.HasPermission | frontend/lib/role.ts:24-26 | true iff some role of the user grants the permission |
| Roles.AuthorizeEmpty | frontend/lib/role.ts:20-22 | an empty allowed list admits nobody |
| Roles.AuthorizeMonotone | frontend/lib/role.ts:20-22 | enlarging the allowed list never refuses someone it admitted |
| Roles.NoRolesNoPermission | frontend/lib/role.ts:24-26 | a user without roles has no permission |
| Roles.PermissionsNested | frontend/lib/role.ts:10-14 | delete implies write, write implies read, and read holds iff the user has a role |
| Roles.AuthorizeSingle | frontend/lib/role.ts:16-22 | authorising against one role is having that role |
| RoleGuard.LowerAll | frontend/hooks/useRoleGuard.ts:20 | each allowed role is lower-cased in place |
| RoleGuard.CurrentRole | frontend/hooks/useRoleGuard.ts:18 | a string role is lower-cased, a missing or non-string one is "", and the result is its own lower case |
| RoleGuard.LoginWhenNoUser | frontend/hooks/useRoleGuard.ts:11-15 | the guard sends to /login iff no user is stored or it does not parse, and then sets no role |
| RoleGuard.DashboardRule | frontend/hooks/useRoleGuard.ts:16-23 | for a stored user, the role becomes the lower-cased role, and the guard sends to /dashboard iff that role is neither "dpo" nor an allowed role up to case |
| RoleGuard.DpoNeverRedirected | frontend/hooks/useRoleGuard.ts:21 | a "dpo" role in any case is never redirected, whatever the list |
| RoleGuard.NonStringRole | frontend/hooks/useRoleGuard.ts:18 | a non-string role counts as "" and is redirected unless "" is allowed |
| RoleGuard.GuardAndMiddlewareDisagree | frontend/hooks/useRoleGuard.ts:18-23 | an "Admin" passes a page guard whose list is lower-case, while the API middleware with the same list refuses the same user |
| Utils.Truncate | frontend/lib/utils.ts:52-55 | text within the limit is returned unchanged; longer text becomes its first n characters followed by "..." |
| Utils.IndexOfChar | frontend/lib/utils.ts:66 | the first position of the character, or none when it is absent |
| Utils.IsValidEmailSpec | frontend/lib/utils.ts:65-68 | the split-based check holds iff the text matches the pattern `^[^\s@]+@[^\s@]+\.[^\s@]+$` |
| Utils.ValidEmailShape | frontend/lib/utils.ts:65-68 | a valid address has no white space and exactly one '@', which is neither first nor last |
| Utils.EmailExamples | frontend/lib/utils.ts:66 | "a@b.c" is valid; "a@.c" and "@b.c" are not |
| Utils.StripMarks | frontend/lib/utils.ts:47 | exactly the characters outside U+0300..U+036F are kept, in order |
| Utils.Collapse | frontend/lib/utils.ts:48 | empty iff the text is empty; a leading letter or digit is kept |
| Utils.CollapseShape | frontend/lib/utils.ts:48 | only letters, digits and single dashes remain |
| Utils.DropRunAppend | frontend/lib/utils.ts:48 | a run of separators ends inside the first part when that part holds a letter or digit, and otherwise continues into the second |
| Utils.CollapseSeparators | frontend/lib/utils.ts:48 | a non-empty run of separators becomes exactly one dash |
| Utils.CollapseSlugChar | frontend/lib/utils.ts:48 | a letter or digit is kept as it is |
| Utils.CollapseAppend | frontend/lib/utils.ts:48 | when a letter or digit sits on either side of the junction, collapsing a concatenation is concatenating the collapsed parts; with the two laws above this fixes where every dash goes |
| Utils.DropRunSpec | frontend/lib/utils.ts:48 | a run of separators is dropped from the front and nothing else |
| Utils.CollapseSpec | frontend/lib/utils.ts:48 | the letters and digits are kept in order; the result starts with a dash iff the text starts with a separator, and ends with one iff the text ends with one |
| Utils.TrimDashes | frontend/lib/utils.ts:49 | trimming a collapsed text gives a slug |
| Utils.TrimDashesSpec | frontend/lib/utils.ts:49 | at most one leading dash and one trailing dash are removed, and nothing else |
| Utils.TrimKeepsSlugChars | frontend/lib/utils.ts:49 | trimming keeps every letter and digit |
| Utils.Slugify | frontend/lib/utils.ts:43-50 | the result is a slug holding exactly the lower-cased text's letters a-z and digits, in order |
| Utils.SlugFixedPoint | frontend/lib/utils.ts:43-50 | a slug slugifies to itself |
| Utils.SlugifyIdempotent | frontend/lib/utils.ts:43-50 | slugifying twice equals slugifying once |
| Utils.SlugifyWords | frontend/lib/utils.ts:43-50 | two lower-case words of letters and digits separated by any non-empty run of separators (no marks, no upper case) slugify to the two words joined by a single dash |
| Utils.CollapseWords | frontend/lib/utils.ts:48 | the run between two words becomes one dash and the words stay |
| Utils.SlugExample | frontend/lib/utils.ts:48-49 | "a  b!" collapses to "a-b-" and "-a-b-" trims to "a-b" |
| Text.InitialsOf | frontend/app/dashboard/users/page.tsx:109-116 | the initials are at most two characters |
| Text.InitialsAreWordStarts | frontend/app/dashboard/users/page.tsx:109-116 | the initials are the first two word-start characters, upper-cased, and contain no space |
| Text.InitialsShape | frontend/app/dashboard/users/page.tsx:109-116 | initials never hold a space or an ASCII small letter |
| Text.JoinSplit | frontend/app/dashboard/users/page.tsx:111 | joining the pieces of `split(" ")` with spaces gives the text back, and no piece holds a space |
| RiskPage.ClampScale | frontend/app/dashboard/risques/page.tsx:16 | the clamped value lies in [1,5]: the input inside it, 1 below it and 5 above it |
| RiskPage.LevelLabel | frontend/app/dashboard/risques/page.tsx:14-24 | values at or beyond either end get the end names, whole values in range get their names, and fractional values fall to "v/5" |
| RiskPage.LevelLabelClamps | frontend/app/dashboard/risques/page.tsx:16-22 | 0 reads "Très faible", 9 reads "Critique", 2.5 reads "2.5/5" |
| RiskPage.EvaluatedAxesAreNamed | frontend/app/dashboard/risques/page.tsx:14-24 | every axis the scorer produces is shown with a level name |
| RiskPage.RowTint | frontend/app/dashboard/risques/page.tsx:31-36 | red iff the score is at least 80, emerald iff below 40, with NULL as 0 |
| RiskPage.RiskBadge | frontend/app/dashboard/risques/page.tsx:66-71 | the badge is one of the four level names |
| RiskPage.SameBoundariesAsDashboard | frontend/app/dashboard/risques/page.tsx:31-71 | badge and row tint use the dashboard's level boundaries |
| RiskPage.CriticalCardMatchesDashboard | frontend/app/dashboard/risques/page.tsx:121 | the critical card counts exactly the risks the dashboard puts at level Critique |
| RiskPage.StatusCardsBounded | frontend/app/dashboard/risques/page.tsx:132-143 | the "En cours" and "Traité" cards together never exceed the number of risks |
| RiskDialog.OpenForm | frontend/components/risque-dialog.tsx:45-69 | a new risk opens the default form; an edited one opens its values with the defaults 3 and "Identifié" for missing ones |
| RiskDialog.ScoreBounds | frontend/components/risque-dialog.tsx:121 | slider values give a score in [1,125], strictly increasing in criticality, in probability and in impact |
| RiskDialog.ScoreLabel | frontend/components/risque-dialog.tsx:208-210 | the label is the dashboard's level name for the score |
| RiskDialog.DefaultScore | frontend/components/risque-dialog.tsx:29-38 | the default form scores 27, labelled "Faible" |
| RiskDialog.CritiqueThreshold | frontend/components/risque-dialog.tsx:210 | 4·4·5 is "Critique" and 4·4·4 is "Élevé" |
| RiskDialog.Submit | frontend/components/risque-dialog.tsx:86-119 | an edit is a PUT to the risk's item and a new risk a POST to the collection; the body carries the form's values |
| RiskDialog.EditRoundTrip | frontend/components/risque-dialog.tsx:45-108 | opening a stored risk and submitting unchanged sends back its axes and activity |
| TreatmentsPage.FilterTraitements | frontend/app/dashboard/traitements/page.tsx:49-69 | the loop's result is the subsequence of activities matching the search, the status and the department |
| TreatmentsPage.NullStatusHidden | frontend/app/dashboard/traitements/page.tsx:60-62 | an activity with no status is hidden by any status filter |
| TreatmentsPage.Round | frontend/app/dashboard/traitements/page.tsx:204 | `Math.round` gives the integer within half a unit, ties rounded up |
| TreatmentsPage.ScoreCell | frontend/app/dashboard/traitements/page.tsx:203-207 | "N/A" iff the average is NULL; otherwise the dashboard's level of the rounded average, a zero average included |
| TreatmentsPage.RoundingAtBoundary | frontend/app/dashboard/traitements/page.tsx:101-106 | 79.5 is shown "Critique", 79.4 "Élevé", and 0 "Faible" |
| TreatmentsPage.SetPoles | frontend/app/dashboard/traitements/page.tsx:108 | the listed departments are exactly the non-empty departments of some activity |
| TreatmentsPage.Poles | frontend/app/dashboard/traitements/page.tsx:108 | departments are listed once each, exactly those non-empty ones some activity carries |
| JournalPage.FilterActions | frontend/app/dashboard/journal/page.tsx:48-65 | the loop's result is the subsequence of entries matching the search and the action filter |
| JournalPage.ActionFilterIsExact | frontend/app/dashboard/journal/page.tsx:60-62 | the "Création" filter does not show "Création risque" |
| JournalPage.Initials | frontend/app/dashboard/journal/page.tsx:105-113 | "?" for an empty name, otherwise the first two word starts upper-cased |
| JournalPage.BlankNameHasNoInitials | frontend/app/dashboard/journal/page.tsx:106-112 | a name of one space gives empty initials |
| JournalPage.UniqueActions | frontend/app/dashboard/journal/page.tsx:115 | each action name is listed once, exactly those that occur |
| JournalPage.LoggedActionCards | frontend/app/dashboard/journal/page.tsx:171-182 | among the logged action names only the two risk ones mention "risque" and only the measure one mentions "mesure" |
| JournalPage.CardsDisjoint | frontend/app/dashboard/journal/page.tsx:149-182 | over the logged action names the four cards together never exceed the number of entries |
| UsersPage.FilterUsers | frontend/app/dashboard/users/page.tsx:47-59 | with an empty search the list is kept; otherwise the subsequence of users whose name or e-mail contains the term, ignoring case |
| UsersPage.RoleCardsBounded | frontend/app/dashboard/users/page.tsx:147-180 | the DPO, Admin and Collaborateur cards sum to at most the total, and to the total when every role is one of the three |
| MeasuresPage.FilteredMesures | frontend/app/dashboard/mesures/page.tsx:119-125 | the shown measures are the subsequence of the fixed list matching the search and the status |
| MeasuresPage.EmptySearchShowsAll | frontend/app/dashboard/mesures/page.tsx:119-125 | no search and "all" show the whole list |
| MeasuresPage.StatusCardsBounded | frontend/app/dashboard/mesures/page.tsx:127-146 | the three status cards never exceed the total |
| MeasuresPage.StatsOfFixedList | frontend/app/dashboard/mesures/page.tsx:27-146 | the fixed list gives 4 measures, 2 active, 1 in progress and 1 planned |
| Header.PageTitle | frontend/components/header.tsx:19-77 | the title is the mapped name of a known path and "Page" exactly for the others |
| Header.HeaderInitials | frontend/components/header.tsx:66-75 | one or two characters; "U" for no name, a name without word starts, or initials that are "U"; otherwise the upper-cased first two word starts |
| Header.BlankNameFallsBack | frontend/components/header.tsx:73 | empty and blank names show "U" |
| Header.AlertCount | frontend/components/header.tsx:45-58 | a listing counts its unread alerts; a refused request leaves 0 |
| Header.BadgeMatchesDashboard | frontend/components/header.tsx:53 | for an admitted user the badge count equals the dashboard's unread count |
| Header.Badge | frontend/components/header.tsx:110-114 | no badge iff the count is 0; the decimal count up to 99; "99+" above |
| ReportsPage.Index | frontend/app/dashboard/rapports/page.tsx:42-71 | every report id has a position in the list of ids |
| ReportsPage.FindReport | frontend/app/dashboard/rapports/page.tsx:270 | `find` returns the first report with the id, and none only when no report has it |
| ReportsPage.PrettyReport | frontend/app/dashboard/rapports/page.tsx:269-271 | a known id gives its report's title and an unknown id gives itself |
| ReportsPage.EveryReportTitled | frontend/app/dashboard/rapports/page.tsx:42-71 | each of the four reports is shown with its own title |
| ReportsPage.DownloadName | frontend/app/dashboard/rapports/page.tsx:149 | the name is "rapport-", the id text, and the format's extension |
| ReportsPage.DownloadNamesDistinct | frontend/app/dashboard/rapports/page.tsx:149 | different report or format means a different download name |
| ReportsPage.ValidateExcel | frontend/app/dashboard/rapports/page.tsx:228-233 | over 5 MiB is refused; within it an ".xlsx" name in any case passes whatever the type, and so does a type matching the pattern (the spreadsheet MIME type anywhere, or a type ending in ".xlsx") whatever the name; nothing else passes |
| ReportsPage.ValidateIgnoresNameCase | frontend/app/dashboard/rapports/page.tsx:230 | upper- or lower-casing the name never changes the answer |
| ReportsPage.ValidateSmallerSize | frontend/app/dashboard/rapports/page.tsx:231-232 | a smaller file with the same name and type passes wherever the larger one did |
| ReportsPage.ValidateExamples | frontend/app/dashboard/rapports/page.tsx:229-231 | "Registre.XLSX" of exactly 5 MiB passes, one byte more fails, ".xls" fails |
| ReportsPage.PageRolesLower | frontend/app/dashboard/rapports/page.tsx:74 | the page's role list is already lower-case |
| ReportsPage.SuperAdminRedirected | frontend/app/dashboard/rapports/page.tsx:74 | a "SuperAdmin" is sent to the dashboard, since the page lists "super admin" with a space |
| ReportsPage.CollaborateurRedirected | frontend/app/dashboard/rapports/page.tsx:74 | a "Collaborateur" is sent to the dashboard |
| ReportsPage.AdminAdmitted | frontend/app/dashboard/rapports/page.tsx:74 | an "Admin" is admitted |
| ReportsPage.Settled | frontend/app/dashboard/rapports/page.tsx:141-177 | an export ends neither idle nor loading; success iff downloaded, canceled iff aborted |
| ReportsPage.GeneratingSome | frontend/app/dashboard/rapports/page.tsx:189 | true iff some report is loading |
| ReportsPage.ImportStepFor | frontend/app/dashboard/rapports/page.tsx:236-244 | a file is sent iff there is one and it validates |
| ReportsPage.AllRequests | frontend/app/dashboard/rapports/page.tsx:191-195 | one request per report, in list order, all in the chosen format |
| ReportsPage.ReportPanel.constructor | frontend/app/dashboard/rapports/page.tsx:42-122 | every report starts idle with no progress or last run; no file, no import |
| ReportsPage.ReportPanel.StartExport | frontend/app/dashboard/rapports/page.tsx:124-139 | the report becomes loading at 10 percent, the request is issued, and some report is generating |
| ReportsPage.ReportPanel.FinishExport | frontend/app/dashboard/rapports/page.tsx:141-177 | the report settles per the outcome; a download sets 100 percent and the last run |
| ReportsPage.ReportPanel.HandleExport | frontend/app/dashboard/rapports/page.tsx:124-182 | one export from start to settled state, with one request issued |
| ReportsPage.GenerateAllEffect | frontend/app/dashboard/rapports/page.tsx:124-195 | after every report has been exported in display order, each report holds the status, progress and last run its own export left, and no report is loading |
| ReportsPage.ReportPanel.HandleGenerateAll | frontend/app/dashboard/rapports/page.tsx:191-195 | all four reports are requested in order; each settles per its own outcome, at 100% with its own clock reading as last run when downloaded, otherwise at 10% with its last run kept; none is left loading |
| ReportsPage.ReportPanel.HandleImport | frontend/app/dashboard/rapports/page.tsx:235-266 | a valid file is uploaded and cleared on success, with the import flag off afterwards; no file or an invalid one changes nothing |

## Left out

- Database transport is not modelled: connection pooling, SQL text, and the 500 replies of failed queries other than the duplicate-name insert of the create route.
- Exceptions inside `evaluateRisk` other than a failed read are not modelled; the read is a parameter.
- The import's unique key is taken to be the activity name; the schema is not part of this model.
- Schema defaults are constructor parameters of `Registry.Database`, because the schema is not part of this model.
- The `parseInt` of the activity id in the create flow is not modelled; ids are integers from the start.
- The `auth` token middleware is not part of this model: a request reaches the role check with its decoded user, or with none, which the role check refuses with 403.
- Parsing of xlsx files is left out: a sheet is a sequence of header-to-cell maps, and every cell is taken to be a string. In the source a cell under "Base Légale" or "Durée de conservation" may be a number, a boolean or a date. Such a cell, when truthy, throws on `.toLowerCase()` or `.match(...)` (backend/routes/traitements.js:280, 290-291; backend/scripts/importExcel.js:29, 39-40). The route then answers 500 and the script exits with code 1, and the rows before it stay imported. The model has no such mid-import failure: `ImportRoute.ImportFile` and `ImportScript.RunImport` always process every row.
- The de-duplication check and insert of `createAlert` are two queries in the source; the race between them under concurrent scans is not modelled.
- The clock behind `NOW()`/`CURDATE()`, and the browser clock behind the last-run time, are parameters. The last-run time is an integer, not a French locale string.
- Column comparisons are case-sensitive; MySQL's case-insensitive default collation is not modelled.
- MySQL returns `AVG` of a DECIMAL as a string; the treatments page receives the average as an optional real. Since every non-NULL string is truthy, a zero average is labelled rather than shown as "N/A".
- `toLowerCase`/`toUpperCase` are modelled for ASCII and Latin-1 only, and the `/i` flag of the MIME pattern folds ASCII only.
- Text.Upper: the Latin-1 letters ß, ÿ and µ are left unchanged, where JavaScript gives "SS", "Ÿ" (U+0178) and "Μ" (U+039C); the first changes the length of the string, which a character-by-character map cannot express.
- AlertService.AlertStore.CreateAlert: a failed duplicate check or insert is caught and logged (backend/services/alertService.js:86-88); the model has both queries succeed. A failed SELECT of the scan itself is modelled, by AlertService.ScanUpTo.
- AlertRoutes.PutRead: `req.params.id` is a string that MySQL converts to a number, so "5abc" marks alert 5; the model takes the id as an integer.
- The user and activity names that GET /alertes adds to each row by LEFT JOIN are not modelled; a listing holds the alerts themselves.
- ExcelRow.Duration: `parseInt` of a digit run beyond 2^53 loses precision in a double; the model's value is exact.
- Text.InitialsOf: `n[0]` takes one UTF-16 code unit; the model takes one character, so astral characters are not split.
- Utils.Truncate: `text.length` and `text.slice(0, length)` count UTF-16 code units; the model counts characters. A character outside the Basic Multilingual Plane counts as 2 in the source, so `truncate("😀", 1)` cuts it and returns a lone high surrogate followed by "...", where the model returns "😀" unchanged.
- Utils.Slugify: NFD normalisation is not modelled; marks already decomposed are stripped, but precomposed accented letters are replaced by a dash instead of losing their accent.
- RiskPage.LevelLabel: `NaN` and the CSS class strings are not modelled; values are reals.
- Header.PageTitle: `Object.prototype` keys such as "constructor" are not treated as present in the breadcrumb map.
- The reports page's progress ticker, the delayed progress reset after 800 ms, the `AbortController` bookkeeping and `cancelExport` are not modelled; a cancelled export is the `Aborted` fetch outcome.
- Toasts, `downloadCustomReport` and the automatic-report switches of the reports page are not modelled.
- The journal page's `getInitials` is defined but never rendered; JournalPage.Initials models the function as written.
- React rendering and component state outside the reports panel are not modelled; the other pages' derived values are functions and filter methods.

## Findings

| source | as written | input that shows it | evidently intended | confidence | as-written member | corrected member |
|---|---|---|---|---|---|---|
| backend/services/alertService.js:68-77 | the duplicate check compares `traitement_id` and `risque_id` with SQL `=`, and non-compliance alerts pass a NULL risk id (line 18), so the check never finds them | two scans less than 24 hours apart, with no alert leaving the window between them, over a register with one non-compliant activity | at most one alert per title, activity and risk in 24 hours (null-safe `<=>`) | not executed | AlertService.NonCompliantDuplicated, AlertService.RescanRepeatsNonCompliant | AlertService.NullSafeRaiseIdempotent, AlertService.NullSafeRescanAddsNothing |

=== FILE: access.dfy ===
/** The Express role middleware: a request passes when it carries an
    authenticated user whose role is, exactly and case-sensitively, one of
    the roles the route allows. */
module RoleMiddleware {
  import opened Common

  /** `req.user` as set by the authentication middleware; `role` is absent when not a string. */
  datatype ReqUser = ReqUser(id: int, role: Option<string>)

  /** What the middleware does with the request: answer it, or hand it on with `next()`. */
  datatype Outcome = Respond(status: int, msg: string) | Next

  const FORBIDDEN_MSG := "Accès interdit: rôle insuffisant"

  /** `authorize(...allowedRoles)(req, res, next)` */
  function Decide(allowedRoles: seq<string>, user: Option<ReqUser>): (r: Outcome)
    ensures r.Next? <==> user.Some? && user.value.role.Some? && user.value.role.value in allowedRoles
    ensures r.Respond? ==> r.status == 403 && r.msg == FORBIDDEN_MSG
  {
    if user.None? || user.value.role.None? || !Includes(allowedRoles, user.value.role.value) then
      Respond(403, FORBIDDEN_MSG)
    else
      Next
  }

  /** An empty list admits nobody. */
  lemma EmptyListRejects(user: Option<ReqUser>)
    ensures Decide([], user) == Respond(403, FORBIDDEN_MSG)
  {
  }

  /** Matching is case-sensitive: the journal route's lower-case list turns away "Admin". */
  lemma LowercaseListRejectsAdmin(id: int)
    ensures Decide(["admin", "dpo", "super admin"], Some(ReqUser(id, Some("Admin")))).Respond?
  {
    assert "Admin" != "admin";
  }

  /** Enlarging the list never turns an admitted request away. */
  lemma MonotoneInList(a: seq<string>, b: seq<string>, user: Option<ReqUser>)
    requires forall x :: x in a ==> x in b
    ensures Decide(a, user).Next? ==> Decide(b, user).Next?
  {
  }

  /** Only the role matters, not the user id. */
  lemma OnlyRoleMatters(allowed: seq<string>, u: ReqUser, v: ReqUser)
    requires u.role == v.role
    ensures Decide(allowed, Some(u)) == Decide(allowed, Some(v))
  {
  }
}

=== FILE: alert_routes.dfy ===
/** The two alert routes: the listing, newest first, and mark-as-read. Both
    are behind the role middleware with the same four roles. */
module AlertRoutes {
  import opened Common
  import opened Records
  import opened AlertService
  import RoleMiddleware

  const ALERT_ROLES := ["Admin", "DPO", "SuperAdmin", "Collaborateur"]

  /** What a route answers: the middleware's refusal, a message, or rows. */
  datatype Response = Refused(status: int, msg: string) | Message(msg: string) | Listing(rows: seq<Alert>)

  /** Each alert is at least as recent as the next one. */
  predicate SortedDesc(s: seq<Alert>)
  {
    forall i :: 0 <= i < |s| - 1 ==> s[i].creeLe >= s[i + 1].creeLe
  }

  /** Adjacent order gives the order of every pair. */
  lemma {:induction false} SortedDescPairs(s: seq<Alert>)
    requires SortedDesc(s)
    ensures forall i, j :: 0 <= i < j < |s| ==> s[i].creeLe >= s[j].creeLe
  {
    if |s| > 1 {
      SortedDescPairs(s[1..]);
      forall i, j | 0 <= i < j < |s| ensures s[i].creeLe >= s[j].creeLe {
        if i > 0 {
          assert s[i] == s[1..][i - 1] && s[j] == s[1..][j - 1];
        } else {
          assert s[1] == s[1..][0];
          if j > 1 {
            assert s[j] == s[1..][j - 1];
          }
        }
      }
    }
  }

  /** Puts `a` in front of the first alert strictly older than it. */
  function InsertDesc(a: Alert, s: seq<Alert>): (r: seq<Alert>)
    requires SortedDesc(s)
    ensures SortedDesc(r)
    ensures multiset(r) == multiset(s) + multiset{a}
    ensures |r| == |s| + 1 && (r[0] == a || (s != [] && r[0] == s[0]))
  {
    if s == [] || s[0].creeLe <= a.creeLe then [a] + s
    else
      assert SortedDesc(s[1..]);
      var rest := InsertDesc(a, s[1..]);
      assert s == [s[0]] + s[1..];
      [s[0]] + rest
  }

  /** `ORDER BY a.cree_le DESC` */
  function SortByCreeLeDesc(alerts: seq<Alert>): (r: seq<Alert>)
    ensures SortedDesc(r)
    ensures multiset(r) == multiset(alerts)
  {
    if alerts == [] then []
    else
      assert alerts == [alerts[0]] + alerts[1..];
      InsertDesc(alerts[0], SortByCreeLeDesc(alerts[1..]))
  }

  /** GET `/`: every stored alert, newest first, for the four roles only. */
  function GetAlerts(user: Option<RoleMiddleware.ReqUser>, alerts: seq<Alert>): (r: Response)
    ensures r.Listing? <==> RoleMiddleware.Decide(ALERT_ROLES, user).Next?
    ensures r.Listing? ==> SortedDesc(r.rows) && multiset(r.rows) == multiset(alerts)
    ensures r.Refused? ==> r.status == 403
  {
    match RoleMiddleware.Decide(ALERT_ROLES, user)
    case Respond(status, msg) => Refused(status, msg)
    case Next => Listing(SortByCreeLeDesc(alerts))
  }

  /** PUT `/:id/read`: a refused request changes nothing; an admitted one marks that alert
      read and answers with the same message whether or not the id exists. */
  method PutRead(store: AlertStore, user: Option<RoleMiddleware.ReqUser>, id: int) returns (r: Response)
    requires store.Valid()
    modifies store
    ensures store.Valid()
    ensures RoleMiddleware.Decide(ALERT_ROLES, user).Respond? ==>
      r.Refused? && r.status == 403 && store.alerts == old(store.alerts)
    ensures RoleMiddleware.Decide(ALERT_ROLES, user).Next? ==>
      r == Message("Alerte marquée comme lue") && store.alerts == MarkedRead(old(store.alerts), id)
    ensures ReadKept(old(store.alerts), store.alerts)
    ensures store.now == old(store.now) && store.nextId == old(store.nextId)
  {
    var decision := RoleMiddleware.Decide(ALERT_ROLES, user);
    if decision.Respond? {
      return Refused(decision.status, decision.msg);
    }
    var msg := store.MarkRead(id);
    return Message(msg);
  }

  /** Exactly the four roles reach either route; role names are case-sensitive. */
  lemma AlertRolesExact(id: int, role: string)
    ensures RoleMiddleware.Decide(ALERT_ROLES, Some(RoleMiddleware.ReqUser(id, Some(role)))).Next?
      <==> role == "Admin" || role == "DPO" || role == "SuperAdmin" || role == "Collaborateur"
  {
  }
}

=== FILE: alert_service.dfy ===
/** The alert scanner and the alert store. The scanner selects non-compliant
    treatments, overdue corrective measures and critical untreated risks, and
    raises one alert candidate for each; raising checks for an alert with the
    same title, treatment id and risk id created in the trailing 24 hours, and
    appends a new unread alert only when there is none.

    The duplicate check compares the two ids with SQL `=`, under which NULL
    equals nothing. The store can also be built with null-safe comparison,
    which is the behaviour the check evidently intends. */
module AlertService {
  import opened Common
  import opened Records

  /** The deduplication window, 24 hours in seconds. */
  const WINDOW := 86400

  const NON_COMPLIANT_TITLE := "Traitement non conforme détecté"
  const OVERDUE_TITLE := "Mesure corrective en retard"
  const CRITICAL_TITLE := "Risque critique non traité"

  /** The arguments of one `createAlert` call. */
  datatype Candidate = Candidate(
    titre: string,
    message: string,
    typeAlerte: string,
    traitementId: Option<int>,
    risqueId: Option<int>,
    utilisateurId: Option<int>)

  /** The alert table together with the next auto-increment id. */
  datatype Log = Log(alerts: seq<Alert>, nextId: int)

  // ---------------------------------------------------------------- selection

  /** `base_legale IS NULL OR base_legale = '' OR statut_conformite = 'Non conforme'`;
      a NULL status makes the last disjunct unknown, which WHERE treats as false. */
  predicate NonCompliant(t: Treatment)
  {
    t.baseLegale.None? || t.baseLegale == Some("") || t.statutConformite == Some("Non conforme")
  }

  /** `date_echeance < CURDATE() AND statut != 'Terminée'`: NULL on either side is unknown, so
      a measure without a due date or without a status is never selected. */
  predicate Overdue(m: Measure, today: int)
  {
    m.dateEcheance.Some? && m.dateEcheance.value < today
    && m.statut.Some? && m.statut.value != "Terminée"
  }

  /** `score_risque >= 60 AND statut = 'Identifié'` */
  predicate CriticalUntreated(r: Risk)
  {
    r.scoreRisque.Some? && r.scoreRisque.value >= 60 && r.statut == Some("Identifié")
  }

  /** A row of the overdue query: the measure and its parent risk's treatment id. */
  datatype OverdueRow = OverdueRow(m: Measure, traitementId: int)

  /** The join rows of one measure: one per risk whose id is the measure's `risque_id`. */
  function RowsFor(m: Measure, rs: seq<Risk>): seq<OverdueRow>
  {
    if rs == [] then []
    else (if rs[0].id == m.risqueId then [OverdueRow(m, rs[0].traitementId)] else []) + RowsFor(m, rs[1..])
  }

  /** The rows of one measure are exactly its pairings with the risks carrying its `risque_id`. */
  lemma {:induction false} RowsForSpec(m: Measure, rs: seq<Risk>)
    ensures forall row :: row in RowsFor(m, rs) ==>
              row.m == m && exists k :: k in rs && k.id == m.risqueId && row.traitementId == k.traitementId
    ensures forall k :: k in rs && k.id == m.risqueId ==> OverdueRow(m, k.traitementId) in RowsFor(m, rs)
  {
    if rs != [] {
      RowsForSpec(m, rs[1..]);
      assert forall k :: k in rs[1..] ==> k in rs;
      assert forall k :: k in rs ==> k == rs[0] || k in rs[1..];
    }
  }

  /** `MesureCorrective mc JOIN Risque r ON mc.risque_id = r.id WHERE <overdue>` */
  function OverdueRows(ms: seq<Measure>, rs: seq<Risk>, today: int): seq<OverdueRow>
  {
    if ms == [] then []
    else (if Overdue(ms[0], today) then RowsFor(ms[0], rs) else []) + OverdueRows(ms[1..], rs, today)
  }

  /** The join returns every overdue measure paired with every risk carrying its `risque_id`,
      and nothing else. */
  lemma {:induction false} OverdueRowsSpec(ms: seq<Measure>, rs: seq<Risk>, today: int)
    ensures forall row :: row in OverdueRows(ms, rs, today) ==>
              (row.m in ms && Overdue(row.m, today)
               && exists k :: k in rs && k.id == row.m.risqueId && row.traitementId == k.traitementId)
    ensures forall m, k :: m in ms && Overdue(m, today) && k in rs && k.id == m.risqueId ==>
              OverdueRow(m, k.traitementId) in OverdueRows(ms, rs, today)
  {
    if ms != [] {
      OverdueRowsSpec(ms[1..], rs, today);
      RowsForSpec(ms[0], rs);
      assert forall m :: m in ms[1..] ==> m in ms;
      assert forall m :: m in ms ==> m == ms[0] || m in ms[1..];
    }
  }

  /** The WHERE clauses of the three SELECTs read NULL as unknown: a treatment with a basis but
      no status, a measure without a due date or status, and a risk without a score are never
      selected. */
  lemma NullsNotSelected(t: Treatment, m: Measure, k: Risk, today: int)
    ensures t.baseLegale.Some? && t.baseLegale != Some("") && t.statutConformite.None? ==> !NonCompliant(t)
    ensures t.baseLegale.None? || t.baseLegale == Some("") ==> NonCompliant(t)
    ensures m.dateEcheance.None? || m.statut.None? ==> !Overdue(m, today)
    ensures k.scoreRisque.None? ==> !CriticalUntreated(k)
  {
  }

  // --------------------------------------------------------------- candidates

  function NonCompliantCandidate(t: Treatment): Candidate
  {
    Candidate(NON_COMPLIANT_TITLE,
      "Le traitement \"" + t.nom + "\" nécessite une attention immédiate",
      "Critique", Some(t.id), None, t.utilisateurId)
  }

  function OverdueCandidate(row: OverdueRow): Candidate
  {
    Candidate(OVERDUE_TITLE,
      "La mesure \"" + row.m.description + "\" est en retard",
      "Attention", Some(row.traitementId), Some(row.m.risqueId), row.m.responsableId)
  }

  function CriticalCandidate(r: Risk): Candidate
  {
    Candidate(CRITICAL_TITLE,
      "Un risque critique a été identifié et nécessite une action immédiate",
      "Critique", Some(r.traitementId), Some(r.id), None)
  }

  /** One "Critique" candidate per selected treatment, with no risk id and the owner as target. */
  function NonCompliantCandidates(ts: seq<Treatment>): (r: seq<Candidate>)
    ensures |r| == CountIf(ts, NonCompliant)
  {
    var sel := Keep(ts, NonCompliant);
    KeepSpec(ts, NonCompliant);
    seq(|sel|, i requires 0 <= i < |sel| => NonCompliantCandidate(sel[i]))
  }

  /** Every non-compliant treatment has its own candidate, and every candidate is one of those. */
  lemma NonCompliantCandidatesSpec(ts: seq<Treatment>)
    ensures forall t :: t in ts && NonCompliant(t) ==> NonCompliantCandidate(t) in NonCompliantCandidates(ts)
    ensures forall c :: c in NonCompliantCandidates(ts) ==>
              (c.titre == NON_COMPLIANT_TITLE && c.typeAlerte == "Critique" && c.risqueId.None?
               && exists t :: t in ts && NonCompliant(t) && c == NonCompliantCandidate(t))
  {
    MapKeepSpec(ts, NonCompliant, NonCompliantCandidate, NonCompliantCandidates(ts));
  }

  /** One "Attention" candidate per overdue join row: the parent risk's treatment id, the
      measure's risk id and the measure's owner. */
  function OverdueCandidates(ms: seq<Measure>, rs: seq<Risk>, today: int): (r: seq<Candidate>)
    ensures |r| == |OverdueRows(ms, rs, today)|
  {
    var rows := OverdueRows(ms, rs, today);
    seq(|rows|, i requires 0 <= i < |rows| => OverdueCandidate(rows[i]))
  }

  /** Every overdue measure gets one candidate per risk row carrying its `risque_id`, and every
      candidate is one of those. */
  lemma OverdueCandidatesSpec(ms: seq<Measure>, rs: seq<Risk>, today: int)
    ensures forall m, k :: m in ms && Overdue(m, today) && k in rs && k.id == m.risqueId ==>
              OverdueCandidate(OverdueRow(m, k.traitementId)) in OverdueCandidates(ms, rs, today)
    ensures forall c :: c in OverdueCandidates(ms, rs, today) ==>
              (c.titre == OVERDUE_TITLE && c.typeAlerte == "Attention"
               && c.traitementId.Some? && c.risqueId.Some?
               && exists m :: m in ms && Overdue(m, today)
                    && c.risqueId == Some(m.risqueId) && c.utilisateurId == m.responsableId
                    && exists k :: k in rs && k.id == m.risqueId && c.traitementId == Some(k.traitementId))
  {
    OverdueRowsSpec(ms, rs, today);
    MapMembers(OverdueRows(ms, rs, today), OverdueCandidate, OverdueCandidates(ms, rs, today));
  }

  /** One "Critique" candidate per selected risk, with the risk's ids and no target user. */
  function CriticalCandidates(rs: seq<Risk>): (r: seq<Candidate>)
    ensures |r| == CountIf(rs, CriticalUntreated)
  {
    var sel := Keep(rs, CriticalUntreated);
    KeepSpec(rs, CriticalUntreated);
    seq(|sel|, i requires 0 <= i < |sel| => CriticalCandidate(sel[i]))
  }

  /** Every critical untreated risk has its own candidate, and every candidate is one of those. */
  lemma CriticalCandidatesSpec(rs: seq<Risk>)
    ensures forall k :: k in rs && CriticalUntreated(k) ==> CriticalCandidate(k) in CriticalCandidates(rs)
    ensures forall c :: c in CriticalCandidates(rs) ==>
              (c.titre == CRITICAL_TITLE && c.typeAlerte == "Critique" && c.utilisateurId.None?
               && exists k :: k in rs && CriticalUntreated(k) && c == CriticalCandidate(k))
  {
    MapKeepSpec(rs, CriticalUntreated, CriticalCandidate, CriticalCandidates(rs));
  }

  /** The candidates of one scan, in the order the three loops raise them. */
  function ScanCandidates(ts: seq<Treatment>, ms: seq<Measure>, rs: seq<Risk>, today: int): seq<Candidate>
  {
    NonCompliantCandidates(ts) + OverdueCandidates(ms, rs, today) + CriticalCandidates(rs)
  }

  // ------------------------------------------------------------ deduplication

  /** Comparison of one id in the duplicate check: SQL `=`, or `<=>` when null-safe. */
  predicate KeyEq(a: Option<int>, b: Option<int>, nullSafe: bool)
  {
    if nullSafe then NullSafeEq(a, b) else SqlEq(a, b)
  }

  /** Two alerts carry the same deduplication key. */
  predicate SameKey(a: Alert, b: Alert, nullSafe: bool)
  {
    a.titre == b.titre && KeyEq(a.traitementId, b.traitementId, nullSafe)
    && KeyEq(a.risqueId, b.risqueId, nullSafe)
  }

  /** `titre = ? AND traitement_id = ? AND risque_id = ? AND cree_le > NOW() - 24h` */
  predicate Matches(a: Alert, c: Candidate, now: int, nullSafe: bool)
  {
    a.titre == c.titre && KeyEq(a.traitementId, c.traitementId, nullSafe)
    && KeyEq(a.risqueId, c.risqueId, nullSafe) && a.creeLe > now - WINDOW
  }

  /** The rows the duplicate check returns. */
  function Existing(alerts: seq<Alert>, c: Candidate, now: int, nullSafe: bool): seq<Alert>
  {
    Keep(alerts, (a: Alert) => Matches(a, c, now, nullSafe))
  }

  predicate HasMatch(alerts: seq<Alert>, c: Candidate, now: int, nullSafe: bool)
  {
    exists i :: 0 <= i < |alerts| && Matches(alerts[i], c, now, nullSafe)
  }

  /** The row the insert creates: unread, stamped with the current time. */
  function NewAlert(id: int, c: Candidate, now: int): Alert
  {
    Alert(id, c.titre, c.message, c.typeAlerte, c.traitementId, c.risqueId, c.utilisateurId, false, now)
  }

  /** `a` is an initial segment of `b`. */
  predicate IsPrefix(a: seq<Alert>, b: seq<Alert>)
  {
    |a| <= |b| && b[..|a|] == a
  }

  lemma PrefixTrans(a: seq<Alert>, b: seq<Alert>, c: seq<Alert>)
    requires IsPrefix(a, b) && IsPrefix(b, c)
    ensures IsPrefix(a, c)
  {
    assert c[..|a|] == c[..|b|][..|a|];
  }

  /** `createAlert` on the alert table: it only ever appends, at most one row, and the
      auto-increment counter moves with the rows inserted. */
  function Raise(s: Log, now: int, c: Candidate, nullSafe: bool): (r: Log)
    ensures |r.alerts| <= |s.alerts| + 1 && IsPrefix(s.alerts, r.alerts)
    ensures r.nextId == s.nextId + (|r.alerts| - |s.alerts|)
  {
    if Existing(s.alerts, c, now, nullSafe) == [] then
      Log(s.alerts + [NewAlert(s.nextId, c, now)], s.nextId + 1)
    else s
  }

  /** Raising never touches existing alerts, and appends exactly one alert, with the
      candidate's fields, iff the duplicate check finds no match. */
  lemma RaiseSpec(s: Log, now: int, c: Candidate, nullSafe: bool)
    ensures var r := Raise(s, now, c, nullSafe);
      |s.alerts| <= |r.alerts| <= |s.alerts| + 1 && r.alerts[..|s.alerts|] == s.alerts
      && (|r.alerts| == |s.alerts| + 1 <==> !HasMatch(s.alerts, c, now, nullSafe))
      && (|r.alerts| == |s.alerts| + 1 ==> r.alerts[|s.alerts|] == NewAlert(s.nextId, c, now))
      && (|r.alerts| == |s.alerts| ==> r == s)
  {
    var p := (a: Alert) => Matches(a, c, now, nullSafe);
    KeepSpec(s.alerts, p);
    if HasMatch(s.alerts, c, now, nullSafe) {
      var i :| 0 <= i < |s.alerts| && Matches(s.alerts[i], c, now, nullSafe);
      assert s.alerts[i] in Existing(s.alerts, c, now, nullSafe);
    }
    if Existing(s.alerts, c, now, nullSafe) != [] {
      var a := Existing(s.alerts, c, now, nullSafe)[0];
      assert a in Existing(s.alerts, c, now, nullSafe);
      var i :| 0 <= i < |s.alerts| && s.alerts[i] == a;
      assert Matches(s.alerts[i], c, now, nullSafe);
    }
  }

  /** `createAlert` called for each candidate in turn: the table only grows, by at most one
      row per candidate. */
  function RaiseAll(s: Log, now: int, cs: seq<Candidate>, nullSafe: bool): (r: Log)
    ensures |r.alerts| <= |s.alerts| + |cs| && IsPrefix(s.alerts, r.alerts)
    ensures r.nextId == s.nextId + (|r.alerts| - |s.alerts|)
  {
    if cs == [] then s
    else
      var mid := RaiseAll(s, now, cs[..|cs| - 1], nullSafe);
      var r := Raise(mid, now, cs[|cs| - 1], nullSafe);
      PrefixTrans(s.alerts, mid.alerts, r.alerts);
      r
  }

  /** Raising a list and then another is raising the two lists joined. */
  lemma {:induction false} RaiseAllAppend(s: Log, now: int, a: seq<Candidate>, b: seq<Candidate>,
                                          nullSafe: bool)
    ensures RaiseAll(s, now, a + b, nullSafe) == RaiseAll(RaiseAll(s, now, a, nullSafe), now, b, nullSafe)
  {
    if b == [] {
      assert a + b == a;
    } else {
      assert (a + b)[..|a + b| - 1] == a + b[..|b| - 1];
      assert (a + b)[|a + b| - 1] == b[|b| - 1];
      RaiseAllAppend(s, now, a, b[..|b| - 1], nullSafe);
    }
  }

  /** `checkAlerts`: the three candidate lists raised in order, at one clock reading. The
      table only grows, by at most one row per candidate. */
  function Scan(s: Log, now: int, ts: seq<Treatment>, ms: seq<Measure>, rs: seq<Risk>, today: int,
                nullSafe: bool): (r: Log)
    ensures |r.alerts| <= |s.alerts| + |ScanCandidates(ts, ms, rs, today)|
    ensures IsPrefix(s.alerts, r.alerts)
  {
    var s1 := RaiseAll(s, now, NonCompliantCandidates(ts), nullSafe);
    var s2 := RaiseAll(s1, now, OverdueCandidates(ms, rs, today), nullSafe);
    var r := RaiseAll(s2, now, CriticalCandidates(rs), nullSafe);
    PrefixTrans(s1.alerts, s2.alerts, r.alerts);
    PrefixTrans(s.alerts, s1.alerts, r.alerts);
    r
  }

  /** A scan raises its candidates as one list. */
  lemma ScanIsRaiseAll(s: Log, now: int, ts: seq<Treatment>, ms: seq<Measure>, rs: seq<Risk>,
                       today: int, nullSafe: bool)
    ensures Scan(s, now, ts, ms, rs, today, nullSafe)
         == RaiseAll(s, now, ScanCandidates(ts, ms, rs, today), nullSafe)
  {
    var c1, c2, c3 := NonCompliantCandidates(ts), OverdueCandidates(ms, rs, today), CriticalCandidates(rs);
    RaiseAllAppend(s, now, c1, c2, nullSafe);
    RaiseAllAppend(s, now, c1 + c2, c3, nullSafe);
  }

  /** `checkAlerts` when only the first `selectsOk` of its three SELECTs succeed: the failing
      SELECT throws into the catch, which ends the scan with the alerts raised so far. */
  function ScanUpTo(s: Log, now: int, ts: seq<Treatment>, ms: seq<Measure>, rs: seq<Risk>, today: int,
                    nullSafe: bool, selectsOk: nat): Log
  {
    if selectsOk == 0 then s
    else
      var s1 := RaiseAll(s, now, NonCompliantCandidates(ts), nullSafe);
      if selectsOk == 1 then s1
      else
        var s2 := RaiseAll(s1, now, OverdueCandidates(ms, rs, today), nullSafe);
        if selectsOk == 2 then s2 else RaiseAll(s2, now, CriticalCandidates(rs), nullSafe)
  }

  /** An interrupted scan leaves a prefix of what the full scan would have left, and the full
      scan when no SELECT fails. */
  lemma {:induction false} InterruptedScanIsPrefix(s: Log, now: int, ts: seq<Treatment>, ms: seq<Measure>,
                                                   rs: seq<Risk>, today: int, nullSafe: bool, selectsOk: nat)
    ensures IsPrefix(ScanUpTo(s, now, ts, ms, rs, today, nullSafe, selectsOk).alerts,
                     Scan(s, now, ts, ms, rs, today, nullSafe).alerts)
    ensures selectsOk >= 3 ==>
      ScanUpTo(s, now, ts, ms, rs, today, nullSafe, selectsOk) == Scan(s, now, ts, ms, rs, today, nullSafe)
    decreases 3 - selectsOk
  {
    if selectsOk < 3 {
      InterruptedScanIsPrefix(s, now, ts, ms, rs, today, nullSafe, selectsOk + 1);
      NextStage(s, now, ts, ms, rs, today, nullSafe, selectsOk);
      PrefixTrans(ScanUpTo(s, now, ts, ms, rs, today, nullSafe, selectsOk).alerts,
                  ScanUpTo(s, now, ts, ms, rs, today, nullSafe, selectsOk + 1).alerts,
                  Scan(s, now, ts, ms, rs, today, nullSafe).alerts);
    } else {
      AllStages(s, now, ts, ms, rs, today, nullSafe, selectsOk);
    }
  }

  /** With all three SELECTs through, the scan runs to the end. */
  lemma AllStages(s: Log, now: int, ts: seq<Treatment>, ms: seq<Measure>, rs: seq<Risk>,
                  today: int, nullSafe: bool, selectsOk: nat)
    requires selectsOk >= 3
    ensures ScanUpTo(s, now, ts, ms, rs, today, nullSafe, selectsOk) == Scan(s, now, ts, ms, rs, today, nullSafe)
  {
  }

  /** One more successful SELECT only appends. */
  lemma NextStage(s: Log, now: int, ts: seq<Treatment>, ms: seq<Measure>, rs: seq<Risk>,
                  today: int, nullSafe: bool, selectsOk: nat)
    requires selectsOk < 3
    ensures IsPrefix(ScanUpTo(s, now, ts, ms, rs, today, nullSafe, selectsOk).alerts,
                     ScanUpTo(s, now, ts, ms, rs, today, nullSafe, selectsOk + 1).alerts)
  {
    var s1 := RaiseAll(s, now, NonCompliantCandidates(ts), nullSafe);
    var s2 := RaiseAll(s1, now, OverdueCandidates(ms, rs, today), nullSafe);
    if selectsOk == 0 {
      assert ScanUpTo(s, now, ts, ms, rs, today, nullSafe, 1) == s1;
    } else if selectsOk == 1 {
      assert ScanUpTo(s, now, ts, ms, rs, today, nullSafe, 2) == s2;
    } else {
      assert ScanUpTo(s, now, ts, ms, rs, today, nullSafe, 3) == RaiseAll(s2, now, CriticalCandidates(rs), nullSafe);
    }
  }

  // ------------------------------------------------------------ invariants

  /** Alert ids grow along the table. */
  predicate IdsIncreasing(alerts: seq<Alert>)
  {
    forall i, j :: 0 <= i < j < |alerts| ==> alerts[i].id < alerts[j].id
  }

  /** No two alerts with the same key were created less than 24 hours apart. */
  predicate Spaced(alerts: seq<Alert>, nullSafe: bool)
  {
    forall i, j :: 0 <= i < j < |alerts| && SameKey(alerts[i], alerts[j], nullSafe) ==>
      alerts[i].creeLe + WINDOW <= alerts[j].creeLe
  }

  /** The alert table is consistent with the id counter and the clock, and deduplicated. */
  predicate LogValid(s: Log, now: int, nullSafe: bool)
  {
    IdsIncreasing(s.alerts) && Spaced(s.alerts, nullSafe)
    && (forall i :: 0 <= i < |s.alerts| ==> s.alerts[i].id < s.nextId && s.alerts[i].creeLe <= now)
  }

  /** Read flags only ever go from false to true, and no alert disappears or changes id. */
  predicate ReadKept(before: seq<Alert>, after: seq<Alert>)
  {
    |before| <= |after|
    && forall i :: 0 <= i < |before| ==> after[i].id == before[i].id && (before[i].lu ==> after[i].lu)
  }

  lemma ReadKeptTrans(a: seq<Alert>, b: seq<Alert>, c: seq<Alert>)
    requires ReadKept(a, b) && ReadKept(b, c)
    ensures ReadKept(a, c)
  {
  }

  /** Raising keeps the table valid: in particular the appended alert is at least 24 hours
      younger than every alert with the same key. */
  lemma RaiseValid(s: Log, now: int, c: Candidate, nullSafe: bool)
    requires LogValid(s, now, nullSafe)
    ensures LogValid(Raise(s, now, c, nullSafe), now, nullSafe)
    ensures ReadKept(s.alerts, Raise(s, now, c, nullSafe).alerts)
  {
    RaiseSpec(s, now, c, nullSafe);
    var r := Raise(s, now, c, nullSafe);
    if |r.alerts| == |s.alerts| + 1 {
      var n := |s.alerts|;
      assert r.alerts == s.alerts + [NewAlert(s.nextId, c, now)];
      forall i | 0 <= i < n && SameKey(r.alerts[i], r.alerts[n], nullSafe)
        ensures r.alerts[i].creeLe + WINDOW <= r.alerts[n].creeLe
      {
        if r.alerts[i].creeLe > now - WINDOW {
          assert Matches(s.alerts[i], c, now, nullSafe);
        }
      }
    }
  }

  lemma {:induction false} RaiseAllValid(s: Log, now: int, cs: seq<Candidate>, nullSafe: bool)
    requires LogValid(s, now, nullSafe)
    ensures LogValid(RaiseAll(s, now, cs, nullSafe), now, nullSafe)
    ensures ReadKept(s.alerts, RaiseAll(s, now, cs, nullSafe).alerts)
  {
    if cs != [] {
      var mid := RaiseAll(s, now, cs[..|cs| - 1], nullSafe);
      RaiseAllValid(s, now, cs[..|cs| - 1], nullSafe);
      RaiseValid(mid, now, cs[|cs| - 1], nullSafe);
      ReadKeptTrans(s.alerts, mid.alerts, RaiseAll(s, now, cs, nullSafe).alerts);
    }
  }

  // --------------------------------------------------- what a rescan raises

  /** A candidate whose appended alert suppresses its own repetition: always under
      null-safe comparison, and under SQL `=` only when both ids are set. */
  predicate SelfMatching(c: Candidate, nullSafe: bool)
  {
    nullSafe || (c.traitementId.Some? && c.risqueId.Some?)
  }

  /** A match in a prefix is a match in the whole table. */
  lemma HasMatchExtend(a: seq<Alert>, b: seq<Alert>, c: Candidate, now: int, nullSafe: bool)
    requires |a| <= |b| && b[..|a|] == a && HasMatch(a, c, now, nullSafe)
    ensures HasMatch(b, c, now, nullSafe)
  {
    var i :| 0 <= i < |a| && Matches(a[i], c, now, nullSafe);
    assert b[i] == a[i];
  }

  /** After raising a self-matching candidate, the table holds a match for it. */
  lemma RaiseLeavesMatch(s: Log, now: int, c: Candidate, nullSafe: bool)
    requires SelfMatching(c, nullSafe)
    ensures HasMatch(Raise(s, now, c, nullSafe).alerts, c, now, nullSafe)
  {
    RaiseSpec(s, now, c, nullSafe);
    var r := Raise(s, now, c, nullSafe);
    if |r.alerts| == |s.alerts| + 1 {
      assert Matches(r.alerts[|s.alerts|], c, now, nullSafe);
    }
  }

  /** After raising a list, every self-matching candidate of it has a match. */
  lemma {:induction false} RaiseAllLeavesMatches(s: Log, now: int, cs: seq<Candidate>, nullSafe: bool)
    ensures forall c :: c in cs && SelfMatching(c, nullSafe) ==>
      HasMatch(RaiseAll(s, now, cs, nullSafe).alerts, c, now, nullSafe)
  {
    if cs != [] {
      var init := cs[..|cs| - 1];
      var last := cs[|cs| - 1];
      var mid := RaiseAll(s, now, init, nullSafe);
      var r := RaiseAll(s, now, cs, nullSafe);
      RaiseAllLeavesMatches(s, now, init, nullSafe);
      RaiseSpec(mid, now, last, nullSafe);
      forall c | c in cs && SelfMatching(c, nullSafe)
        ensures HasMatch(r.alerts, c, now, nullSafe)
      {
        if c == last {
          RaiseLeavesMatch(mid, now, c, nullSafe);
        } else {
          assert c in init by {
            assert cs == init + [last];
          }
          HasMatchExtend(mid.alerts, r.alerts, c, now, nullSafe);
        }
      }
    }
  }

  /** Candidates that all have a match change nothing. */
  lemma {:induction false} RaiseAllMatched(s: Log, now: int, cs: seq<Candidate>, nullSafe: bool)
    requires forall c :: c in cs ==> HasMatch(s.alerts, c, now, nullSafe)
    ensures RaiseAll(s, now, cs, nullSafe) == s
  {
    if cs != [] {
      assert forall c :: c in cs[..|cs| - 1] ==> c in cs;
      RaiseAllMatched(s, now, cs[..|cs| - 1], nullSafe);
      RaiseSpec(s, now, cs[|cs| - 1], nullSafe);
    }
  }

  /** Under SQL `=`, a candidate with a NULL id is never matched, so it is always appended. */
  lemma NullKeyAlwaysAppended(s: Log, now: int, c: Candidate)
    requires c.traitementId.None? || c.risqueId.None?
    ensures Raise(s, now, c, false) == Log(s.alerts + [NewAlert(s.nextId, c, now)], s.nextId + 1)
  {
    RaiseSpec(s, now, c, false);
  }

  /** No alert inside the 24-hour window at `now` has left it at `later`. */
  predicate StillLive(alerts: seq<Alert>, now: int, later: int)
  {
    forall i :: 0 <= i < |alerts| && alerts[i].creeLe > now - WINDOW ==> alerts[i].creeLe > later - WINDOW
  }

  lemma HasMatchLater(alerts: seq<Alert>, c: Candidate, now: int, later: int, nullSafe: bool)
    requires StillLive(alerts, now, later) && HasMatch(alerts, c, now, nullSafe)
    ensures HasMatch(alerts, c, later, nullSafe)
  {
    var i :| 0 <= i < |alerts| && Matches(alerts[i], c, now, nullSafe);
    assert Matches(alerts[i], c, later, nullSafe);
  }

  /** Alerts raised at `now` are still inside the window at any `later` less than 24 hours on. */
  lemma {:induction false} RaiseAllStillLive(s: Log, now: int, later: int, cs: seq<Candidate>, nullSafe: bool)
    requires later < now + WINDOW && StillLive(s.alerts, now, later)
    ensures StillLive(RaiseAll(s, now, cs, nullSafe).alerts, now, later)
  {
    if cs != [] {
      var mid := RaiseAll(s, now, cs[..|cs| - 1], nullSafe);
      RaiseAllStillLive(s, now, later, cs[..|cs| - 1], nullSafe);
      RaiseSpec(mid, now, cs[|cs| - 1], nullSafe);
    }
  }

  lemma ScanStillLive(s: Log, now: int, later: int, ts: seq<Treatment>, ms: seq<Measure>, rs: seq<Risk>,
                      today: int, nullSafe: bool)
    requires later < now + WINDOW && StillLive(s.alerts, now, later)
    ensures StillLive(Scan(s, now, ts, ms, rs, today, nullSafe).alerts, now, later)
  {
    ScanIsRaiseAll(s, now, ts, ms, rs, today, nullSafe);
    RaiseAllStillLive(s, now, later, ScanCandidates(ts, ms, rs, today), nullSafe);
  }

  /** A candidate that, as written, can never be matched: one of its ids is NULL. */
  predicate HasNullKey(c: Candidate)
  {
    c.traitementId.None? || c.risqueId.None?
  }

  /** As written, raising a list whose candidates with both ids set are all matched already
      appends exactly one alert per candidate with a NULL id. */
  lemma {:induction false} RaiseAllAppendsNullKeys(x: Log, now: int, ds: seq<Candidate>)
    requires forall d :: d in ds && !HasNullKey(d) ==> HasMatch(x.alerts, d, now, false)
    ensures |RaiseAll(x, now, ds, false).alerts| == |x.alerts| + CountIf(ds, HasNullKey)
  {
    if ds != [] {
      var init, last := ds[..|ds| - 1], ds[|ds| - 1];
      assert ds == init + [last];
      assert forall d :: d in init ==> d in ds;
      RaiseAllAppendsNullKeys(x, now, init);
      var mid := RaiseAll(x, now, init, false);
      CountIfAppend(init, [last], HasNullKey);
      RaiseSpec(mid, now, last, false);
      if !HasNullKey(last) {
        HasMatchExtend(x.alerts, mid.alerts, last, now, false);
      } else {
        NullKeyAlwaysAppended(mid, now, last);
      }
    }
  }

  lemma {:induction false} CountIfAll(cs: seq<Candidate>, p: Candidate -> bool)
    requires forall c :: c in cs ==> p(c)
    ensures CountIf(cs, p) == |cs|
  {
    if cs != [] {
      assert forall c :: c in cs[1..] ==> c in cs;
      CountIfAll(cs[1..], p);
    }
  }

  lemma {:induction false} CountIfNone(cs: seq<Candidate>, p: Candidate -> bool)
    requires forall c :: c in cs ==> !p(c)
    ensures CountIf(cs, p) == 0
  {
    if cs != [] {
      assert forall c :: c in cs[1..] ==> c in cs;
      CountIfNone(cs[1..], p);
    }
  }

  /** Of one scan's candidates, exactly the non-compliance ones have a NULL id. */
  lemma NullKeyCount(ts: seq<Treatment>, ms: seq<Measure>, rs: seq<Risk>, today: int)
    ensures CountIf(ScanCandidates(ts, ms, rs, today), HasNullKey) == CountIf(ts, NonCompliant)
  {
    var c1, c2, c3 := NonCompliantCandidates(ts), OverdueCandidates(ms, rs, today), CriticalCandidates(rs);
    CountIfAppend(c1 + c2, c3, HasNullKey);
    CountIfAppend(c1, c2, HasNullKey);
    NonCompliantNullKeys(ts);
    OverdueKeysSet(ms, rs, today);
    CriticalKeysSet(rs);
  }

  lemma NonCompliantNullKeys(ts: seq<Treatment>)
    ensures CountIf(NonCompliantCandidates(ts), HasNullKey) == CountIf(ts, NonCompliant)
  {
    NonCompliantCandidatesSpec(ts);
    CountIfAll(NonCompliantCandidates(ts), HasNullKey);
  }

  lemma OverdueKeysSet(ms: seq<Measure>, rs: seq<Risk>, today: int)
    ensures CountIf(OverdueCandidates(ms, rs, today), HasNullKey) == 0
  {
    OverdueCandidatesSpec(ms, rs, today);
    CountIfNone(OverdueCandidates(ms, rs, today), HasNullKey);
  }

  lemma CriticalKeysSet(rs: seq<Risk>)
    ensures CountIf(CriticalCandidates(rs), HasNullKey) == 0
  {
    CriticalCandidatesSpec(rs);
    forall c | c in CriticalCandidates(rs) ensures !HasNullKey(c) {
      var k :| k in rs && CriticalUntreated(k) && c == CriticalCandidate(k);
    }
    CountIfNone(CriticalCandidates(rs), HasNullKey);
  }

  /** As written: a second scan less than 24 hours later, with no older alert expiring in
      between, appends one more alert for every non-compliant treatment, and nothing else. */
  lemma RescanRepeatsNonCompliant(s: Log, now: int, later: int, ts: seq<Treatment>, ms: seq<Measure>,
                                  rs: seq<Risk>, today: int)
    requires later < now + WINDOW && StillLive(s.alerts, now, later)
    ensures var s1 := Scan(s, now, ts, ms, rs, today, false);
      |Scan(s1, later, ts, ms, rs, today, false).alerts| == |s1.alerts| + CountIf(ts, NonCompliant)
  {
    var cs := ScanCandidates(ts, ms, rs, today);
    var s1 := Scan(s, now, ts, ms, rs, today, false);
    ScanIsRaiseAll(s, now, ts, ms, rs, today, false);
    ScanIsRaiseAll(s1, later, ts, ms, rs, today, false);
    RaiseAllLeavesMatches(s, now, cs, false);
    ScanStillLive(s, now, later, ts, ms, rs, today, false);
    forall d | d in cs && !HasNullKey(d) ensures HasMatch(s1.alerts, d, later, false) {
      HasMatchLater(s1.alerts, d, now, later, false);
    }
    RaiseAllAppendsNullKeys(s1, later, cs);
    NullKeyCount(ts, ms, rs, today);
  }

  /** With null-safe comparison, a second scan less than 24 hours later, with no older alert
      expiring in between, adds nothing. */
  lemma NullSafeRescanAddsNothing(s: Log, now: int, later: int, ts: seq<Treatment>, ms: seq<Measure>,
                                  rs: seq<Risk>, today: int)
    requires later < now + WINDOW && StillLive(s.alerts, now, later)
    ensures var s1 := Scan(s, now, ts, ms, rs, today, true);
      Scan(s1, later, ts, ms, rs, today, true) == s1
  {
    var cs := ScanCandidates(ts, ms, rs, today);
    var s1 := Scan(s, now, ts, ms, rs, today, true);
    ScanIsRaiseAll(s, now, ts, ms, rs, today, true);
    ScanIsRaiseAll(s1, later, ts, ms, rs, today, true);
    RaiseAllLeavesMatches(s, now, cs, true);
    ScanStillLive(s, now, later, ts, ms, rs, today, true);
    forall c | c in cs ensures HasMatch(s1.alerts, c, later, true) {
      HasMatchLater(s1.alerts, c, now, later, true);
    }
    RaiseAllMatched(s1, later, cs, true);
  }

  /** Why the rescan lemmas ask that no alert expire in between: an alert 24 hours old less
      one second suppresses its candidate at `now` but not one second later. */
  lemma ExpiringAlertRaisedAgain(c: Candidate, now: int)
    ensures var s := Log([NewAlert(1, c, now - WINDOW + 1)], 2);
      Raise(s, now, c, true) == s
      && Raise(s, now + 1, c, true) == Log(s.alerts + [NewAlert(2, c, now + 1)], 3)
  {
    var s := Log([NewAlert(1, c, now - WINDOW + 1)], 2);
    assert Matches(s.alerts[0], c, now, true);
    RaiseSpec(s, now, c, true);
    RaiseSpec(s, now + 1, c, true);
  }

  /** The `createAlert` arguments an alert was inserted with. */
  function CandidateOf(a: Alert): Candidate
  {
    Candidate(a.titre, a.message, a.typeAlerte, a.traitementId, a.risqueId, a.utilisateurId)
  }

  /** `a` is an alert that raising `CandidateOf(a)` at `now` inserts: unread and stamped `now`. */
  predicate FreshAt(a: Alert, now: int)
  {
    !a.lu && a.creeLe == now
  }

  /** Every alert a list of raises appends is unread, stamped with the clock, and inserted for
      one of the candidates. */
  lemma {:induction false} RaiseAllNew(s: Log, now: int, cs: seq<Candidate>, nullSafe: bool)
    ensures forall j :: |s.alerts| <= j < |RaiseAll(s, now, cs, nullSafe).alerts| ==>
      FreshAt(RaiseAll(s, now, cs, nullSafe).alerts[j], now)
      && CandidateOf(RaiseAll(s, now, cs, nullSafe).alerts[j]) in cs
  {
    if cs != [] {
      var init := cs[..|cs| - 1];
      var last := cs[|cs| - 1];
      var mid := RaiseAll(s, now, init, nullSafe);
      var r := RaiseAll(s, now, cs, nullSafe);
      RaiseAllNew(s, now, init, nullSafe);
      RaiseSpec(mid, now, last, nullSafe);
      assert forall c :: c in init ==> c in cs;
      forall j | |s.alerts| <= j < |r.alerts|
        ensures FreshAt(r.alerts[j], now) && CandidateOf(r.alerts[j]) in cs
      {
        if j < |mid.alerts| {
          assert r.alerts[j] == mid.alerts[j];
        } else {
          assert r.alerts[j] == NewAlert(mid.nextId, last, now);
        }
      }
    }
  }

  /** The alerts from position `from` on are one per candidate key: each candidate has one of
      them matching it at `now`, each of them is a fresh alert for one of the candidates, and
      no two of them share a key. */
  predicate OneAlertPerKey(alerts: seq<Alert>, from: nat, cs: seq<Candidate>, now: int)
  {
    Covered(alerts, from, cs, now) && AllFresh(alerts, from, cs, now) && KeysDistinct(alerts, from)
  }

  predicate Covered(alerts: seq<Alert>, from: nat, cs: seq<Candidate>, now: int)
  {
    forall c :: c in cs ==> exists j :: from <= j < |alerts| && Matches(alerts[j], c, now, true)
  }

  predicate AllFresh(alerts: seq<Alert>, from: nat, cs: seq<Candidate>, now: int)
  {
    forall j :: from <= j < |alerts| ==> FreshAt(alerts[j], now) && CandidateOf(alerts[j]) in cs
  }

  predicate KeysDistinct(alerts: seq<Alert>, from: nat)
  {
    forall i, j :: from <= i < j < |alerts| ==> !SameKey(alerts[i], alerts[j], true)
  }

  /** With null-safe comparison, raising a list over a table none of whose alerts is inside the
      window appends exactly one alert per candidate key. */
  lemma RaiseAllOutsideWindow(x: Log, now: int, cs: seq<Candidate>)
    requires LogValid(x, now, true)
    requires forall i :: 0 <= i < |x.alerts| ==> x.alerts[i].creeLe <= now - WINDOW
    ensures OneAlertPerKey(RaiseAll(x, now, cs, true).alerts, |x.alerts|, cs, now)
  {
    RaiseAllNew(x, now, cs, true);
    RaiseAllCovers(x, now, cs);
    RaiseAllDistinct(x, now, cs);
  }

  lemma RaiseAllCovers(x: Log, now: int, cs: seq<Candidate>)
    requires forall i :: 0 <= i < |x.alerts| ==> x.alerts[i].creeLe <= now - WINDOW
    ensures Covered(RaiseAll(x, now, cs, true).alerts, |x.alerts|, cs, now)
  {
    var r := RaiseAll(x, now, cs, true);
    RaiseAllLeavesMatches(x, now, cs, true);
    forall c | c in cs
      ensures exists j :: |x.alerts| <= j < |r.alerts| && Matches(r.alerts[j], c, now, true)
    {
      var j :| 0 <= j < |r.alerts| && Matches(r.alerts[j], c, now, true);
    }
  }

  lemma RaiseAllDistinct(x: Log, now: int, cs: seq<Candidate>)
    requires LogValid(x, now, true)
    ensures KeysDistinct(RaiseAll(x, now, cs, true).alerts, |x.alerts|)
  {
    var r := RaiseAll(x, now, cs, true);
    RaiseAllValid(x, now, cs, true);
    RaiseAllNew(x, now, cs, true);
    forall i, j | |x.alerts| <= i < j < |r.alerts|
      ensures !SameKey(r.alerts[i], r.alerts[j], true)
    {
      assert FreshAt(r.alerts[i], now) && FreshAt(r.alerts[j], now);
    }
  }

  /** With null-safe comparison, a scan 24 hours or more after the previous one keeps the table
      and appends exactly one alert per candidate key. */
  lemma NullSafeRescanAfterWindow(s: Log, now: int, later: int, ts: seq<Treatment>, ms: seq<Measure>,
                                  rs: seq<Risk>, today: int)
    requires LogValid(s, now, true) && now + WINDOW <= later
    ensures var s1 := Scan(s, now, ts, ms, rs, today, true);
      var s2 := Scan(s1, later, ts, ms, rs, today, true);
      IsPrefix(s1.alerts, s2.alerts)
      && OneAlertPerKey(s2.alerts, |s1.alerts|, ScanCandidates(ts, ms, rs, today), later)
  {
    var cs := ScanCandidates(ts, ms, rs, today);
    var s1 := Scan(s, now, ts, ms, rs, today, true);
    ScanIsRaiseAll(s, now, ts, ms, rs, today, true);
    ScanIsRaiseAll(s1, later, ts, ms, rs, today, true);
    RaiseAllValid(s, now, cs, true);
    assert LogValid(s1, later, true);
    RaiseAllOutsideWindow(s1, later, cs);
  }

  /** As written: raising the same non-compliant treatment twice at once stores two alerts
      with the same key, which the null-safe reading of the check forbids. */
  lemma NonCompliantDuplicated(s: Log, now: int, t: Treatment)
    ensures var c := NonCompliantCandidate(t);
      var r := Raise(Raise(s, now, c, false), now, c, false);
      |r.alerts| == |s.alerts| + 2 && !Spaced(r.alerts, true)
  {
    var c := NonCompliantCandidate(t);
    var r1 := Raise(s, now, c, false);
    NullKeyAlwaysAppended(s, now, c);
    NullKeyAlwaysAppended(r1, now, c);
    var r := Raise(r1, now, c, false);
    var n := |s.alerts|;
    assert SameKey(r.alerts[n], r.alerts[n + 1], true);
  }

  /** Corrected: with null-safe comparison, raising is idempotent at one clock reading. */
  lemma NullSafeRaiseIdempotent(s: Log, now: int, c: Candidate)
    ensures Raise(Raise(s, now, c, true), now, c, true) == Raise(s, now, c, true)
  {
    var r := Raise(s, now, c, true);
    RaiseLeavesMatch(s, now, c, true);
    RaiseSpec(r, now, c, true);
  }

  // ------------------------------------------------------------ mark as read

  /** `UPDATE Alerte SET lu = TRUE WHERE id = ?` */
  function MarkedRead(alerts: seq<Alert>, id: int): (r: seq<Alert>)
    ensures |r| == |alerts|
    ensures forall i :: 0 <= i < |alerts| && alerts[i].id != id ==> r[i] == alerts[i]
    ensures forall i :: 0 <= i < |alerts| && alerts[i].id == id ==> r[i] == alerts[i].(lu := true)
  {
    seq(|alerts|, i requires 0 <= i < |alerts| =>
      if alerts[i].id == id then alerts[i].(lu := true) else alerts[i])
  }

  /** Marking twice is marking once. */
  lemma MarkedReadIdempotent(alerts: seq<Alert>, id: int)
    ensures MarkedRead(MarkedRead(alerts, id), id) == MarkedRead(alerts, id)
  {
  }

  /** An unknown id changes nothing. */
  lemma MarkedReadUnknown(alerts: seq<Alert>, id: int)
    requires forall i :: 0 <= i < |alerts| ==> alerts[i].id != id
    ensures MarkedRead(alerts, id) == alerts
  {
  }

  lemma MarkedReadValid(s: Log, now: int, nullSafe: bool, id: int)
    requires LogValid(s, now, nullSafe)
    ensures LogValid(Log(MarkedRead(s.alerts, id), s.nextId), now, nullSafe)
    ensures ReadKept(s.alerts, MarkedRead(s.alerts, id))
  {
  }

  // ------------------------------------------------------------ the store

  /** The `Alerte` table with its auto-increment counter and the database clock. */
  class AlertStore {
    var alerts: seq<Alert>
    var nextId: int
    var now: int
    /** False for the comparison as written (SQL `=`), true for the null-safe one. */
    const nullSafe: bool

    function Snapshot(): Log
      reads this
    {
      Log(alerts, nextId)
    }

    ghost predicate Valid()
      reads this
    {
      LogValid(Snapshot(), now, nullSafe)
    }

    constructor (start: int, nullSafeDedup: bool)
      ensures Valid() && alerts == [] && now == start && nullSafe == nullSafeDedup
    {
      alerts := [];
      nextId := 1;
      now := start;
      nullSafe := nullSafeDedup;
    }

    /** The clock moves forward. */
    method Tick(seconds: nat)
      requires Valid()
      modifies this
      ensures Valid() && now == old(now) + seconds && Snapshot() == old(Snapshot())
    {
      now := now + seconds;
    }

    /** `createAlert(titre, message, type, traitementId, risqueId, utilisateurId)` */
    method CreateAlert(titre: string, message: string, typeAlerte: string,
                       traitementId: Option<int>, risqueId: Option<int>, utilisateurId: Option<int>)
      requires Valid()
      modifies this
      ensures Valid() && now == old(now)
      ensures Snapshot() == Raise(old(Snapshot()), now,
        Candidate(titre, message, typeAlerte, traitementId, risqueId, utilisateurId), nullSafe)
      ensures ReadKept(old(alerts), alerts)
    {
      var c := Candidate(titre, message, typeAlerte, traitementId, risqueId, utilisateurId);
      RaiseValid(Snapshot(), now, c, nullSafe);
      var clock := now;
      var existing := Keep(alerts, (a: Alert) => Matches(a, c, clock, nullSafe));
      if |existing| == 0 {
        alerts := alerts + [NewAlert(nextId, c, now)];
        nextId := nextId + 1;
      }
    }

    /** Raises each candidate of a list in order. */
    method RaiseEach(cs: seq<Candidate>)
      requires Valid()
      modifies this
      ensures Valid() && now == old(now)
      ensures Snapshot() == RaiseAll(old(Snapshot()), now, cs, nullSafe)
      ensures ReadKept(old(alerts), alerts)
    {
      for i := 0 to |cs|
        invariant Valid() && now == old(now)
        invariant Snapshot() == RaiseAll(old(Snapshot()), now, cs[..i], nullSafe)
        invariant ReadKept(old(alerts), alerts)
      {
        assert cs[..i + 1][..i] == cs[..i];
        var before := alerts;
        var c := cs[i];
        CreateAlert(c.titre, c.message, c.typeAlerte, c.traitementId, c.risqueId, c.utilisateurId);
        ReadKeptTrans(old(alerts), before, alerts);
      }
      assert cs[..|cs|] == cs;
    }

    /** `checkAlerts` with `CURDATE()` as `today` and the store's clock as `NOW()`. Only the
        first `selectsOk` of the three SELECTs succeed (3 when none fails): a failing one
        throws into the catch, which logs the error and ends the scan. */
    method CheckAlerts(ts: seq<Treatment>, ms: seq<Measure>, rs: seq<Risk>, today: int, selectsOk: nat)
      requires Valid()
      modifies this
      ensures Valid() && now == old(now)
      ensures Snapshot() == ScanUpTo(old(Snapshot()), now, ts, ms, rs, today, nullSafe, selectsOk)
      ensures ReadKept(old(alerts), alerts)
    {
      if selectsOk == 0 {
        return;
      }
      var traitementsSansBase := Keep(ts, NonCompliant);
      var c1 := seq(|traitementsSansBase|, i requires 0 <= i < |traitementsSansBase| =>
        NonCompliantCandidate(traitementsSansBase[i]));
      RaiseEach(c1);
      if selectsOk == 1 {
        return;
      }
      var a1 := alerts;

      var mesuresEnRetard := OverdueRows(ms, rs, today);
      var c2 := seq(|mesuresEnRetard|, i requires 0 <= i < |mesuresEnRetard| =>
        OverdueCandidate(mesuresEnRetard[i]));
      RaiseEach(c2);
      ReadKeptTrans(old(alerts), a1, alerts);
      if selectsOk == 2 {
        return;
      }
      var a2 := alerts;

      var risquesCritiques := Keep(rs, CriticalUntreated);
      var c3 := seq(|risquesCritiques|, i requires 0 <= i < |risquesCritiques| =>
        CriticalCandidate(risquesCritiques[i]));
      RaiseEach(c3);
      ReadKeptTrans(old(alerts), a2, alerts);
    }

    /** The PUT handler's update: only the alert with that id becomes read. */
    method MarkRead(id: int) returns (msg: string)
      requires Valid()
      modifies this
      ensures Valid() && now == old(now) && nextId == old(nextId)
      ensures alerts == MarkedRead(old(alerts), id)
      ensures ReadKept(old(alerts), alerts)
      ensures msg == "Alerte marquée comme lue"
    {
      MarkedReadValid(Snapshot(), now, nullSafe, id);
      alerts := MarkedRead(alerts, id);
      msg := "Alerte marquée comme lue";
    }
  }
}

=== FILE: common.dfy ===
/** Shared vocabulary: nullable values, SQL equality, and the list operations
    (filter, count, distinct values, GROUP BY counts) that the register's
    queries and pages are built from. */
module Common {

  /** A nullable column or an optional JavaScript value. */
  datatype Option<+T> = None | Some(value: T)

  /** The outcome of one database read: the store failed, or it returned rows. */
  datatype QueryResult<+T> = QueryError | Rows(rows: seq<T>)

  /** SQL `a = b` used in a WHERE clause: NULL on either side is never equal. */
  predicate SqlEq<T(==)>(a: Option<T>, b: Option<T>)
  {
    a.Some? && b.Some? && a.value == b.value
  }

  /** SQL `a <=> b` (null-safe equality): two NULLs are equal. */
  predicate NullSafeEq<T(==)>(a: Option<T>, b: Option<T>)
  {
    a == b
  }

  /** JavaScript `Array.prototype.includes` over values compared with `===`. */
  function Includes<T(==)>(xs: seq<T>, x: T): (r: bool)
    ensures r <==> x in xs
  {
    if xs == [] then false
    else xs[0] == x || Includes(xs[1..], x)
  }

  /** `Array.prototype.some`: some element satisfies `p`. */
  function AnyOf<T>(s: seq<T>, p: T -> bool): (r: bool)
    ensures r <==> exists i :: 0 <= i < |s| && p(s[i])
  {
    if s == [] then false
    else p(s[0]) || AnyOf(s[1..], p)
  }

  /** `Array.prototype.filter`: the elements satisfying `p`, in their order. */
  function Keep<T>(s: seq<T>, p: T -> bool): seq<T>
  {
    if s == [] then []
    else (if p(s[0]) then [s[0]] else []) + Keep(s[1..], p)
  }

  /** `xs.filter(p).length` */
  function CountIf<T>(s: seq<T>, p: T -> bool): nat
  {
    if s == [] then 0
    else (if p(s[0]) then 1 else 0) + CountIf(s[1..], p)
  }

  /** `a` is an order-preserving subsequence of `b`. */
  predicate IsSubsequence<T(==)>(a: seq<T>, b: seq<T>)
  {
    if a == [] then true
    else if b == [] then false
    else (a[0] == b[0] && IsSubsequence(a[1..], b[1..])) || IsSubsequence(a, b[1..])
  }

  lemma {:induction false} SubsequenceOfTail<T>(a: seq<T>, b: seq<T>)
    requires b != [] && IsSubsequence(a, b[1..])
    ensures IsSubsequence(a, b)
  {
  }

  /** A filter keeps exactly the elements satisfying the predicate, in order. */
  lemma {:induction false} KeepSpec<T>(s: seq<T>, p: T -> bool)
    ensures IsSubsequence(Keep(s, p), s)
    ensures forall x :: x in Keep(s, p) <==> x in s && p(x)
    ensures |Keep(s, p)| == CountIf(s, p) <= |s|
  {
    if s != [] {
      KeepSpec(s[1..], p);
      var rest := Keep(s[1..], p);
      if p(s[0]) {
        assert Keep(s, p) == [s[0]] + rest;
        assert ([s[0]] + rest)[1..] == rest;
      } else {
        assert Keep(s, p) == rest;
        if rest != [] {
          SubsequenceOfTail(rest, s);
        }
      }
    }
  }

  /** Filtering twice is filtering once by the conjunction. */
  lemma {:induction false} KeepKeep<T>(s: seq<T>, p: T -> bool, q: T -> bool)
    ensures Keep(Keep(s, p), q) == Keep(s, x => p(x) && q(x))
  {
    if s != [] {
      KeepKeep(s[1..], p, q);
      var rest := Keep(s[1..], p);
      if p(s[0]) {
        assert Keep(s, p) == [s[0]] + rest;
        assert ([s[0]] + rest)[1..] == rest;
      } else {
        assert Keep(s, p) == rest;
      }
    }
  }

  /** A filter that every element passes returns its input. */
  lemma {:induction false} KeepAll<T>(s: seq<T>, p: T -> bool)
    requires forall i :: 0 <= i < |s| ==> p(s[i])
    ensures Keep(s, p) == s
  {
    if s != [] {
      KeepAll(s[1..], p);
    }
  }

  /** Filters by predicates that agree everywhere give the same result. */
  lemma {:induction false} KeepSame<T>(s: seq<T>, p: T -> bool, q: T -> bool)
    requires forall x :: p(x) == q(x)
    ensures Keep(s, p) == Keep(s, q)
  {
    if s != [] {
      KeepSame(s[1..], p, q);
    }
  }

  /** Filtering by `p` and then by `q` is filtering once by any `r` that is their conjunction. */
  lemma {:induction false} KeepThen<T>(s: seq<T>, p: T -> bool, q: T -> bool, r: T -> bool)
    requires forall x :: r(x) == (p(x) && q(x))
    ensures Keep(Keep(s, p), q) == Keep(s, r)
  {
    if s != [] {
      KeepThen(s[1..], p, q, r);
      var rest := Keep(s[1..], p);
      if p(s[0]) {
        assert Keep(s, p) == [s[0]] + rest;
        assert ([s[0]] + rest)[1..] == rest;
      } else {
        assert Keep(s, p) == rest;
      }
    }
  }

  /** A filter that no element passes returns nothing. */
  lemma {:induction false} KeepNone<T>(s: seq<T>, p: T -> bool)
    requires forall i :: 0 <= i < |s| ==> !p(s[i])
    ensures Keep(s, p) == []
  {
    if s != [] {
      KeepNone(s[1..], p);
    }
  }

  lemma {:induction false} KeepAppend<T>(a: seq<T>, b: seq<T>, p: T -> bool)
    ensures Keep(a + b, p) == Keep(a, p) + Keep(b, p)
  {
    if a != [] {
      assert (a + b)[1..] == a[1..] + b;
      KeepAppend(a[1..], b, p);
    } else {
      assert a + b == b;
    }
  }

  /** Two predicates that never hold together count no more than the whole list. */
  lemma {:induction false} CountExclusive<T>(s: seq<T>, p: T -> bool, q: T -> bool)
    requires forall i :: 0 <= i < |s| ==> !(p(s[i]) && q(s[i]))
    ensures CountIf(s, p) + CountIf(s, q) == CountIf(s, x => p(x) || q(x)) <= |s|
  {
    if s != [] {
      CountExclusive(s[1..], p, q);
    }
  }

  lemma {:induction false} CountIfAppend<T>(a: seq<T>, b: seq<T>, p: T -> bool)
    ensures CountIf(a + b, p) == CountIf(a, p) + CountIf(b, p)
  {
    if a != [] {
      assert (a + b)[1..] == a[1..] + b;
      CountIfAppend(a[1..], b, p);
    } else {
      assert a + b == b;
    }
  }

  /** Taking out the element at `k` takes it out of the multiset and of the count. */
  lemma RemoveAt<T>(b: seq<T>, k: int, p: T -> bool)
    requires 0 <= k < |b|
    ensures multiset(b) == multiset(b[..k] + b[k + 1..]) + multiset{b[k]}
    ensures CountIf(b, p) == CountIf(b[..k] + b[k + 1..], p) + (if p(b[k]) then 1 else 0)
  {
    var front, back := b[..k], b[k + 1..];
    assert b[k..] == [b[k]] + back;
    assert b == front + b[k..];
    RemoveAtMultiset(front, b[k], back);
    RemoveAtCount(front, b[k], back, p);
  }

  lemma RemoveAtCount<T>(front: seq<T>, x: T, back: seq<T>, p: T -> bool)
    ensures CountIf(front + ([x] + back), p) == CountIf(front + back, p) + (if p(x) then 1 else 0)
  {
    CountIfAppend(front, [x] + back, p);
    assert ([x] + back)[1..] == back;
    CountIfAppend(front, back, p);
  }

  lemma RemoveAtMultiset<T>(front: seq<T>, x: T, back: seq<T>)
    ensures multiset(front + ([x] + back)) == multiset(front + back) + multiset{x}
  {
    calc {
      multiset(front + ([x] + back));
      multiset(front) + multiset([x] + back);
      multiset(front) + (multiset{x} + multiset(back));
      multiset(front + back) + multiset{x};
    }
  }

  lemma MultisetCancel<T>(x: multiset<T>, y: multiset<T>, c: T)
    requires x + multiset{c} == y + multiset{c}
    ensures x == y
  {
    assert x == (x + multiset{c}) - multiset{c};
    assert y == (y + multiset{c}) - multiset{c};
  }

  /** Reordering a list does not change how many of its elements satisfy `p`. */
  lemma {:induction false} CountIfPerm<T>(a: seq<T>, b: seq<T>, p: T -> bool)
    requires multiset(a) == multiset(b)
    ensures CountIf(a, p) == CountIf(b, p)
    decreases |a|
  {
    if a == [] {
      assert |b| == |multiset(b)| == 0;
    } else {
      assert a == [a[0]] + a[1..];
      assert a[0] in multiset(b);
      var k :| 0 <= k < |b| && b[k] == a[0];
      RemoveAt(b, k, p);
      MultisetCancel(multiset(a[1..]), multiset(b[..k] + b[k + 1..]), a[0]);
      CountIfPerm(a[1..], b[..k] + b[k + 1..], p);
    }
  }

  predicate NoDuplicates<T(==)>(s: seq<T>)
  {
    forall i, j :: 0 <= i < j < |s| ==> s[i] != s[j]
  }

  lemma NoDuplicatesHead<T>(s: seq<T>)
    requires s != [] && NoDuplicates(s)
    ensures s[0] !in s[1..]
  {
  }

  /** `Array.from(new Set(s))`: each value once, at its first occurrence. */
  function Distinct<T(==,!new)>(s: seq<T>): (r: seq<T>)
    ensures NoDuplicates(r)
    ensures forall x :: x in r <==> x in s
    decreases |s|
  {
    if s == [] then []
    else
      var d := Distinct(s[..|s| - 1]);
      assert forall x :: x in s <==> x in s[..|s| - 1] || x == s[|s| - 1] by {
        assert s == s[..|s| - 1] + [s[|s| - 1]];
      }
      if s[|s| - 1] in d then d else d + [s[|s| - 1]]
  }

  /** The number of occurrences of `k` in `ks`. */
  function Occurrences<T(==)>(ks: seq<T>, k: T): nat
  {
    if ks == [] then 0
    else (if ks[0] == k then 1 else 0) + Occurrences(ks[1..], k)
  }

  /** `rows.map(f)`: one column of a table. */
  function Column<T, K>(s: seq<T>, f: T -> K): (r: seq<K>)
    ensures |r| == |s| && forall i :: 0 <= i < |s| ==> r[i] == f(s[i])
  {
    if s == [] then [] else [f(s[0])] + Column(s[1..], f)
  }

  /** A value is in a column exactly when some row carries it. */
  lemma ColumnMembers<T, K>(s: seq<T>, f: T -> K, k: K)
    ensures k in Column(s, f) <==> exists i :: 0 <= i < |s| && f(s[i]) == k
  {
    if k in Column(s, f) {
      var i :| 0 <= i < |s| && Column(s, f)[i] == k;
    }
  }

  /** A list built element by element from `s` holds the image of every element of `s`,
      and nothing else. */
  lemma MapMembers<T, U>(s: seq<T>, f: T -> U, r: seq<U>)
    requires |r| == |s| && forall i :: 0 <= i < |s| ==> r[i] == f(s[i])
    ensures forall x :: x in s ==> f(x) in r
    ensures forall y :: y in r ==> exists x :: x in s && y == f(x)
  {
    forall x | x in s ensures f(x) in r {
      var i :| 0 <= i < |s| && s[i] == x;
      assert r[i] == f(x);
    }
    forall y | y in r ensures exists x :: x in s && y == f(x) {
      var i :| 0 <= i < |r| && r[i] == y;
      assert s[i] in s;
    }
  }

  /** `s.filter(p).map(f)`: one image per kept element, the image of every kept element,
      and only images of kept elements. */
  lemma MapKeepSpec<T, U>(s: seq<T>, p: T -> bool, f: T -> U, r: seq<U>)
    requires |r| == |Keep(s, p)| && forall i :: 0 <= i < |r| ==> r[i] == f(Keep(s, p)[i])
    ensures |r| == CountIf(s, p)
    ensures forall x :: x in s && p(x) ==> f(x) in r
    ensures forall y :: y in r ==> exists x :: x in s && p(x) && y == f(x)
  {
    KeepSpec(s, p);
    MapMembers(Keep(s, p), f, r);
    forall y | y in r ensures exists x :: x in s && p(x) && y == f(x) {
      var x :| x in Keep(s, p) && y == f(x);
    }
  }

  /** One GROUP BY result: a key and the number of rows that carry it. */
  datatype Group<K> = Group(key: K, count: nat)

  function GroupKeys<K>(g: seq<Group<K>>): seq<K>
  {
    if g == [] then [] else [g[0].key] + GroupKeys(g[1..])
  }

  function SumCounts<K>(g: seq<Group<K>>): nat
  {
    if g == [] then 0 else g[0].count + SumCounts(g[1..])
  }

  /** The count recorded for `k`, or 0 when `k` has no group. */
  function CountFor<K(==)>(g: seq<Group<K>>, k: K): nat
  {
    if g == [] then 0
    else if g[0].key == k then g[0].count
    else CountFor(g[1..], k)
  }

  /** Adds one row with key `k`: bumps its group or opens a new one. */
  function Bump<K(==)>(g: seq<Group<K>>, k: K): seq<Group<K>>
  {
    if g == [] then [Group(k, 1)]
    else if g[0].key == k then [Group(k, g[0].count + 1)] + g[1..]
    else [g[0]] + Bump(g[1..], k)
  }

  /** `SELECT key, COUNT(*) ... GROUP BY key` (group order is not specified by SQL). */
  function GroupCount<K(==)>(ks: seq<K>): seq<Group<K>>
  {
    if ks == [] then [] else Bump(GroupCount(ks[1..]), ks[0])
  }

  lemma {:induction false} BumpSpec<K>(g: seq<Group<K>>, k: K)
    ensures SumCounts(Bump(g, k)) == SumCounts(g) + 1
    ensures forall j :: CountFor(Bump(g, k), j) == CountFor(g, j) + (if j == k then 1 else 0)
    ensures NoDuplicates(GroupKeys(g)) ==> NoDuplicates(GroupKeys(Bump(g, k)))
    ensures forall j :: j in GroupKeys(Bump(g, k)) <==> j in GroupKeys(g) || j == k
  {
    if g != [] {
      BumpSpec(g[1..], k);
      if g[0].key == k {
        assert GroupKeys(Bump(g, k)) == GroupKeys(g);
        assert Bump(g, k)[1..] == g[1..];
        assert forall j :: j != k ==> CountFor(Bump(g, k), j) == CountFor(g[1..], j);
      } else {
        var b := Bump(g[1..], k);
        assert Bump(g, k) == [g[0]] + b;
        assert ([g[0]] + b)[1..] == b;
        assert GroupKeys(Bump(g, k)) == [g[0].key] + GroupKeys(b);
        assert GroupKeys(g) == [g[0].key] + GroupKeys(g[1..]);
        if NoDuplicates(GroupKeys(g)) {
          assert GroupKeys(g)[1..] == GroupKeys(g[1..]);
          NoDuplicatesHead(GroupKeys(g));
        }
      }
    }
  }

  /** The count of one key, as a separate fact. */
  lemma GroupCountAt<K>(ks: seq<K>, k: K)
    ensures CountFor(GroupCount(ks), k) == Occurrences(ks, k)
  {
    GroupCountSpec(ks);
  }

  /** GROUP BY counts: distinct keys, each counting exactly its rows, summing to the row count. */
  lemma {:induction false} GroupCountSpec<K>(ks: seq<K>)
    ensures SumCounts(GroupCount(ks)) == |ks|
    ensures NoDuplicates(GroupKeys(GroupCount(ks)))
    ensures forall k :: CountFor(GroupCount(ks), k) == Occurrences(ks, k)
    ensures forall k :: k in GroupKeys(GroupCount(ks)) <==> k in ks
  {
    if ks != [] {
      GroupCountSpec(ks[1..]);
      BumpSpec(GroupCount(ks[1..]), ks[0]);
      assert forall k :: k in ks <==> k in ks[1..] || k == ks[0] by {
        assert ks == [ks[0]] + ks[1..];
      }
    }
  }
}

=== FILE: dashboard.dfy ===
/** GET `/dashboard/stats`: read-only aggregates over the register's tables.
    Each GROUP BY is modelled as `GroupCount` over the grouped column. */
module Dashboard {
  import opened Common
  import opened Records
  import AlertService

  /** The four risk levels of the CASE expression, from highest to lowest. */
  datatype Level = Critique | Eleve | Moyen | Faible

  function LevelName(l: Level): string
  {
    match l
    case Critique => "Critique"
    case Eleve => "Élevé"
    case Moyen => "Moyen"
    case Faible => "Faible"
  }

  /** The CASE over `score_risque`. A NULL score satisfies no WHEN and falls to ELSE. */
  function RiskLevel(score: Option<int>): (r: Level)
    ensures r == Critique <==> score.Some? && score.value >= 80
    ensures r == Eleve <==> score.Some? && 60 <= score.value < 80
    ensures r == Moyen <==> score.Some? && 40 <= score.value < 60
    ensures r == Faible <==> score.None? || score.value < 40
  {
    if score.Some? && score.value >= 80 then Critique
    else if score.Some? && score.value >= 60 then Eleve
    else if score.Some? && score.value >= 40 then Moyen
    else Faible
  }

  /** The position of a level on the scale, Faible lowest. */
  function Rank(l: Level): (r: nat)
    ensures r <= 3
  {
    match l
    case Faible => 0
    case Moyen => 1
    case Eleve => 2
    case Critique => 3
  }

  /** A higher score never gets a lower level. */
  lemma LevelMonotone(a: int, b: int)
    requires a <= b
    ensures Rank(RiskLevel(Some(a))) <= Rank(RiskLevel(Some(b)))
  {
  }

  /** The response body. */
  datatype Stats = Stats(
    totalTraitements: nat,
    conformite: seq<Group<Option<string>>>,
    risques: seq<Group<Level>>,
    mesures: seq<Group<Option<string>>>,
    alertesNonLues: nat,
    poles: seq<Group<string>>)

  /** The non-NULL poles, one per treatment that has one (`WHERE pole IS NOT NULL`). */
  function NonNullPoles(ts: seq<Treatment>): (r: seq<string>)
    ensures |r| <= |ts|
  {
    if ts == [] then []
    else (if ts[0].pole.Some? then [ts[0].pole.value] else []) + NonNullPoles(ts[1..])
  }

  lemma {:induction false} NonNullPolesSpec(ts: seq<Treatment>, p: string)
    ensures Occurrences(NonNullPoles(ts), p) == CountIf(ts, (t: Treatment) => t.pole == Some(p))
    ensures |NonNullPoles(ts)| == CountIf(ts, (t: Treatment) => t.pole.Some?)
  {
    if ts != [] {
      NonNullPolesSpec(ts[1..], p);
      OccurrencesAppend(if ts[0].pole.Some? then [ts[0].pole.value] else [], NonNullPoles(ts[1..]), p);
    }
  }

  lemma {:induction false} OccurrencesAppend<T>(a: seq<T>, b: seq<T>, k: T)
    ensures Occurrences(a + b, k) == Occurrences(a, k) + Occurrences(b, k)
  {
    if a != [] {
      assert (a + b)[1..] == a[1..] + b;
      OccurrencesAppend(a[1..], b, k);
    } else {
      assert a + b == b;
    }
  }

  function Unread(alerts: seq<Alert>): nat
  {
    CountIf(alerts, (a: Alert) => !a.lu)
  }

  function StatutOf(t: Treatment): Option<string> { t.statutConformite }
  function LevelOf(r: Risk): Level { RiskLevel(r.scoreRisque) }
  function MeasureStatutOf(m: Measure): Option<string> { m.statut }

  /** The six queries of the handler, over the tables as they stand. */
  function ComputeStats(ts: seq<Treatment>, rs: seq<Risk>, ms: seq<Measure>, alerts: seq<Alert>): Stats
  {
    Stats(
      |ts|,
      GroupCount(Column(ts, StatutOf)),
      GroupCount(Column(rs, LevelOf)),
      GroupCount(Column(ms, MeasureStatutOf)),
      Unread(alerts),
      GroupCount(NonNullPoles(ts)))
  }

  /** The per-status groups sum to `totalTraitements`, count exactly their rows, and a NULL
      status forms a group of its own when some treatment has none. */
  lemma ConformiteCounts(ts: seq<Treatment>, rs: seq<Risk>, ms: seq<Measure>, alerts: seq<Alert>)
    ensures var s := ComputeStats(ts, rs, ms, alerts);
      SumCounts(s.conformite) == s.totalTraitements == |ts|
      && NoDuplicates(GroupKeys(s.conformite))
      && (forall st :: CountFor(s.conformite, st) == Occurrences(Column(ts, StatutOf), st))
      && (None in GroupKeys(s.conformite) <==> exists i :: 0 <= i < |ts| && ts[i].statutConformite.None?)
  {
    var ks := Column(ts, StatutOf);
    GroupCountSpec(ks);
    forall st ensures CountFor(ComputeStats(ts, rs, ms, alerts).conformite, st) == Occurrences(ks, st) {
      GroupCountAt(ks, st);
    }
    ColumnMembers(ts, StatutOf, None);
  }

  /** The per-level groups sum to the number of risks and count exactly the risks of that level. */
  lemma RisqueCounts(ts: seq<Treatment>, rs: seq<Risk>, ms: seq<Measure>, alerts: seq<Alert>)
    ensures var s := ComputeStats(ts, rs, ms, alerts);
      SumCounts(s.risques) == |rs|
      && NoDuplicates(GroupKeys(s.risques))
      && (forall l :: CountFor(s.risques, l) == Occurrences(Column(rs, LevelOf), l))
  {
    var ks := Column(rs, LevelOf);
    GroupCountSpec(ks);
  }

  /** The per-status measure groups sum to the number of measures. */
  lemma MesureCounts(ts: seq<Treatment>, rs: seq<Risk>, ms: seq<Measure>, alerts: seq<Alert>)
    ensures var s := ComputeStats(ts, rs, ms, alerts);
      SumCounts(s.mesures) == |ms|
      && NoDuplicates(GroupKeys(s.mesures))
      && (forall st :: CountFor(s.mesures, st) == Occurrences(Column(ms, MeasureStatutOf), st))
  {
    var ks := Column(ms, MeasureStatutOf);
    GroupCountSpec(ks);
    forall st ensures CountFor(ComputeStats(ts, rs, ms, alerts).mesures, st) == Occurrences(ks, st) {
      GroupCountAt(ks, st);
    }
  }

  /** The pole groups count the treatments of each pole and leave NULL poles out. */
  lemma PoleCounts(ts: seq<Treatment>, rs: seq<Risk>, ms: seq<Measure>, alerts: seq<Alert>)
    ensures var s := ComputeStats(ts, rs, ms, alerts);
      SumCounts(s.poles) == CountIf(ts, (t: Treatment) => t.pole.Some?) <= |ts|
      && NoDuplicates(GroupKeys(s.poles))
      && (forall p :: CountFor(s.poles, p) == CountIf(ts, (t: Treatment) => t.pole == Some(p)))
  {
    GroupCountSpec(NonNullPoles(ts));
    forall p ensures CountFor(ComputeStats(ts, rs, ms, alerts).poles, p)
                       == CountIf(ts, (t: Treatment) => t.pole == Some(p)) {
      GroupCountAt(NonNullPoles(ts), p);
      NonNullPolesSpec(ts, p);
    }
    NonNullPolesSpec(ts, []);
    KeepSpec(ts, (t: Treatment) => t.pole.Some?);
  }

  /** `alertesNonLues` counts exactly the unread alerts: the read ones are what is left. */
  lemma UnreadSpec(alerts: seq<Alert>)
    ensures Unread(alerts) + CountIf(alerts, (a: Alert) => a.lu) == |alerts|
    ensures (forall i :: 0 <= i < |alerts| ==> alerts[i].lu) <==> Unread(alerts) == 0
  {
    CountExclusive(alerts, (a: Alert) => !a.lu, (a: Alert) => a.lu);
    KeepSpec(alerts, (a: Alert) => !a.lu);
    KeepAll(alerts, (a: Alert) => !a.lu || a.lu);
  }

  /** Marking an alert read lowers the unread count by the number of unread alerts with that
      id, so with distinct ids by at most one, and never raises it. */
  lemma {:induction false} UnreadAfterMarkRead(alerts: seq<Alert>, id: int)
    ensures Unread(AlertService.MarkedRead(alerts, id)) + CountIf(alerts, (a: Alert) => a.id == id && !a.lu)
            == Unread(alerts)
  {
    if alerts != [] {
      UnreadAfterMarkRead(alerts[1..], id);
      assert AlertService.MarkedRead(alerts, id)[1..] == AlertService.MarkedRead(alerts[1..], id);
    }
  }
}

=== FILE: excel_row.dfy ===
/** The normalisation of one spreadsheet row into a treatment record, shared
    by the import route and the import script. A row maps column headers to
    string cells; a header missing from the sheet is absent from the map. */
module ExcelRow {
  import opened Common
  import opened Text

  type Row = map<string, string>

  const NOM := "Nom du Traitement"
  const POLE := "Nom de l'organisation"
  const FINALITE := "Finalité (Description)"
  const BASE_LEGALE := "Base Légale"
  const TYPE_DCP := "Catégories de données personnelles collectées"
  const DUREE := "Durée de conservation"
  const TRANSFERT := "Transfert hors UE \r\n(O/N + PAYS + GARANTIES)"
  const MESURES := "Mesures de sécurité (Description)"
  const CONFORMITE := "Conformité RGPD (O/N + Explication)"

  /** The values written by the upsert for one row. */
  datatype ImportedRecord = ImportedRecord(
    nom: string,
    pole: Option<string>,
    baseLegale: Option<string>,
    finalite: Option<string>,
    dureeConservation: Option<int>,
    typeDcp: Option<string>,
    nombrePersonnes: int,
    transfertHorsUe: bool,
    mesuresSecurite: Option<string>,
    statutConformite: string)

  /** `row[key] || null`: a missing or empty cell is NULL. */
  function OrNull(row: Row, key: string): (r: Option<string>)
    ensures r.Some? <==> key in row && row[key] != ""
    ensures r.Some? ==> r.value == row[key]
  {
    if key in row && row[key] != "" then Some(row[key]) else None
  }

  /** `row[key] || ""` */
  function OrEmpty(row: Row, key: string): string
  {
    if key in row then row[key] else ""
  }

  // ------------------------------------------------------------ legal basis

  /** One step of the keyword chain: a keyword of the lowered text and its legal basis. */
  datatype BasisRule = BasisRule(keyword: string, basis: string)

  const LEGAL_BASIS_RULES := [
    BasisRule("obligation", "Obligation légale"),
    BasisRule("contrat", "Contrat"),
    BasisRule("légitime", "Intérêt légitime"),
    BasisRule("consent", "Consentement"),
    BasisRule("intérêt vital", "Intérêt vital"),
    BasisRule("mission", "Mission publique")]

  /** The legal basis of the first rule whose keyword occurs in `text`, if any. */
  function FirstMatch(rules: seq<BasisRule>, text: string): (r: Option<string>)
    ensures r.Some? ==> exists rule :: rule in rules && r.value == rule.basis
  {
    if rules == [] then None
    else if Contains(text, rules[0].keyword) then Some(rules[0].basis)
    else FirstMatch(rules[1..], text)
  }

  /** The chain picks the first matching rule in order, and gives NULL when none matches. */
  lemma {:induction false} FirstMatchSpec(rules: seq<BasisRule>, text: string)
    ensures FirstMatch(rules, text).None? <==>
      forall k :: 0 <= k < |rules| ==> !Contains(text, rules[k].keyword)
    ensures forall k :: (0 <= k < |rules| && Contains(text, rules[k].keyword)
                         && (forall j :: 0 <= j < k ==> !Contains(text, rules[j].keyword)))
                        ==> FirstMatch(rules, text) == Some(rules[k].basis)
    ensures FirstMatch(rules, text).Some? ==>
              exists k :: 0 <= k < |rules| && Contains(text, rules[k].keyword)
                          && FirstMatch(rules, text) == Some(rules[k].basis)
  {
    if rules != [] {
      FirstMatchSpec(rules[1..], text);
      if !Contains(text, rules[0].keyword) {
        forall k | 0 < k < |rules| && Contains(text, rules[k].keyword)
            && (forall j :: 0 <= j < k ==> !Contains(text, rules[j].keyword))
          ensures FirstMatch(rules, text) == Some(rules[k].basis)
        {
          assert rules[k] == rules[1..][k - 1];
          assert forall j :: 0 <= j < k - 1 ==> rules[1..][j] == rules[j + 1];
        }
        if FirstMatch(rules, text).Some? {
          var k :| 0 <= k < |rules[1..]| && Contains(text, rules[1..][k].keyword)
            && FirstMatch(rules[1..], text) == Some(rules[1..][k].basis);
          assert rules[1..][k] == rules[k + 1];
        }
        if forall k :: 0 <= k < |rules[1..]| ==> !Contains(text, rules[1..][k].keyword) {
          assert forall k :: 1 <= k < |rules| ==> rules[k] == rules[1..][k - 1];
        }
      }
    }
  }

  /** The rule table unrolled into the `if ... else if` chain the import code writes out. */
  lemma ChainUnrolled(text: string)
    ensures FirstMatch(LEGAL_BASIS_RULES, text) ==
      if Contains(text, "obligation") then Some("Obligation légale")
      else if Contains(text, "contrat") then Some("Contrat")
      else if Contains(text, "légitime") then Some("Intérêt légitime")
      else if Contains(text, "consent") then Some("Consentement")
      else if Contains(text, "intérêt vital") then Some("Intérêt vital")
      else if Contains(text, "mission") then Some("Mission publique")
      else None
  {
    var r0 := LEGAL_BASIS_RULES;
    var r1 := r0[1..];
    var r2 := r1[1..];
    var r3 := r2[1..];
    var r4 := r3[1..];
    var r5 := r4[1..];
    assert r0[0] == BasisRule("obligation", "Obligation légale");
    assert r1[0] == BasisRule("contrat", "Contrat");
    assert r2[0] == BasisRule("légitime", "Intérêt légitime");
    assert r3[0] == BasisRule("consent", "Consentement");
    assert r4[0] == BasisRule("intérêt vital", "Intérêt vital");
    assert r5 == [BasisRule("mission", "Mission publique")];
    assert FirstMatch(r5[1..], text) == None;
    assert FirstMatch(r5, text) == if Contains(text, "mission") then Some("Mission publique") else None;
    assert FirstMatch(r4, text) == if Contains(text, "intérêt vital") then Some("Intérêt vital") else FirstMatch(r5, text);
    assert FirstMatch(r3, text) == if Contains(text, "consent") then Some("Consentement") else FirstMatch(r4, text);
    assert FirstMatch(r2, text) == if Contains(text, "légitime") then Some("Intérêt légitime") else FirstMatch(r3, text);
    assert FirstMatch(r1, text) == if Contains(text, "contrat") then Some("Contrat") else FirstMatch(r2, text);
    assert FirstMatch(r0, text) == if Contains(text, "obligation") then Some("Obligation légale") else FirstMatch(r1, text);
  }

  const BASES := ["Obligation légale", "Contrat", "Intérêt légitime",
                  "Consentement", "Intérêt vital", "Mission publique"]

  lemma FirstMatchBases(text: string)
    ensures FirstMatch(LEGAL_BASIS_RULES, text).Some? ==> FirstMatch(LEGAL_BASIS_RULES, text).value in BASES
  {
    var r := FirstMatch(LEGAL_BASIS_RULES, text);
    if r.Some? {
      var rule :| rule in LEGAL_BASIS_RULES && r.value == rule.basis;
      assert rule == LEGAL_BASIS_RULES[0] || rule == LEGAL_BASIS_RULES[1] || rule == LEGAL_BASIS_RULES[2]
        || rule == LEGAL_BASIS_RULES[3] || rule == LEGAL_BASIS_RULES[4] || rule == LEGAL_BASIS_RULES[5];
    }
  }

  /** The legal basis of a row: the keyword chain over the lowered "Base Légale" cell. */
  function LegalBasis(row: Row): (r: Option<string>)
    ensures r.Some? ==> r.value in BASES
  {
    FirstMatchBases(LowerStr(OrEmpty(row, BASE_LEGALE)));
    FirstMatch(LEGAL_BASIS_RULES, LowerStr(OrEmpty(row, BASE_LEGALE)))
  }

  /** An earlier keyword wins: a text naming both a contract and consent is a contract. */
  lemma ContractBeforeConsent(row: Row)
    requires Contains(LowerStr(OrEmpty(row, BASE_LEGALE)), "contrat")
    requires !Contains(LowerStr(OrEmpty(row, BASE_LEGALE)), "obligation")
    ensures LegalBasis(row) == Some("Contrat")
  {
    FirstMatchSpec(LEGAL_BASIS_RULES, LowerStr(OrEmpty(row, BASE_LEGALE)));
    assert LEGAL_BASIS_RULES[0].keyword == "obligation";
    assert LEGAL_BASIS_RULES[1] == BasisRule("contrat", "Contrat");
  }

  /** Consent is picked when none of the three earlier keywords occurs. */
  lemma PicksConsent(text: string)
    requires !Contains(text, "obligation") && !Contains(text, "contrat") && !Contains(text, "légitime")
    requires Contains(text, "consent")
    ensures FirstMatch(LEGAL_BASIS_RULES, text) == Some("Consentement")
  {
    FirstMatchSpec(LEGAL_BASIS_RULES, text);
    assert LEGAL_BASIS_RULES[0].keyword == "obligation";
    assert LEGAL_BASIS_RULES[1].keyword == "contrat";
    assert LEGAL_BASIS_RULES[2].keyword == "légitime";
    assert LEGAL_BASIS_RULES[3] == BasisRule("consent", "Consentement");
  }

  /** Consent is recognised by its stem, whatever the case of the cell. */
  lemma ConsentByStem(row: Row)
    requires BASE_LEGALE in row && row[BASE_LEGALE] == "CONSENTEMENT"
    ensures LegalBasis(row) == Some("Consentement")
  {
    var low := LowerStr(OrEmpty(row, BASE_LEGALE));
    assert low == "consentement";
    ConsentementKeywords(low);
    PicksConsent(low);
  }

  lemma ConsentementKeywords(low: string)
    requires low == "consentement"
    ensures !Contains(low, "obligation") && !Contains(low, "contrat") && !Contains(low, "légitime")
    ensures Contains(low, "consent")
  {
    assert OccursAt(low, "consent", 0);
    MissingCharNotContained(low, "obligation", 1);
    MissingCharNotContained(low, "contrat", 4);
    MissingCharNotContained(low, "légitime", 1);
  }

  /** A missing or empty "Base Légale" cell gives NULL. */
  lemma EmptyBasisIsNull(row: Row)
    requires BASE_LEGALE !in row || row[BASE_LEGALE] == ""
    ensures LegalBasis(row).None?
  {
    assert OrEmpty(row, BASE_LEGALE) == "";
    assert LowerStr("") == "";
    forall k | 0 <= k < |LEGAL_BASIS_RULES| ensures !Contains("", LEGAL_BASIS_RULES[k].keyword) {
      assert LEGAL_BASIS_RULES[k].keyword != "";
    }
    FirstMatchSpec(LEGAL_BASIS_RULES, "");
  }

  // ------------------------------------------------------------ duration

  /** The digits at the front of `s`. */
  function LeadingDigits(s: string): (r: string)
    ensures |r| <= |s| && r == s[..|r|]
    ensures forall i :: 0 <= i < |r| ==> IsDigit(r[i])
    ensures |r| == |s| || !IsDigit(s[|r|])
  {
    if s != [] && IsDigit(s[0]) then [s[0]] + LeadingDigits(s[1..]) else []
  }

  /** `s.match(/\d+/)`: the first maximal run of digits, if there is one. */
  function FirstDigitRun(s: string): Option<string>
  {
    if s == [] then None
    else if IsDigit(s[0]) then Some(LeadingDigits(s))
    else FirstDigitRun(s[1..])
  }

  /** `run` is a maximal run of digits starting at `i` with no digit before it. */
  predicate FirstRunAt(s: string, i: int, run: string)
  {
    0 <= i && i + |run| <= |s| && run != [] && s[i..i + |run|] == run
    && (forall k :: 0 <= k < |run| ==> IsDigit(run[k]))
    && (i + |run| == |s| || !IsDigit(s[i + |run|]))
    && (forall k :: 0 <= k < i ==> !IsDigit(s[k]))
  }

  /** The match is NULL exactly when the text has no digit, and otherwise the first maximal run. */
  lemma {:induction false} FirstDigitRunSpec(s: string)
    ensures FirstDigitRun(s).None? <==> forall k :: 0 <= k < |s| ==> !IsDigit(s[k])
    ensures FirstDigitRun(s).Some? ==> exists i :: FirstRunAt(s, i, FirstDigitRun(s).value)
  {
    if s != [] {
      if IsDigit(s[0]) {
        assert FirstRunAt(s, 0, LeadingDigits(s));
      } else {
        FirstDigitRunSpec(s[1..]);
        assert forall k :: 1 <= k < |s| ==> s[k] == s[1..][k - 1];
        if FirstDigitRun(s).Some? {
          var run := FirstDigitRun(s).value;
          var i :| FirstRunAt(s[1..], i, run);
          assert s[i + 1..i + 1 + |run|] == s[1..][i..i + |run|];
          assert FirstRunAt(s, i + 1, run);
        }
      }
    }
  }

  function DigitValue(c: char): int
  {
    c as int - '0' as int
  }

  /** `parseInt(digits, 10)` of a run of decimal digits. */
  function DigitsValue(ds: string): int
  {
    if ds == [] then 0 else 10 * DigitsValue(ds[..|ds| - 1]) + DigitValue(ds[|ds| - 1])
  }

  /** The decimal writing of a natural number. */
  function Decimal(n: nat): (r: string)
    ensures r != [] && forall i :: 0 <= i < |r| ==> IsDigit(r[i])
  {
    if n < 10 then [('0' as int + n) as char]
    else Decimal(n / 10) + [('0' as int + n % 10) as char]
  }

  /** Parsing the decimal writing of a number gives the number back. */
  lemma {:induction false} DecimalRoundTrip(n: nat)
    ensures DigitsValue(Decimal(n)) == n
  {
    if n >= 10 {
      DecimalRoundTrip(n / 10);
      var d := Decimal(n);
      assert d[..|d| - 1] == Decimal(n / 10);
    }
  }

  /** The duration of a row: the value of the first digit run of the cell, or NULL. */
  function Duration(row: Row): (r: Option<int>)
    ensures r.None? <==> forall k :: 0 <= k < |OrEmpty(row, DUREE)| ==> !IsDigit(OrEmpty(row, DUREE)[k])
    ensures r.Some? ==> exists i, run :: FirstRunAt(OrEmpty(row, DUREE), i, run) && r.value == DigitsValue(run)
  {
    var m := FirstDigitRun(OrEmpty(row, DUREE));
    FirstDigitRunSpec(OrEmpty(row, DUREE));
    if m.Some? then Some(DigitsValue(m.value)) else None
  }

  /** A duration written as a number followed by a unit is that number. */
  lemma DurationOfNumberAndUnit(row: Row, n: nat, unit: string)
    requires DUREE in row && row[DUREE] == Decimal(n) + unit
    requires unit == [] || !IsDigit(unit[0])
    ensures Duration(row) == Some(n)
  {
    var s := Decimal(n) + unit;
    FirstDigitRunSpec(s);
    var run := FirstDigitRun(s).value;
    var i :| FirstRunAt(s, i, run);
    var d := Decimal(n);
    assert forall k :: 0 <= k < |d| ==> s[k] == d[k];
    assert IsDigit(s[0]);
    assert |s| == |d| || !IsDigit(s[|d|]);
    assert i == 0;
    assert forall k :: 0 <= k < |run| ==> s[k] == run[k];
    assert |run| == |d|;
    assert run == d;
    DecimalRoundTrip(n);
  }

  // ------------------------------------------------------------ flags and the record

  /** `/oui/i.test(text)`; with the `i` flag and no `u` flag, only ASCII letters fold, which
      is what lowering does to the letters o, u and i. */
  predicate HasOui(text: string)
  {
    Contains(LowerStr(text), "oui")
  }

  /** The test ignores case: a text and its upper-cased form get the same answer. */
  lemma OuiAnyCase(text: string)
    ensures HasOui(UpperStr(text)) == HasOui(text)
  {
    LowerUpper(text);
  }

  /** The whole mapping of one row, or None when the row is skipped for an empty name. */
  function RowSpec(row: Row): (r: Option<ImportedRecord>)
    ensures r.None? <==> NOM !in row || row[NOM] == ""
    ensures r.Some? ==> r.value.nom == row[NOM] && r.value.nombrePersonnes == 0
    ensures r.Some? ==> r.value.statutConformite in ["Conforme", "Non conforme"]
    ensures r.Some? ==> (r.value.statutConformite == "Conforme" <==> HasOui(OrEmpty(row, CONFORMITE)))
    ensures r.Some? ==> (r.value.transfertHorsUe <==> HasOui(OrEmpty(row, TRANSFERT)))
  {
    if NOM !in row || row[NOM] == "" then None
    else Some(ImportedRecord(
      row[NOM],
      OrNull(row, POLE),
      LegalBasis(row),
      OrNull(row, FINALITE),
      Duration(row),
      OrNull(row, TYPE_DCP),
      0,
      HasOui(OrEmpty(row, TRANSFERT)),
      OrNull(row, MESURES),
      if HasOui(OrEmpty(row, CONFORMITE)) then "Conforme" else "Non conforme"))
  }

  /** The import never yields the status "À vérifier". */
  lemma NeverToReview(row: Row)
    ensures RowSpec(row).Some? ==> RowSpec(row).value.statutConformite != "À vérifier"
  {
  }

  /** "Oui" in any case marks a transfer; "Non" does not. */
  lemma OuiExamples(row: Row)
    ensures HasOui("OUI - Maroc")
    ensures !HasOui("Non")
  {
    assert LowerStr("OUI - Maroc")[..3] == "oui";
    assert OccursAt(LowerStr("OUI - Maroc"), "oui", 0);
    assert LowerStr("Non") == "non";
    assert !OccursAt("non", "oui", 0) by {
      assert "non"[0..3][0] == 'n';
    }
  }
}

=== FILE: header.dfy ===
/** The page header: the title looked up from the path, the user's initials
    and the unread-alert badge. */
module Header {
  import opened Common
  import opened Text
  import opened Records
  import RoleMiddleware
  import AlertRoutes
  import Dashboard
  import ExcelRow

  /** `breadcrumbMap`: the title of each dashboard page. */
  const BREADCRUMBS: map<string, string> := map[
    "/dashboard" := "Tableau de bord",
    "/dashboard/traitements" := "Traitements",
    "/dashboard/risques" := "Risques",
    "/dashboard/mesures" := "Mesures correctives",
    "/dashboard/users" := "Utilisateurs",
    "/dashboard/alertes" := "Alertes",
    "/dashboard/journal" := "Journal",
    "/dashboard/rapports" := "Rapports",
    "/dashboard/settings" := "Paramètres"
  ]

  /** `currentPageTitle`: the mapped title, or "Page" for an unknown path. */
  function PageTitle(pathname: string): (r: string)
    ensures r != ""
    ensures r == "Page" <==> pathname !in BREADCRUMBS
    ensures pathname in BREADCRUMBS ==> r == BREADCRUMBS[pathname]
  {
    if pathname in BREADCRUMBS && BREADCRUMBS[pathname] != "" then BREADCRUMBS[pathname] else "Page"
  }

  /** `getInitials` of the header: the initials of the name, or "U" when there is no name or
      the name yields none. */
  function HeaderInitials(nom: Option<string>): (r: string)
    ensures 1 <= |r| <= 2
    ensures r == "U" <==> nom.None? || WordStarts(nom.value, true) == [] || InitialsOf(nom.value) == "U"
    ensures nom.Some? && WordStarts(nom.value, true) != [] ==> r == TakeTwo(UpperStr(WordStarts(nom.value, true)))
  {
    if nom.None? then "U"
    else
      InitialsAreWordStarts(nom.value);
      var s := InitialsOf(nom.value);
      if s == "" then "U" else s
  }

  /** The header and the journal page disagree on a blank name: "U" against no initials. */
  lemma BlankNameFallsBack()
    ensures HeaderInitials(Some("")) == "U" && HeaderInitials(Some("  ")) == "U"
  {
    assert WordStarts("", true) == [];
    assert WordStarts("  ", true) == [] + WordStarts(" ", false);
    assert WordStarts(" ", false) == [] + WordStarts("", true);
  }

  /** `alertCount`: the unread alerts of the listing; a refused request leaves it at 0. */
  function AlertCount(r: AlertRoutes.Response): (n: nat)
    ensures r.Listing? ==> n == |r.rows| - CountIf(r.rows, (a: Alert) => a.lu)
    ensures !r.Listing? ==> n == 0
  {
    if r.Listing? then
      Dashboard.UnreadSpec(r.rows);
      Dashboard.Unread(r.rows)
    else 0
  }

  /** The header badge agrees with the dashboard's unread counter: sorting the listing does
      not change how many alerts are unread. */
  lemma BadgeMatchesDashboard(user: Option<RoleMiddleware.ReqUser>, alerts: seq<Alert>)
    requires RoleMiddleware.Decide(AlertRoutes.ALERT_ROLES, user).Next?
    ensures AlertCount(AlertRoutes.GetAlerts(user, alerts)) == Dashboard.Unread(alerts)
  {
    var r := AlertRoutes.GetAlerts(user, alerts);
    CountIfPerm(r.rows, alerts, (a: Alert) => !a.lu);
  }

  /** The badge: hidden at 0, the count up to 99, "99+" beyond. */
  function Badge(count: nat): (r: Option<string>)
    ensures r.None? <==> count == 0
    ensures 1 <= count <= 99 ==> r.Some? && 1 <= |r.value| <= 2 && ExcelRow.DigitsValue(r.value) == count
    ensures count > 99 ==> r == Some("99+")
  {
    if count == 0 then None
    else if count > 99 then Some("99+")
    else
      ExcelRow.DecimalRoundTrip(count);
      Some(ExcelRow.Decimal(count))
  }
}

=== FILE: import_route.dfy ===
/** POST `/traitements/import`: the spreadsheet upload handler. It maps each
    row with an explicit `if ... else if` chain for the legal basis and
    upserts the rows one by one, in order. */
module ImportRoute {
  import opened Common
  import opened Text
  import opened ExcelRow
  import opened Registry
  import RoleMiddleware

  /** The roles the route's middleware admits; the only route that also admits "Rapport". */
  const IMPORT_ROLES := ["Admin", "DPO", "SuperAdmin", "Collaborateur", "Rapport"]

  datatype ImportResponse =
    | Refused(status: int, msg: string)
    | BadRequest(status: int, msg: string)
    | Done(msg: string, count: int)

  /** The body of the row loop for one row: None when the row is skipped. */
  method MapRow(row: Row) returns (r: Option<ImportedRecord>)
    ensures r == RowSpec(row)
  {
    if NOM !in row || row[NOM] == "" {
      return None;
    }
    var nom := row[NOM];
    var pole := OrNull(row, POLE);
    var finalite := OrNull(row, FINALITE);

    var baseLegaleText := LowerStr(OrEmpty(row, BASE_LEGALE));
    var baseLegale: Option<string> := None;
    if Contains(baseLegaleText, "obligation") {
      baseLegale := Some("Obligation légale");
    } else if Contains(baseLegaleText, "contrat") {
      baseLegale := Some("Contrat");
    } else if Contains(baseLegaleText, "légitime") {
      baseLegale := Some("Intérêt légitime");
    } else if Contains(baseLegaleText, "consent") {
      baseLegale := Some("Consentement");
    } else if Contains(baseLegaleText, "intérêt vital") {
      baseLegale := Some("Intérêt vital");
    } else if Contains(baseLegaleText, "mission") {
      baseLegale := Some("Mission publique");
    }
    ChainUnrolled(baseLegaleText);

    var typeDcp := OrNull(row, TYPE_DCP);
    var dureeMatch := FirstDigitRun(OrEmpty(row, DUREE));
    var duree: Option<int> := if dureeMatch.Some? then Some(DigitsValue(dureeMatch.value)) else None;
    var transfert := HasOui(OrEmpty(row, TRANSFERT));
    var mesures := OrNull(row, MESURES);
    var statut := if HasOui(OrEmpty(row, CONFORMITE)) then "Conforme" else "Non conforme";
    r := Some(ImportedRecord(nom, pole, baseLegale, finalite, duree, typeDcp, 0, transfert, mesures, statut));
  }

  /** The handler behind the role middleware. `file` is None when the request carries no
      upload; otherwise it holds the first sheet's rows. */
  method ImportFile(reg: Database, user: Option<RoleMiddleware.ReqUser>, file: Option<seq<Row>>)
    returns (resp: ImportResponse)
    requires reg.Valid()
    modifies reg
    ensures reg.Valid()
    ensures reg.risques == old(reg.risques) && reg.journal == old(reg.journal)
    ensures RoleMiddleware.Decide(IMPORT_ROLES, user).Respond? ==>
      resp == Refused(403, RoleMiddleware.FORBIDDEN_MSG) && reg.Table() == old(reg.Table())
    ensures RoleMiddleware.Decide(IMPORT_ROLES, user).Next? && file.None? ==>
      resp == BadRequest(400, "Aucun fichier fourni") && reg.Table() == old(reg.Table())
    ensures RoleMiddleware.Decide(IMPORT_ROLES, user).Next? && file.Some? ==>
      resp == Done("Import terminé", |file.value|)
      && reg.Table() == ImportAll(old(reg.Table()), file.value)
  {
    var decision := RoleMiddleware.Decide(IMPORT_ROLES, user);
    if decision.Respond? {
      return Refused(decision.status, decision.msg);
    }
    if file.None? {
      return BadRequest(400, "Aucun fichier fourni");
    }
    var rows := file.value;
    for i := 0 to |rows|
      invariant reg.Valid()
      invariant reg.Table() == ImportAll(old(reg.Table()), rows[..i])
      invariant reg.risques == old(reg.risques) && reg.journal == old(reg.journal)
    {
      assert rows[..i + 1][..i] == rows[..i];
      var rec := MapRow(rows[i]);
      if rec.Some? {
        reg.Upsert(rec.value);
      }
    }
    assert rows[..|rows|] == rows;
    return Done("Import terminé", |rows|);
  }

  /** The reported count is the number of rows in the sheet, skipped rows included: a sheet of
      one nameless row reports 1 and leaves the table as it was. */
  lemma CountIncludesSkipped(tab: TreatmentTable, row: Row)
    requires NOM !in row || row[NOM] == ""
    ensures ImportAll(tab, [row]) == tab
  {
    assert [row][..0] == [];
  }

  /** A sheet whose every row is nameless changes nothing. */
  lemma {:induction false} SkippedRowsChangeNothing(tab: TreatmentTable, rows: seq<Row>)
    requires forall k :: 0 <= k < |rows| ==> NOM !in rows[k] || rows[k][NOM] == ""
    ensures ImportAll(tab, rows) == tab
  {
    if rows != [] {
      SkippedRowsChangeNothing(tab, rows[..|rows| - 1]);
    }
  }

  /** The route admits exactly its five roles, "Rapport" among them. */
  lemma ImportRolesExact(user: RoleMiddleware.ReqUser)
    ensures RoleMiddleware.Decide(IMPORT_ROLES, Some(user)).Next? <==>
      user.role.Some? && user.role.value in {"Admin", "DPO", "SuperAdmin", "Collaborateur", "Rapport"}
  {
  }
}

=== FILE: import_script.dfy ===
/** The command-line import script: the same row loop as the import route,
    run over a sheet against the database, with no role check, no upload
    check and no count. Its mapping statements are written out inside the
    loop, as in the script. */
module ImportScript {
  import opened Common
  import opened Text
  import opened ExcelRow
  import opened Registry

  /** Every row of the sheet, in order: a nameless row is skipped, any other is upserted. */
  method RunImport(reg: Database, rows: seq<Row>)
    requires reg.Valid()
    modifies reg
    ensures reg.Valid()
    ensures reg.Table() == ImportAll(old(reg.Table()), rows)
    ensures reg.risques == old(reg.risques) && reg.journal == old(reg.journal)
  {
    for i := 0 to |rows|
      invariant reg.Valid()
      invariant reg.Table() == ImportAll(old(reg.Table()), rows[..i])
      invariant reg.risques == old(reg.risques) && reg.journal == old(reg.journal)
    {
      assert rows[..i + 1][..i] == rows[..i];
      var row := rows[i];
      if NOM !in row || row[NOM] == "" {
        continue;
      }
      var nom := row[NOM];
      var pole := OrNull(row, POLE);
      var finalite := OrNull(row, FINALITE);

      var baseLegaleText := LowerStr(OrEmpty(row, BASE_LEGALE));
      var baseLegale: Option<string> := None;
      if Contains(baseLegaleText, "obligation") {
        baseLegale := Some("Obligation légale");
      } else if Contains(baseLegaleText, "contrat") {
        baseLegale := Some("Contrat");
      } else if Contains(baseLegaleText, "légitime") {
        baseLegale := Some("Intérêt légitime");
      } else if Contains(baseLegaleText, "consent") {
        baseLegale := Some("Consentement");
      } else if Contains(baseLegaleText, "intérêt vital") {
        baseLegale := Some("Intérêt vital");
      } else if Contains(baseLegaleText, "mission") {
        baseLegale := Some("Mission publique");
      }
      ChainUnrolled(baseLegaleText);

      var typeDcp := OrNull(row, TYPE_DCP);
      var dureeMatch := FirstDigitRun(OrEmpty(row, DUREE));
      var duree: Option<int> := if dureeMatch.Some? then Some(DigitsValue(dureeMatch.value)) else None;
      var transfert := HasOui(OrEmpty(row, TRANSFERT));
      var mesures := OrNull(row, MESURES);
      var statut := if HasOui(OrEmpty(row, CONFORMITE)) then "Conforme" else "Non conforme";
      var rec := ImportedRecord(nom, pole, baseLegale, finalite, duree, typeDcp, 0, transfert, mesures, statut);
      assert Some(rec) == RowSpec(row);
      reg.Upsert(rec);
    }
    assert rows[..|rows|] == rows;
  }
}

=== FILE: journal_page.dfy ===
/** The audit-log page: the search and action filter over the logged actions,
    the action choices, the four summary cards and the initials helper. */
module JournalPage {
  import opened Common
  import opened Text

  /** A row of the journal listing: the action, its details and the author's name. */
  datatype LoggedAction = LoggedAction(action: string, details: Option<string>, nomUtilisateur: Option<string>)

  /** The action names the backend writes into the journal. */
  const LOGGED_ACTIONS: seq<string> :=
    ["Création", "Modification", "Suppression", "Création risque", "Modification risque", "Création mesure"]

  /** An optional field mentions the term when it is present and contains it, ignoring case. */
  predicate Mentions(field: Option<string>, term: string)
  {
    field.Some? && ContainsIgnoringCase(field.value, term)
  }

  predicate MatchesSearch(a: LoggedAction, term: string)
  {
    ContainsIgnoringCase(a.action, term) || Mentions(a.details, term) || Mentions(a.nomUtilisateur, term)
  }

  /** What the search and the action filter together let through. */
  predicate Shown(a: LoggedAction, term: string, actionFilter: string)
  {
    (term == "" || MatchesSearch(a, term)) && (actionFilter == "all" || a.action == actionFilter)
  }

  function SearchBy(term: string): LoggedAction -> bool { a => MatchesSearch(a, term) }
  function ActionBy(actionFilter: string): LoggedAction -> bool { (a: LoggedAction) => a.action == actionFilter }
  function AfterSearch(term: string): LoggedAction -> bool { a => term == "" || MatchesSearch(a, term) }
  function ShownBy(term: string, actionFilter: string): LoggedAction -> bool { a => Shown(a, term, actionFilter) }

  /** `filterActions`: the search first, then the exact action filter. */
  method FilterActions(actions: seq<LoggedAction>, searchTerm: string, actionFilter: string)
    returns (filtered: seq<LoggedAction>)
    ensures filtered == Keep(actions, ShownBy(searchTerm, actionFilter))
    ensures IsSubsequence(filtered, actions)
    ensures forall a :: a in filtered <==> a in actions && Shown(a, searchTerm, actionFilter)
  {
    filtered := actions;
    if searchTerm != "" {
      filtered := Keep(filtered, SearchBy(searchTerm));
      KeepSame(actions, SearchBy(searchTerm), AfterSearch(searchTerm));
    } else {
      KeepAll(actions, AfterSearch(searchTerm));
    }

    if actionFilter != "all" {
      filtered := Keep(filtered, ActionBy(actionFilter));
      KeepThen(actions, AfterSearch(searchTerm), ActionBy(actionFilter), ShownBy(searchTerm, actionFilter));
    } else {
      KeepSame(actions, AfterSearch(searchTerm), ShownBy(searchTerm, actionFilter));
    }
    KeepSpec(actions, ShownBy(searchTerm, actionFilter));
  }

  /** The action filter is exact: choosing "Création" hides "Création risque". */
  lemma ActionFilterIsExact(term: string)
    ensures !Shown(LoggedAction("Création risque", None, None), term, "Création")
  {
  }

  /** `getInitials` of the page: "?" for an empty name, otherwise the name's initials. */
  function Initials(nom: string): (r: string)
    ensures |r| <= 2
    ensures nom == "" ==> r == "?"
    ensures nom != "" ==> r == TakeTwo(UpperStr(WordStarts(nom, true)))
  {
    if nom == "" then "?"
    else
      InitialsAreWordStarts(nom);
      InitialsOf(nom)
  }

  /** Only the empty name falls back to "?": a name of spaces has no initials at all. */
  lemma BlankNameHasNoInitials()
    ensures Initials(" ") == ""
  {
    assert WordStarts(" ", true) == [] + WordStarts("", true);
  }

  function ActionOf(a: LoggedAction): string { a.action }

  /** `uniqueActions`: each action name of the listing once. */
  function UniqueActions(actions: seq<LoggedAction>): (r: seq<string>)
    ensures NoDuplicates(r)
    ensures forall x :: x in r <==> exists i :: 0 <= i < |actions| && actions[i].action == x
  {
    var names := Column(actions, ActionOf);
    assert forall x :: x in names <==> exists i :: 0 <= i < |actions| && actions[i].action == x by {
      forall x ensures x in names <==> exists i :: 0 <= i < |actions| && actions[i].action == x {
        ColumnMembers(actions, ActionOf, x);
      }
    }
    Distinct(names)
  }

  predicate IsCreation(a: LoggedAction) { a.action == "Création" }
  predicate IsModification(a: LoggedAction) { a.action == "Modification" }
  predicate IsAboutRisk(a: LoggedAction) { Contains(a.action, "risque") }
  predicate IsAboutMeasure(a: LoggedAction) { Contains(a.action, "mesure") }

  /** The four cards: exact "Création" and "Modification", and actions that mention
      "risque" or "mesure" (case-sensitive). */
  function Creations(actions: seq<LoggedAction>): nat { CountIf(actions, IsCreation) }
  function Modifications(actions: seq<LoggedAction>): nat { CountIf(actions, IsModification) }
  function RiskActions(actions: seq<LoggedAction>): nat { CountIf(actions, IsAboutRisk) }
  function MeasureActions(actions: seq<LoggedAction>): nat { CountIf(actions, IsAboutMeasure) }

  /** Which card, if any, counts each logged action name. */
  lemma LoggedActionCards()
    ensures IsAboutRisk(LoggedAction("Création risque", None, None))
    ensures IsAboutRisk(LoggedAction("Modification risque", None, None))
    ensures IsAboutMeasure(LoggedAction("Création mesure", None, None))
    ensures forall x :: x in LOGGED_ACTIONS && x != "Création risque" && x != "Modification risque" ==>
              !Contains(x, "risque")
    ensures forall x :: x in LOGGED_ACTIONS && x != "Création mesure" ==> !Contains(x, "mesure")
  {
    assert OccursAt("Création risque", "risque", 9);
    assert OccursAt("Modification risque", "risque", 13);
    assert OccursAt("Création mesure", "mesure", 9);
    forall x | x in LOGGED_ACTIONS && x != "Création risque" && x != "Modification risque"
      ensures !Contains(x, "risque")
    {
      assert "risque"[3] == 'q';
      MissingCharNotContained(x, "risque", 3);
    }
    forall x | x in LOGGED_ACTIONS && x != "Création mesure"
      ensures !Contains(x, "mesure")
    {
      assert "mesure"[0] == 'm';
      MissingCharNotContained(x, "mesure", 0);
    }
  }

  /** Over a journal the backend wrote, the four cards count disjoint sets of actions, so
      together they never exceed the number of actions. */
  lemma {:induction false} CardsDisjoint(actions: seq<LoggedAction>)
    requires forall i :: 0 <= i < |actions| ==> actions[i].action in LOGGED_ACTIONS
    ensures Creations(actions) + Modifications(actions) + RiskActions(actions) + MeasureActions(actions)
            <= |actions|
  {
    if actions != [] {
      LoggedActionCards();
      CardsDisjoint(actions[1..]);
    }
  }
}

=== FILE: measures_page.dfy ===
/** The corrective-measures page: a fixed list of four measures, a search
    with a status filter, and the status cards. */
module MeasuresPage {
  import opened Common
  import opened Text

  /** The columns of a listed measure that the page searches and counts. */
  datatype PlannedMeasure = PlannedMeasure(id: int, nom: string, description: string, statut: string)

  /** The list the page renders; it is written into the page, not read from the backend. */
  const MESURES: seq<PlannedMeasure> := [
    PlannedMeasure(1, "Chiffrement des données",
      "Mise en place du chiffrement AES-256 pour toutes les données sensibles", "active"),
    PlannedMeasure(2, "Formation RGPD équipes",
      "Programme de formation obligatoire pour tous les employés", "en_cours"),
    PlannedMeasure(3, "Audit de sécurité",
      "Audit complet des systèmes d'information et des processus", "planifie"),
    PlannedMeasure(4, "Mise à jour politique confidentialité",
      "Révision et mise à jour de la politique de confidentialité", "active")
  ]

  /** Unlike the other pages, the search is applied even when empty; the empty term matches. */
  predicate Shown(m: PlannedMeasure, term: string, filterStatus: string)
  {
    (ContainsIgnoringCase(m.nom, term) || ContainsIgnoringCase(m.description, term))
    && (filterStatus == "all" || m.statut == filterStatus)
  }

  function ShownBy(term: string, filterStatus: string): PlannedMeasure -> bool
  {
    m => Shown(m, term, filterStatus)
  }

  /** `filteredMesures` */
  function FilteredMesures(term: string, filterStatus: string): (r: seq<PlannedMeasure>)
    ensures IsSubsequence(r, MESURES)
    ensures forall m :: m in r <==> m in MESURES && Shown(m, term, filterStatus)
  {
    KeepSpec(MESURES, ShownBy(term, filterStatus));
    Keep(MESURES, ShownBy(term, filterStatus))
  }

  /** An empty search with the "all" filter shows the whole list. */
  lemma EmptySearchShowsAll()
    ensures FilteredMesures("", "all") == MESURES
  {
    assert LowerStr("") == "";
    forall i | 0 <= i < |MESURES| ensures ShownBy("", "all")(MESURES[i]) {
      ContainsEmpty(LowerStr(MESURES[i].nom));
    }
    KeepAll(MESURES, ShownBy("", "all"));
  }

  predicate IsActive(m: PlannedMeasure) { m.statut == "active" }
  predicate IsEnCours(m: PlannedMeasure) { m.statut == "en_cours" }
  predicate IsPlanifie(m: PlannedMeasure) { m.statut == "planifie" }

  /** The status cards count exact status names and never exceed the total card. */
  lemma {:induction false} StatusCardsBounded(ms: seq<PlannedMeasure>)
    ensures CountIf(ms, IsActive) + CountIf(ms, IsEnCours) + CountIf(ms, IsPlanifie) <= |ms|
  {
    if ms != [] {
      StatusCardsBounded(ms[1..]);
    }
  }

  /** On the fixed list the cards read 4 in total, 2 active, 1 in progress, 1 planned. */
  lemma StatsOfFixedList()
    ensures |MESURES| == 4
    ensures CountIf(MESURES, IsActive) == 2
    ensures CountIf(MESURES, IsEnCours) == 1
    ensures CountIf(MESURES, IsPlanifie) == 1
  {
    assert MESURES[1..][1..][1..][1..] == [];
  }
}

=== FILE: records.dfy ===
/** Rows of the register's tables, as the backend reads and writes them.
    Nullable columns are `Option`s; dates are day numbers and timestamps are
    seconds. */
module Records {
  import opened Common

  /** A row of `Traitement`: one registered data-processing activity. */
  datatype Treatment = Treatment(
    id: int,
    nom: string,
    pole: Option<string>,
    baseLegale: Option<string>,
    finalite: Option<string>,
    dureeConservation: Option<int>,
    typeDcp: Option<string>,
    nombrePersonnes: Option<int>,
    transfertHorsUe: bool,
    mesuresSecurite: Option<string>,
    statutConformite: Option<string>,
    utilisateurId: Option<int>)

  /** A row of `Risque`. `scoreRisque` is filled by the database, never by the code modelled here. */
  datatype Risk = Risk(
    id: int,
    traitementId: int,
    typeRisque: string,
    criticite: int,
    probabilite: int,
    impact: int,
    scoreRisque: Option<int>,
    statut: Option<string>,
    dateAnalyse: Option<int>)

  /** A row of `MesureCorrective`. */
  datatype Measure = Measure(
    id: int,
    risqueId: int,
    description: string,
    statut: Option<string>,
    responsableId: Option<int>,
    dateEcheance: Option<int>)

  /** A row of `Alerte`. */
  datatype Alert = Alert(
    id: int,
    titre: string,
    message: string,
    typeAlerte: string,
    traitementId: Option<int>,
    risqueId: Option<int>,
    utilisateurId: Option<int>,
    lu: bool,
    creeLe: int)

  /** A row of `JournalAction`, the append-only audit log. */
  datatype JournalAction = JournalAction(
    utilisateurId: Option<int>,
    traitementId: Option<int>,
    action: string,
    details: string)

  /** `SELECT * FROM Traitement WHERE id = ?` */
  function SelectTreatmentById(table: seq<Treatment>, id: int): seq<Treatment>
  {
    Keep(table, (t: Treatment) => t.id == id)
  }
}

=== FILE: registry.dfy ===
/** The treatment register as the backend writes it: the `Traitement`,
    `Risque` and `JournalAction` tables, the create flow that seeds a
    compliance risk and journals the creation, and the upsert by name that
    both spreadsheet imports perform. `nom` is the unique key of
    `Traitement`. */
module Registry {
  import opened Common
  import opened Records
  import opened ExcelRow
  import RiskAssessment
  import RoleMiddleware

  /** The body of a create request. */
  datatype TreatmentForm = TreatmentForm(
    nom: string,
    pole: Option<string>,
    baseLegale: Option<string>,
    finalite: Option<string>,
    dureeConservation: Option<int>,
    typeDcp: Option<string>,
    nombrePersonnes: Option<int>,
    transfertHorsUe: bool,
    mesuresSecurite: Option<string>)

  /** The create route's answer: 201 with the stored row, 500, or the middleware's refusal. */
  datatype CreateResult = Created(row: Treatment) | ServerError | Forbidden(status: int, msg: string)

  /** The roles `authorize` admits on the create route. */
  const CREATE_ROLES := ["Admin", "DPO", "SuperAdmin", "Collaborateur"]

  /** The `Traitement` table with its auto-increment counter. */
  datatype TreatmentTable = TreatmentTable(rows: seq<Treatment>, nextId: int)

  predicate NamesDistinct(ts: seq<Treatment>)
  {
    forall i, j :: 0 <= i < j < |ts| ==> ts[i].nom != ts[j].nom
  }

  predicate TableValid(tab: TreatmentTable)
  {
    NamesDistinct(tab.rows) && forall i :: 0 <= i < |tab.rows| ==> tab.rows[i].id < tab.nextId
  }

  /** The position of the row with that name, if any. */
  function IndexOfNom(ts: seq<Treatment>, nom: string): (r: Option<nat>)
    ensures r.Some? ==> r.value < |ts| && ts[r.value].nom == nom
    ensures r.None? ==> forall i :: 0 <= i < |ts| ==> ts[i].nom != nom
  {
    if ts == [] then None
    else if ts[0].nom == nom then Some(0)
    else
      var r := IndexOfNom(ts[1..], nom);
      if r.Some? then Some(r.value + 1) else None
  }

  /** The row the create route inserts; the status is the column's default. */
  function NewTreatment(id: int, f: TreatmentForm, userId: int, defaultStatut: Option<string>): Treatment
  {
    Treatment(id, f.nom, f.pole, f.baseLegale, f.finalite, f.dureeConservation, f.typeDcp,
      f.nombrePersonnes, f.transfertHorsUe, f.mesuresSecurite, defaultStatut, Some(userId))
  }

  /** The 'Conformité' risk seeded from an evaluation, analysed today. */
  function SeededRisk(id: int, traitementId: int, s: RiskAssessment.Scores, defaultScore: Option<int>,
                      defaultStatut: Option<string>, today: int): Risk
  {
    Risk(id, traitementId, "Conformité", s.criticite, s.probabilite, s.impact, defaultScore,
      defaultStatut, Some(today))
  }

  /** The new values of a row the upsert finds by name: every listed column but the name. */
  function Overwrite(t: Treatment, rec: ImportedRecord): Treatment
  {
    t.(pole := rec.pole, baseLegale := rec.baseLegale, finalite := rec.finalite,
       dureeConservation := rec.dureeConservation, typeDcp := rec.typeDcp,
       nombrePersonnes := Some(rec.nombrePersonnes), transfertHorsUe := rec.transfertHorsUe,
       mesuresSecurite := rec.mesuresSecurite, statutConformite := Some(rec.statutConformite))
  }

  /** The row the upsert inserts when the name is new: no owner. */
  function Imported(id: int, rec: ImportedRecord): Treatment
  {
    Treatment(id, rec.nom, rec.pole, rec.baseLegale, rec.finalite, rec.dureeConservation, rec.typeDcp,
      Some(rec.nombrePersonnes), rec.transfertHorsUe, rec.mesuresSecurite,
      Some(rec.statutConformite), None)
  }

  /** `INSERT ... ON DUPLICATE KEY UPDATE` keyed on the name. */
  function Upserted(tab: TreatmentTable, rec: ImportedRecord): TreatmentTable
  {
    var k := IndexOfNom(tab.rows, rec.nom);
    if k.Some? then TreatmentTable(tab.rows[k.value := Overwrite(tab.rows[k.value], rec)], tab.nextId)
    else TreatmentTable(tab.rows + [Imported(tab.nextId, rec)], tab.nextId + 1)
  }

  /** After an upsert the name occurs exactly once, carrying the imported values; every other
      row is unchanged, the table grows by at most one row, and it stays valid. */
  lemma UpsertSpec(tab: TreatmentTable, rec: ImportedRecord)
    requires TableValid(tab)
    ensures var r := Upserted(tab, rec);
      TableValid(r) && |tab.rows| <= |r.rows| <= |tab.rows| + 1
      && (forall i :: 0 <= i < |tab.rows| && tab.rows[i].nom != rec.nom ==> r.rows[i] == tab.rows[i])
      && (exists i :: 0 <= i < |r.rows| && r.rows[i].nom == rec.nom
            && r.rows[i] == Overwrite(r.rows[i], rec))
      && (|r.rows| == |tab.rows| + 1 <==> forall i :: 0 <= i < |tab.rows| ==> tab.rows[i].nom != rec.nom)
  {
    var k := IndexOfNom(tab.rows, rec.nom);
    var r := Upserted(tab, rec);
    if k.Some? {
      assert r.rows[k.value].nom == rec.nom;
    } else {
      assert r.rows[|tab.rows|].nom == rec.nom;
    }
  }

  /** Each row of a spreadsheet, in order: skipped rows change nothing. */
  function ImportAll(tab: TreatmentTable, rows: seq<Row>): TreatmentTable
  {
    if rows == [] then tab
    else
      var before := ImportAll(tab, rows[..|rows| - 1]);
      var rec := RowSpec(rows[|rows| - 1]);
      if rec.Some? then Upserted(before, rec.value) else before
  }

  /** An import keeps the table valid, keeps every existing name, and leaves every named row's
      name in the table. */
  lemma {:induction false} ImportAllSpec(tab: TreatmentTable, rows: seq<Row>)
    requires TableValid(tab)
    ensures var r := ImportAll(tab, rows);
      TableValid(r) && |tab.rows| <= |r.rows| <= |tab.rows| + |rows|
      && (forall i :: 0 <= i < |tab.rows| ==> r.rows[i].nom == tab.rows[i].nom && r.rows[i].id == tab.rows[i].id)
      && (forall k :: 0 <= k < |rows| && RowSpec(rows[k]).Some? ==>
            exists i :: 0 <= i < |r.rows| && r.rows[i].nom == rows[k][NOM])
  {
    if rows != [] {
      var init := rows[..|rows| - 1];
      var before := ImportAll(tab, init);
      ImportAllSpec(tab, init);
      var rec := RowSpec(rows[|rows| - 1]);
      var r := ImportAll(tab, rows);
      if rec.Some? {
        UpsertSpec(before, rec.value);
        forall k | 0 <= k < |rows| && RowSpec(rows[k]).Some?
          ensures exists i :: 0 <= i < |r.rows| && r.rows[i].nom == rows[k][NOM]
        {
          if k < |rows| - 1 {
            assert rows[k] == init[k];
            var i :| 0 <= i < |before.rows| && before.rows[i].nom == rows[k][NOM];
            assert r.rows[i].nom == before.rows[i].nom by {
              if before.rows[i].nom != rec.value.nom {
                assert r.rows[i] == before.rows[i];
              } else {
                var j := IndexOfNom(before.rows, rec.value.nom);
                assert j.Some? && j.value == i;
              }
            }
          }
        }
        forall i | 0 <= i < |tab.rows|
          ensures r.rows[i].nom == tab.rows[i].nom && r.rows[i].id == tab.rows[i].id
        {
          var j := IndexOfNom(before.rows, rec.value.nom);
          if j.Some? && j.value == i {
            assert r.rows[i] == Overwrite(before.rows[i], rec.value);
          } else {
            assert r.rows[i] == before.rows[i];
          }
        }
      } else {
        forall k | 0 <= k < |rows| && RowSpec(rows[k]).Some?
          ensures exists i :: 0 <= i < |r.rows| && r.rows[i].nom == rows[k][NOM]
        {
          assert k < |rows| - 1;
          assert rows[k] == init[k];
        }
      }
    }
  }

  /** The backend's tables. Column defaults the schema supplies are fixed at construction. */
  class Database {
    var traitements: seq<Treatment>
    var nextTraitementId: int
    var risques: seq<Risk>
    var nextRisqueId: int
    var journal: seq<JournalAction>
    /** `statut_conformite` of a created treatment. */
    const defaultStatut: Option<string>
    /** `score_risque` and `statut` of a seeded risk. */
    const defaultScore: Option<int>
    const defaultRiskStatut: Option<string>

    function Table(): TreatmentTable
      reads this
    {
      TreatmentTable(traitements, nextTraitementId)
    }

    ghost predicate Valid()
      reads this
    {
      TableValid(Table())
    }

    constructor (statut: Option<string>, score: Option<int>, riskStatut: Option<string>)
      ensures Valid() && traitements == [] && risques == [] && journal == []
      ensures defaultStatut == statut && defaultScore == score && defaultRiskStatut == riskStatut
    {
      traitements := [];
      nextTraitementId := 1;
      risques := [];
      nextRisqueId := 1;
      journal := [];
      defaultStatut := statut;
      defaultScore := score;
      defaultRiskStatut := riskStatut;
    }

    /** POST `/traitements`: the role middleware, then the handler for the request's user. */
    method CreateTreatment(f: TreatmentForm, user: Option<RoleMiddleware.ReqUser>, readFails: bool, today: int)
      returns (r: CreateResult)
      requires Valid()
      modifies this
      ensures Valid()
      ensures RoleMiddleware.Decide(CREATE_ROLES, user).Respond? ==>
        r == Forbidden(403, RoleMiddleware.FORBIDDEN_MSG) && Table() == old(Table())
        && risques == old(risques) && journal == old(journal)
      ensures (RoleMiddleware.Decide(CREATE_ROLES, user).Next? &&
        exists i :: 0 <= i < |old(traitements)| && old(traitements)[i].nom == f.nom) ==>
        r == ServerError && traitements == old(traitements) && risques == old(risques)
        && journal == old(journal)
      ensures (RoleMiddleware.Decide(CREATE_ROLES, user).Next? &&
        forall i :: 0 <= i < |old(traitements)| ==> old(traitements)[i].nom != f.nom) ==>
        var t := NewTreatment(old(nextTraitementId), f, user.value.id, defaultStatut);
        r == Created(t)
        && traitements == old(traitements) + [t]
        && risques == old(risques) + (if readFails then [] else
             [SeededRisk(old(nextRisqueId), t.id, RiskAssessment.Evaluate(t), defaultScore,
                         defaultRiskStatut, today)])
        && journal == old(journal) + [JournalAction(Some(user.value.id), Some(t.id), "Création", "Nouveau traitement créé")]
    {
      var decision := RoleMiddleware.Decide(CREATE_ROLES, user);
      if decision.Respond? {
        return Forbidden(decision.status, decision.msg);
      }
      r := CreateHandler(f, user.value.id, readFails, today);
    }

    /** The create handler for user `userId`. The insert fails on a name already in use; the
        read inside the evaluation may fail (`readFails`), in which case no risk is seeded. */
    method CreateHandler(f: TreatmentForm, userId: int, readFails: bool, today: int)
      returns (r: CreateResult)
      requires Valid()
      modifies this
      ensures Valid()
      ensures (exists i :: 0 <= i < |old(traitements)| && old(traitements)[i].nom == f.nom) ==>
        r == ServerError && traitements == old(traitements) && risques == old(risques)
        && journal == old(journal)
      ensures (forall i :: 0 <= i < |old(traitements)| ==> old(traitements)[i].nom != f.nom) ==>
        var t := NewTreatment(old(nextTraitementId), f, userId, defaultStatut);
        r == Created(t)
        && traitements == old(traitements) + [t]
        && risques == old(risques) + (if readFails then [] else
             [SeededRisk(old(nextRisqueId), t.id, RiskAssessment.Evaluate(t), defaultScore,
                         defaultRiskStatut, today)])
        && journal == old(journal) + [JournalAction(Some(userId), Some(t.id), "Création", "Nouveau traitement créé")]
    {
      if IndexOfNom(traitements, f.nom).Some? {
        return ServerError;
      }
      var id := nextTraitementId;
      var t := NewTreatment(id, f, userId, defaultStatut);
      traitements := traitements + [t];
      nextTraitementId := nextTraitementId + 1;

      NewRowSelected(old(traitements), t);
      var read := if readFails then QueryError else Rows(SelectTreatmentById(traitements, id));
      var evaluation := RiskAssessment.EvaluateRisk(read);
      if evaluation.Some? {
        risques := risques + [SeededRisk(nextRisqueId, id, evaluation.value, defaultScore,
                                         defaultRiskStatut, today)];
        nextRisqueId := nextRisqueId + 1;
      }

      journal := journal + [JournalAction(Some(userId), Some(id), "Création", "Nouveau traitement créé")];
      return Created(t);
    }

    /** One upsert of an imported record. */
    method Upsert(rec: ImportedRecord)
      requires Valid()
      modifies this
      ensures Valid()
      ensures Table() == Upserted(old(Table()), rec)
      ensures risques == old(risques) && journal == old(journal)
    {
      UpsertSpec(Table(), rec);
      var k := IndexOfNom(traitements, rec.nom);
      if k.Some? {
        traitements := traitements[k.value := Overwrite(traitements[k.value], rec)];
      } else {
        traitements := traitements + [Imported(nextTraitementId, rec)];
        nextTraitementId := nextTraitementId + 1;
      }
    }
  }

  /** Reading back by the new id finds exactly the inserted row, since every older id is smaller. */
  lemma NewRowSelected(ts: seq<Treatment>, t: Treatment)
    requires forall i :: 0 <= i < |ts| ==> ts[i].id < t.id
    ensures SelectTreatmentById(ts + [t], t.id) == [t]
  {
    KeepAppend(ts, [t], (x: Treatment) => x.id == t.id);
    KeepNone(ts, (x: Treatment) => x.id == t.id);
  }
}

=== FILE: reports_page.dfy ===
/** The reports page: per-report export state (status, progress, last run),
    the sequential "generate all", the spreadsheet upload check and guard,
    the report titles and the download names. The fetch outcomes, the clock
    and the chosen file are inputs. */
module ReportsPage {
  import opened Common
  import opened Text
  import RoleGuard

  datatype ReportId = Conformite | Risques | Activite | Mesures
  datatype Format = Pdf | Excel

  /** The state of one report's export. */
  datatype Status = Idle | Loading | Success | Failed | Canceled

  /** How one export request ends: a downloaded blob, an HTTP error, an abort, another error. */
  datatype FetchOutcome = Downloaded | HttpError(status: int) | Aborted | NetworkError

  /** One request sent to the report endpoint. */
  datatype ExportRequest = ExportRequest(id: ReportId, format: Format)

  /** A chosen file: its MIME type, name and size in bytes. */
  datatype FileInfo = FileInfo(mime: string, name: string, size: int)

  datatype ReportDef = ReportDef(id: ReportId, title: string)

  /** `REPORTS`, in display order. */
  const REPORTS: seq<ReportDef> := [
    ReportDef(Conformite, "Rapport de Conformité RGPD"),
    ReportDef(Risques, "Analyse des Risques"),
    ReportDef(Activite, "Rapport d'Activité"),
    ReportDef(Mesures, "Plan des Mesures Correctives")
  ]

  /** The roles the page's guard admits, as written in the page. */
  const PAGE_ROLES: seq<string> := ["admin", "dpo", "super admin", "responsable du traitement", "sous traitant"]

  /** The id as it appears in URLs and file names. */
  function IdText(id: ReportId): string
  {
    match id
    case Conformite => "conformite"
    case Risques => "risques"
    case Activite => "activite"
    case Mesures => "mesures"
  }

  lemma IdTextInjective(a: ReportId, b: ReportId)
    ensures IdText(a) == IdText(b) ==> a == b
  {
  }

  /** Every report id, in display order. */
  const ALL_IDS: seq<ReportId> := [Conformite, Risques, Activite, Mesures]

  function Index(id: ReportId): (r: nat)
    ensures r < |ALL_IDS| && ALL_IDS[r] == id
  {
    match id
    case Conformite => 0
    case Risques => 1
    case Activite => 2
    case Mesures => 3
  }

  /** The reports are listed in the order of `ALL_IDS`, so each report appears once. */
  lemma ReportsInOrder()
    ensures |REPORTS| == |ALL_IDS|
    ensures forall i :: 0 <= i < |REPORTS| ==> REPORTS[i].id == ALL_IDS[i] && Index(REPORTS[i].id) == i
  {
  }

  /** `REPORTS.find(r => r.id === id)` on the id text. */
  function FindReport(reports: seq<ReportDef>, id: string): (r: Option<ReportDef>)
    ensures r.None? <==> forall i :: 0 <= i < |reports| ==> IdText(reports[i].id) != id
    ensures r.Some? ==> exists i :: (0 <= i < |reports| && reports[i] == r.value && IdText(r.value.id) == id
                                     && forall j :: 0 <= j < i ==> IdText(reports[j].id) != id)
  {
    if reports == [] then None
    else if IdText(reports[0].id) == id then Some(reports[0])
    else
      var r := FindReport(reports[1..], id);
      FoundInTail(reports, id, r);
      r
  }

  lemma FoundInTail(reports: seq<ReportDef>, id: string, r: Option<ReportDef>)
    requires reports != [] && IdText(reports[0].id) != id
    requires r.None? <==> forall i :: 0 <= i < |reports[1..]| ==> IdText(reports[1..][i].id) != id
    requires r.Some? ==> exists i :: (0 <= i < |reports[1..]| && reports[1..][i] == r.value && IdText(r.value.id) == id
                                      && forall j :: 0 <= j < i ==> IdText(reports[1..][j].id) != id)
    ensures r.None? <==> forall i :: 0 <= i < |reports| ==> IdText(reports[i].id) != id
    ensures r.Some? ==> exists i :: (0 <= i < |reports| && reports[i] == r.value && IdText(r.value.id) == id
                                     && forall j :: 0 <= j < i ==> IdText(reports[j].id) != id)
  {
    assert forall i :: 1 <= i < |reports| ==> reports[i] == reports[1..][i - 1];
    if r.Some? {
      var i :| 0 <= i < |reports[1..]| && reports[1..][i] == r.value && IdText(r.value.id) == id
               && forall j :: 0 <= j < i ==> IdText(reports[1..][j].id) != id;
      assert reports[i + 1] == r.value;
    }
  }

  /** `prettyReport`: the title of the report with that id, or the id itself. */
  function PrettyReport(id: string): (r: string)
    ensures (forall i :: 0 <= i < |REPORTS| ==> IdText(REPORTS[i].id) != id) ==> r == id
    ensures forall i :: 0 <= i < |REPORTS| && IdText(REPORTS[i].id) == id ==> r == REPORTS[i].title
  {
    var found := FindReport(REPORTS, id);
    if found.Some? then
      forall i | 0 <= i < |REPORTS| && IdText(REPORTS[i].id) == id ensures REPORTS[i] == found.value {
        IdTextInjective(REPORTS[i].id, found.value.id);
      }
      found.value.title
    else id
  }

  /** Every report has a title, so the fallback to the id never shows for a real report. */
  lemma EveryReportTitled(id: ReportId)
    ensures exists i :: 0 <= i < |REPORTS| && REPORTS[i].id == id && PrettyReport(IdText(id)) == REPORTS[i].title
  {
    assert REPORTS[Index(id)].id == id;
  }

  function Extension(f: Format): string
  {
    if f == Pdf then ".pdf" else ".xlsx"
  }

  /** `a.download`: `rapport-{id}.pdf` or `rapport-{id}.xlsx`. */
  function DownloadName(id: ReportId, f: Format): (r: string)
    ensures |r| > 8 + |Extension(f)| && r[..8] == "rapport-" && EndsWith(r, Extension(f))
    ensures r[8..|r| - |Extension(f)|] == IdText(id)
  {
    "rapport-" + IdText(id) + Extension(f)
  }

  lemma LastChar(id: ReportId, f: Format)
    ensures var r := DownloadName(id, f); r[|r| - 1] == (if f == Pdf then 'f' else 'x')
  {
  }

  /** Two exports never download under the same file name. */
  lemma DownloadNamesDistinct(a: ReportId, f: Format, b: ReportId, g: Format)
    requires a != b || f != g
    ensures DownloadName(a, f) != DownloadName(b, g)
  {
    LastChar(a, f);
    LastChar(b, g);
    if f == g {
      IdTextInjective(a, b);
    }
  }

  const XLSX_MIME: string := "application/vnd.openxmlformats-officedocument.spreadsheetml.sheet"
  const MAX_UPLOAD: int := 5 * 1024 * 1024

  /** The type pattern, case-insensitive: the spreadsheet MIME type anywhere, or ".xlsx" at the end. */
  predicate MimeMatches(mime: string)
  {
    Contains(LowerStr(mime), XLSX_MIME) || EndsWith(LowerStr(mime), ".xlsx")
  }

  /** `validateExcel`: an .xlsx by type or by name, of at most 5 MiB. Anything over 5 MiB is
      refused; within the limit an ".xlsx" name suffices whatever the type, and so does a type
      matching the pattern whatever the name; nothing else is accepted. */
  function ValidateExcel(f: FileInfo): (r: bool)
    ensures f.size > 5242880 ==> !r
    ensures f.size <= 5242880 && EndsWith(LowerStr(f.name), ".xlsx") ==> r
    ensures f.size <= 5242880 && MimeMatches(f.mime) ==> r
    ensures r ==> MimeMatches(f.mime) || EndsWith(LowerStr(f.name), ".xlsx")
  {
    (MimeMatches(f.mime) || EndsWith(LowerStr(f.name), ".xlsx")) && f.size <= MAX_UPLOAD
  }

  /** The name test ignores case: the upper- and lower-cased names get the same answer. */
  lemma ValidateIgnoresNameCase(f: FileInfo)
    ensures ValidateExcel(f.(name := UpperStr(f.name))) == ValidateExcel(f)
    ensures ValidateExcel(f.(name := LowerStr(f.name))) == ValidateExcel(f)
  {
    LowerUpper(f.name);
    LowerLower(f.name);
  }

  /** A smaller file of the same name and type is never refused where the larger one passed. */
  lemma ValidateSmallerSize(f: FileInfo, size: int)
    requires size <= f.size && ValidateExcel(f)
    ensures ValidateExcel(f.(size := size))
  {
  }

  /** The name test ignores case and the size limit is inclusive; an ".xls" name is refused
      whatever its size. */
  lemma ValidateExamples()
    ensures ValidateExcel(FileInfo("", "Registre.XLSX", 5242880))
    ensures !ValidateExcel(FileInfo("", "Registre.XLSX", 5242881))
    ensures !ValidateExcel(FileInfo("", "registre.xls", 0))
  {
    LowerExampleName();
    assert LowerStr("") == "";
    assert LowerStr("registre.xls") == "registre.xls";
    assert !EndsWith("registre.xls", ".xlsx") by {
      assert "registre.xls"[7..][0] == 'e';
    }
  }

  /** Lowering the example name, one character at a time. */
  lemma LowerExampleName()
    ensures LowerStr("Registre.XLSX") == "registre.xlsx"
  {
    var s, l := "Registre.XLSX", "registre.xlsx";
    forall i | 0 <= i < |s| ensures LowerStr(s)[i] == l[i] {
      assert LowerStr(s)[i] == Lower(s[i]);
    }
  }

  /** The page lists its roles already in lower case. */
  lemma PageRolesLower()
    ensures RoleGuard.LowerAll(PAGE_ROLES) == PAGE_ROLES
  {
    LowerStrFixed("admin");
    LowerStrFixed("dpo");
    LowerStrFixed("super admin");
    LowerStrFixed("responsable du traitement");
    LowerStrFixed("sous traitant");
  }

  /** The page's guard compares with the backend's role names only up to case, and spells the
      super administrator with a space: "SuperAdmin" is sent back to the dashboard. */
  lemma SuperAdminRedirected()
    ensures RoleGuard.Guard(PAGE_ROLES, RoleGuard.JsonValue(Some("SuperAdmin"))).redirect == Some("/dashboard")
  {
    PageRolesLower();
    assert LowerStr("SuperAdmin") == "superadmin";
  }

  /** "Collaborateur" is not a role of the page: it is sent back to the dashboard. */
  lemma CollaborateurRedirected()
    ensures RoleGuard.Guard(PAGE_ROLES, RoleGuard.JsonValue(Some("Collaborateur"))).redirect == Some("/dashboard")
  {
    PageRolesLower();
    assert LowerStr("Collaborateur") == "collaborateur";
  }

  /** "Admin" in any case stays on the page. */
  lemma AdminAdmitted()
    ensures RoleGuard.Guard(PAGE_ROLES, RoleGuard.JsonValue(Some("Admin"))).redirect.None?
  {
    PageRolesLower();
    assert LowerStr("Admin") == "admin";
  }

  /** The status an export settles in. */
  function Settled(o: FetchOutcome): (r: Status)
    ensures r != Idle && r != Loading
    ensures r == Success <==> o.Downloaded?
    ensures r == Canceled <==> o.Aborted?
  {
    match o
    case Downloaded => Success
    case Aborted => Canceled
    case _ => Failed
  }

  /** `generatingSome`: some report is loading. */
  function GeneratingSome(status: map<ReportId, Status>): (r: bool)
    ensures r <==> exists id :: id in status && status[id] == Loading
  {
    Loading in status.Values
  }

  /** What `handleImport` does with the chosen file. */
  datatype ImportStep = NoFile | Rejected | Send(file: FileInfo)

  function ImportStepFor(file: Option<FileInfo>): (r: ImportStep)
    ensures r.Send? <==> file.Some? && ValidateExcel(file.value)
    ensures r == NoFile <==> file.None?
    ensures r.Send? ==> r.file == file.value
  {
    if file.None? then NoFile
    else if !ValidateExcel(file.value) then Rejected
    else Send(file.value)
  }

  /** The page state that export and import change. */
  class ReportPanel {
    var status: map<ReportId, Status>
    var progress: map<ReportId, int>
    /** The time of each report's last successful export. */
    var lastRun: map<ReportId, Option<int>>
    /** The export requests sent, in order. */
    var requests: seq<ExportRequest>
    var file: Option<FileInfo>
    var importing: bool
    /** The files sent to the import endpoint, in order. */
    var uploads: seq<FileInfo>

    ghost predicate Valid()
      reads this
    {
      (forall id: ReportId :: id in status && id in progress && id in lastRun)
      && (forall id :: id in progress ==> 0 <= progress[id] <= 100)
    }

    constructor ()
      ensures Valid() && requests == [] && uploads == [] && file.None? && !importing
      ensures forall id: ReportId :: status[id] == Idle && progress[id] == 0 && lastRun[id].None?
    {
      status := map[Conformite := Idle, Risques := Idle, Activite := Idle, Mesures := Idle];
      progress := map[Conformite := 0, Risques := 0, Activite := 0, Mesures := 0];
      lastRun := map[Conformite := None, Risques := None, Activite := None, Mesures := None];
      new;
      forall id: ReportId
        ensures id in status && id in progress && id in lastRun
        ensures status[id] == Idle && progress[id] == 0 && lastRun[id].None?
      {
        assert ALL_IDS[Index(id)] == id;
      }
      requests := [];
      file := None;
      importing := false;
      uploads := [];
    }

    /** The start of `handleExport`: the report is loading at 10%, and its request goes out. */
    method StartExport(id: ReportId, f: Format)
      requires Valid()
      modifies this
      ensures Valid()
      ensures status == old(status)[id := Loading] && progress == old(progress)[id := 10]
      ensures lastRun == old(lastRun) && requests == old(requests) + [ExportRequest(id, f)]
      ensures file == old(file) && importing == old(importing) && uploads == old(uploads)
      ensures GeneratingSome(status)
    {
      status := status[id := Loading];
      progress := progress[id := 10];
      requests := requests + [ExportRequest(id, f)];
      assert status[id] in status.Values;
    }

    /** The end of `handleExport`: success at 100% with the time recorded, canceled on an
        abort, failed otherwise. */
    method FinishExport(id: ReportId, outcome: FetchOutcome, now: int)
      requires Valid()
      modifies this
      ensures Valid()
      ensures status == old(status)[id := Settled(outcome)]
      ensures outcome.Downloaded? ==> progress == old(progress)[id := 100] && lastRun == old(lastRun)[id := Some(now)]
      ensures !outcome.Downloaded? ==> progress == old(progress) && lastRun == old(lastRun)
      ensures requests == old(requests) && file == old(file) && importing == old(importing)
      ensures uploads == old(uploads)
    {
      if outcome.Downloaded? {
        progress := progress[id := 100];
        status := status[id := Success];
        lastRun := lastRun[id := Some(now)];
      } else if outcome.Aborted? {
        status := status[id := Canceled];
      } else {
        status := status[id := Failed];
      }
    }

    /** `handleExport` awaited to its end. */
    method HandleExport(id: ReportId, f: Format, outcome: FetchOutcome, now: int)
      requires Valid()
      modifies this
      ensures Valid()
      ensures status == old(status)[id := Settled(outcome)]
      ensures outcome.Downloaded? ==> progress == old(progress)[id := 100] && lastRun == old(lastRun)[id := Some(now)]
      ensures !outcome.Downloaded? ==> progress == old(progress)[id := 10] && lastRun == old(lastRun)
      ensures requests == old(requests) + [ExportRequest(id, f)]
      ensures file == old(file) && importing == old(importing) && uploads == old(uploads)
    {
      ghost var status0, progress0 := status, progress;
      StartExport(id, f);
      assert status0[id := Loading][id := Settled(outcome)] == status0[id := Settled(outcome)];
      assert progress0[id := 10][id := 100] == progress0[id := 100];
      FinishExport(id, outcome, now);
    }

    /** `handleGenerateAll`: each report in turn, each awaited before the next starts; the
        i-th export ends with the outcome `outcomes[i]` and reads the clock as `nows[i]`. */
    method HandleGenerateAll(f: Format, outcomes: seq<FetchOutcome>, nows: seq<int>)
      requires Valid() && |outcomes| == |REPORTS| && |nows| == |REPORTS|
      modifies this
      ensures Valid()
      ensures requests == old(requests) + AllRequests(f)
      ensures forall i :: 0 <= i < |REPORTS| ==> status[REPORTS[i].id] == Settled(outcomes[i])
      ensures forall i :: 0 <= i < |REPORTS| ==>
                progress[REPORTS[i].id] == (if outcomes[i].Downloaded? then 100 else 10)
      ensures forall i :: 0 <= i < |REPORTS| ==>
                lastRun[REPORTS[i].id] ==
                  (if outcomes[i].Downloaded? then Some(nows[i]) else old(lastRun)[REPORTS[i].id])
      ensures !GeneratingSome(status)
      ensures file == old(file) && importing == old(importing) && uploads == old(uploads)
    {
      ghost var status0, progress0, lastRun0 := status, progress, lastRun;
      ghost var runs := LastRuns(outcomes, nows, REPORTS, lastRun0);
      for i := 0 to |REPORTS|
        invariant Valid()
        invariant requests == old(requests) + AllRequests(f)[..i]
        invariant status == Stamped(status0, REPORTS, Settles(outcomes), i)
        invariant progress == Stamped(progress0, REPORTS, Percents(outcomes), i)
        invariant lastRun == Stamped(lastRun0, REPORTS, runs, i)
        invariant file == old(file) && importing == old(importing) && uploads == old(uploads)
      {
        AllRequestsStep(old(requests), f, i);
        if !outcomes[i].Downloaded? {
          ReportsDistinct();
          StampedKeep(lastRun0, REPORTS, runs, i);
        }
        HandleExport(REPORTS[i].id, f, outcomes[i], nows[i]);
      }
      AllRequestsDone(old(requests), f);
      GenerateAllEffect(outcomes, nows, status0, progress0, lastRun0);
    }

    /** `handleImport`: nothing is sent without a valid file; a sent file is cleared only when
        the upload succeeds, and the page is no longer importing afterwards. */
    method HandleImport(uploadOk: bool)
      requires Valid()
      modifies this
      ensures Valid()
      ensures ImportStepFor(old(file)).Send? ==>
                uploads == old(uploads) + [old(file).value] && !importing
                && (uploadOk ==> file.None?) && (!uploadOk ==> file == old(file))
      ensures !ImportStepFor(old(file)).Send? ==>
                uploads == old(uploads) && file == old(file) && importing == old(importing)
      ensures status == old(status) && progress == old(progress) && lastRun == old(lastRun)
      ensures requests == old(requests)
    {
      var step := ImportStepFor(file);
      if step.NoFile? {
        return;
      }
      if step.Rejected? {
        return;
      }
      importing := true;
      uploads := uploads + [step.file];
      if uploadOk {
        file := None;
      }
      importing := false;
    }
  }

  lemma AllRequestsDone(sent: seq<ExportRequest>, f: Format)
    ensures sent + AllRequests(f)[..|REPORTS|] == sent + AllRequests(f)
  {
    assert AllRequests(f)[..|REPORTS|] == AllRequests(f);
  }

  lemma AllRequestsStep(sent: seq<ExportRequest>, f: Format, i: int)
    requires 0 <= i < |REPORTS|
    ensures sent + AllRequests(f)[..i] + [ExportRequest(REPORTS[i].id, f)] == sent + AllRequests(f)[..i + 1]
  {
    var r := AllRequests(f);
    assert r[..i + 1] == r[..i] + [r[i]];
  }

  /** No report is listed twice. */
  lemma ReportsDistinct()
    ensures forall a, b :: 0 <= a < b < |REPORTS| ==> REPORTS[a].id != REPORTS[b].id
  {
    ReportsInOrder();
  }

  /** The map `m` after the first `i` of `reports` have each been given their value in `vals`. */
  ghost function Stamped<V>(m: map<ReportId, V>, reports: seq<ReportDef>, vals: seq<V>, i: nat): (r: map<ReportId, V>)
    requires i <= |reports| == |vals|
    ensures m.Keys <= r.Keys
  {
    if i == 0 then m else Stamped(m, reports, vals, i - 1)[reports[i - 1].id := vals[i - 1]]
  }

  /** With distinct reports, one among the first `i` holds its value from `vals`; any later one
      keeps its value from `m`. */
  lemma {:induction false} StampedSpec<V>(m: map<ReportId, V>, reports: seq<ReportDef>, vals: seq<V>, i: nat)
    requires i <= |reports| == |vals|
    requires forall a, b :: 0 <= a < b < |reports| ==> reports[a].id != reports[b].id
    ensures forall k :: 0 <= k < i ==>
              reports[k].id in Stamped(m, reports, vals, i) && Stamped(m, reports, vals, i)[reports[k].id] == vals[k]
    ensures forall k :: i <= k < |reports| && reports[k].id in m ==>
              Stamped(m, reports, vals, i)[reports[k].id] == m[reports[k].id]
  {
    if i > 0 {
      StampedSpec(m, reports, vals, i - 1);
    }
  }

  /** Giving a report the value it had in `m` again changes nothing. */
  lemma StampedKeep<V>(m: map<ReportId, V>, reports: seq<ReportDef>, vals: seq<V>, i: nat)
    requires i < |reports| == |vals|
    requires forall a, b :: 0 <= a < b < |reports| ==> reports[a].id != reports[b].id
    requires reports[i].id in m && vals[i] == m[reports[i].id]
    ensures Stamped(m, reports, vals, i + 1) == Stamped(m, reports, vals, i)
  {
    StampedSpec(m, reports, vals, i);
    var before := Stamped(m, reports, vals, i);
    assert before[reports[i].id := vals[i]] == before;
  }

  /** After every report has been exported in turn, each holds the values its own export left,
      and none is loading. */
  lemma GenerateAllEffect(outcomes: seq<FetchOutcome>, nows: seq<int>, status: map<ReportId, Status>,
                          progress: map<ReportId, int>, lastRun: map<ReportId, Option<int>>)
    requires |outcomes| == |REPORTS| == |nows|
    requires forall id: ReportId :: id in status && id in progress && id in lastRun
    ensures forall i :: 0 <= i < |REPORTS| ==>
              Stamped(status, REPORTS, Settles(outcomes), |REPORTS|)[REPORTS[i].id] == Settled(outcomes[i])
    ensures forall i :: 0 <= i < |REPORTS| ==>
              Stamped(progress, REPORTS, Percents(outcomes), |REPORTS|)[REPORTS[i].id]
                == (if outcomes[i].Downloaded? then 100 else 10)
    ensures forall i :: 0 <= i < |REPORTS| ==>
              Stamped(lastRun, REPORTS, LastRuns(outcomes, nows, REPORTS, lastRun), |REPORTS|)[REPORTS[i].id]
                == (if outcomes[i].Downloaded? then Some(nows[i]) else lastRun[REPORTS[i].id])
    ensures !GeneratingSome(Stamped(status, REPORTS, Settles(outcomes), |REPORTS|))
  {
    ReportsDistinct();
    var st := Stamped(status, REPORTS, Settles(outcomes), |REPORTS|);
    StampedSpec(status, REPORTS, Settles(outcomes), |REPORTS|);
    StampedSpec(progress, REPORTS, Percents(outcomes), |REPORTS|);
    StampedSpec(lastRun, REPORTS, LastRuns(outcomes, nows, REPORTS, lastRun), |REPORTS|);
    forall id: ReportId ensures st[id] != Loading {
      ReportsInOrder();
      assert st[REPORTS[Index(id)].id] == Settles(outcomes)[Index(id)];
    }
  }

  /** The status each report settles in after "generate all", in display order. */
  function Settles(outcomes: seq<FetchOutcome>): (r: seq<Status>)
    ensures |r| == |outcomes|
    ensures forall k :: 0 <= k < |r| ==> r[k] == Settled(outcomes[k])
  {
    seq(|outcomes|, k requires 0 <= k < |outcomes| => Settled(outcomes[k]))
  }

  /** The progress each report ends at: 100 on a download, otherwise the 10 set at the start. */
  function Percents(outcomes: seq<FetchOutcome>): (r: seq<int>)
    ensures |r| == |outcomes|
    ensures forall k :: 0 <= k < |r| ==> r[k] == if outcomes[k].Downloaded? then 100 else 10
  {
    seq(|outcomes|, k requires 0 <= k < |outcomes| => if outcomes[k].Downloaded? then 100 else 10)
  }

  /** The last run of each report: the export's own clock reading on a download, otherwise the
      earlier value. */
  function LastRuns(outcomes: seq<FetchOutcome>, nows: seq<int>, reports: seq<ReportDef>,
                    lastRun: map<ReportId, Option<int>>): (r: seq<Option<int>>)
    requires |outcomes| == |nows| == |reports|
    requires forall id: ReportId :: id in lastRun
    ensures |r| == |outcomes|
    ensures forall k :: 0 <= k < |r| ==>
              r[k] == if outcomes[k].Downloaded? then Some(nows[k]) else lastRun[reports[k].id]
  {
    seq(|outcomes|, k requires 0 <= k < |outcomes| =>
      if outcomes[k].Downloaded? then Some(nows[k]) else lastRun[reports[k].id])
  }

  /** The requests of "generate all": every report once, in display order. */
  function AllRequests(f: Format): (r: seq<ExportRequest>)
    ensures |r| == |REPORTS|
    ensures forall i :: 0 <= i < |REPORTS| ==> r[i] == ExportRequest(REPORTS[i].id, f)
  {
    seq(|REPORTS|, i requires 0 <= i < |REPORTS| => ExportRequest(REPORTS[i].id, f))
  }
}

=== FILE: risk_assessment.dfy ===
/** The automatic risk seeding of a newly created treatment: an additive
    scorer over the treatment's record that starts every axis at 1, adds the
    contribution of each rule, and clamps each axis to [1,5]. */
module RiskAssessment {
  import opened Common
  import opened Text
  import opened Records

  /** The evaluated triple returned to the create flow. */
  datatype Scores = Scores(criticite: int, probabilite: int, impact: int)

  /** A nullable numeric column compared with `>` in JavaScript: `null` compares as 0. */
  function JsNumber(o: Option<int>): int
  {
    if o.Some? then o.value else 0
  }

  /** The lowered data category mentions `word`; a NULL or empty category mentions nothing. */
  predicate CategoryMentions(t: Treatment, word: string)
  {
    t.typeDcp.Some? && t.typeDcp.value != "" && Contains(LowerStr(t.typeDcp.value), word)
  }

  predicate Sensitive(t: Treatment) { CategoryMentions(t, "sensible") }
  predicate Health(t: Treatment) { CategoryMentions(t, "santé") }
  predicate OverThousandSubjects(t: Treatment) { JsNumber(t.nombrePersonnes) > 1000 }
  predicate OverHundredSubjects(t: Treatment) { JsNumber(t.nombrePersonnes) > 100 }
  predicate LongRetention(t: Treatment) { JsNumber(t.dureeConservation) > 5 }
  /** Consent, spelt exactly "Consentement", may be withdrawn. */
  predicate OnConsent(t: Treatment) { t.baseLegale == Some("Consentement") }

  /** Criticality before clamping: 1, +2 sensitive data, +3 health data, +1 long retention,
      +2 transfer outside the EU. */
  function RawCriticite(t: Treatment): int
  {
    1 + (if Sensitive(t) then 2 else 0) + (if Health(t) then 3 else 0)
      + (if LongRetention(t) then 1 else 0) + (if t.transfertHorsUe then 2 else 0)
  }

  /** Probability before clamping: 1, +1 over 1000 subjects, +1 long retention, +1 consent. */
  function RawProbabilite(t: Treatment): int
  {
    1 + (if OverThousandSubjects(t) then 1 else 0) + (if LongRetention(t) then 1 else 0)
      + (if OnConsent(t) then 1 else 0)
  }

  /** Impact before clamping: 1, +2 sensitive data, +3 health data, +2 over 1000 subjects or
      else +1 over 100 subjects, +1 transfer outside the EU. */
  function RawImpact(t: Treatment): int
  {
    1 + (if Sensitive(t) then 2 else 0) + (if Health(t) then 3 else 0)
      + (if OverThousandSubjects(t) then 2 else if OverHundredSubjects(t) then 1 else 0)
      + (if t.transfertHorsUe then 1 else 0)
  }

  /** `Math.min(Math.max(x, 1), 5)` */
  function Clamp(x: int): (r: int)
    ensures 1 <= r <= 5
    ensures 1 <= x <= 5 ==> r == x
    ensures x < 1 ==> r == 1
    ensures x > 5 ==> r == 5
  {
    if x < 1 then 1 else if x > 5 then 5 else x
  }

  predicate InRange(s: Scores)
  {
    1 <= s.criticite <= 5 && 1 <= s.probabilite <= 5 && 1 <= s.impact <= 5
  }

  /** The evaluation of one treatment: the raw sums, each clamped to [1,5]. */
  function Evaluate(t: Treatment): (r: Scores)
    ensures InRange(r)
  {
    Scores(Clamp(RawCriticite(t)), Clamp(RawProbabilite(t)), Clamp(RawImpact(t)))
  }

  /** `evaluateRisk`: the treatment arrives as the result of the one read by id.
      A failed read (the caught exception) or no row yields no evaluation. */
  method EvaluateRisk(read: QueryResult<Treatment>) returns (r: Option<Scores>)
    ensures read.QueryError? ==> r == None
    ensures read.Rows? && read.rows == [] ==> r == None
    ensures read.Rows? && read.rows != [] ==> r == Some(Evaluate(read.rows[0]))
    ensures r.Some? ==> InRange(r.value)
  {
    if read.QueryError? {
      return None;
    }
    if |read.rows| == 0 {
      return None;
    }
    var t := read.rows[0];
    var criticite := 1;
    var probabilite := 1;
    var impact := 1;

    if t.typeDcp.Some? && t.typeDcp.value != "" && Contains(LowerStr(t.typeDcp.value), "sensible") {
      criticite := criticite + 2;
      impact := impact + 2;
    }
    if t.typeDcp.Some? && t.typeDcp.value != "" && Contains(LowerStr(t.typeDcp.value), "santé") {
      criticite := criticite + 3;
      impact := impact + 3;
    }

    if JsNumber(t.nombrePersonnes) > 1000 {
      impact := impact + 2;
      probabilite := probabilite + 1;
    } else if JsNumber(t.nombrePersonnes) > 100 {
      impact := impact + 1;
    }

    if JsNumber(t.dureeConservation) > 5 {
      criticite := criticite + 1;
      probabilite := probabilite + 1;
    }

    if t.transfertHorsUe {
      criticite := criticite + 2;
      impact := impact + 1;
    }

    if t.baseLegale == Some("Consentement") {
      probabilite := probabilite + 1;
    }

    criticite := Clamp(criticite);
    probabilite := Clamp(probabilite);
    impact := Clamp(impact);
    return Some(Scores(criticite, probabilite, impact));
  }

  /** Evaluating the treatment with a given id: no row with that id means no evaluation. */
  lemma EvaluateById(table: seq<Treatment>, id: int)
    ensures (forall t :: t in table ==> t.id != id) ==> SelectTreatmentById(table, id) == []
    ensures SelectTreatmentById(table, id) != [] ==>
              SelectTreatmentById(table, id)[0] in table && SelectTreatmentById(table, id)[0].id == id
  {
    KeepSpec(table, (t: Treatment) => t.id == id);
    if SelectTreatmentById(table, id) != [] {
      assert SelectTreatmentById(table, id)[0] in SelectTreatmentById(table, id);
    }
  }

  /** A NULL data category triggers neither keyword rule. */
  lemma NullCategoryAddsNothing(t: Treatment)
    requires t.typeDcp.None?
    ensures !Sensitive(t) && !Health(t)
    ensures RawCriticite(t) == 1 + (if LongRetention(t) then 1 else 0) + (if t.transfertHorsUe then 2 else 0)
  {
  }

  /** The keyword rules are independent: one category can trigger both, for +5 criticality
      and +5 impact together, and the match ignores case. */
  lemma BothKeywordsFire(t: Treatment)
    requires t.typeDcp == Some("Sensible, SANTÉ")
    ensures Sensitive(t) && Health(t)
    ensures RawCriticite(t) >= 6 && RawImpact(t) >= 6
  {
    var low := LowerStr("Sensible, SANTÉ");
    assert low == "sensible, santé";
    assert OccursAt(low, "sensible", 0);
    assert OccursAt(low, "santé", 10);
  }

  /** The subject-count thresholds are strict: exactly 1000 counts only as "more than 100". */
  lemma SubjectThresholds(t: Treatment)
    ensures t.nombrePersonnes == Some(1000) ==> OverHundredSubjects(t) && !OverThousandSubjects(t)
    ensures t.nombrePersonnes == Some(1001) ==> OverThousandSubjects(t)
    ensures t.nombrePersonnes == Some(100) || t.nombrePersonnes.None? ==> !OverHundredSubjects(t)
  {
  }

  /** Only the exact spelling "Consentement" raises probability. */
  lemma ConsentIsExact(t: Treatment)
    requires t.baseLegale != Some("Consentement")
    ensures RawProbabilite(t) == RawProbabilite(t.(baseLegale := Some("Consentement"))) - 1
  {
  }

  /** Turning the transfer flag on never lowers an axis. */
  lemma TransferNeverLowers(t: Treatment)
    ensures var u := Evaluate(t.(transfertHorsUe := true));
            var v := Evaluate(t.(transfertHorsUe := false));
            v.criticite <= u.criticite && v.probabilite == u.probabilite && v.impact <= u.impact
  {
  }

  /** A treatment that triggers no rule is scored (1,1,1). */
  lemma NoRuleYieldsOnes(t: Treatment)
    requires t.typeDcp.None? && !t.transfertHorsUe
    requires JsNumber(t.nombrePersonnes) <= 100 && JsNumber(t.dureeConservation) <= 5
    requires t.baseLegale != Some("Consentement")
    ensures Evaluate(t) == Scores(1, 1, 1)
  {
  }

  /** Raw criticality can reach 9, beyond the scale, which is why the clamp exists. */
  lemma RawCanExceedScale(t: Treatment)
    requires Sensitive(t) && Health(t) && LongRetention(t) && t.transfertHorsUe
    ensures RawCriticite(t) == 9
    ensures Evaluate(t).criticite == 5
  {
  }

  /** The worked example: health data, transferred, kept 10 years, 2000 subjects, on consent. */
  lemma HealthExample(t: Treatment)
    requires t.typeDcp == Some("Données de santé")
    requires t.transfertHorsUe && t.dureeConservation == Some(10) && t.nombrePersonnes == Some(2000)
    requires t.baseLegale == Some("Consentement")
    ensures Evaluate(t) == Scores(5, 4, 5)
  {
    var low := LowerStr("Données de santé");
    assert low == "données de santé";
    assert OccursAt(low, "santé", 11);
    assert Health(t);
    forall i | 0 <= i <= |low| - 8
      ensures !OccursAt(low, "sensible", i)
    {
      assert low[i..i + 8][0] == low[i] && low[i..i + 8][1] == low[i + 1];
    }
  }
}

=== FILE: risk_dialog.dfy ===
/** The risk editing dialog: three 1..5 sliders, the score they give, its
    label, and the request the form submits. */
module RiskDialog {
  import opened Common
  import Dashboard

  /** The dialog's form state; each slider holds one whole value. */
  datatype Form = Form(
    traitementId: Option<int>,
    typeRisque: string,
    criticite: int,
    probabilite: int,
    impact: int,
    statut: string,
    vulnerabilites: string,
    commentaire: string)

  /** The stored risk the dialog is opened on, as it arrives from the list. */
  datatype StoredRisk = StoredRisk(
    id: int,
    traitementId: Option<int>,
    typeRisque: Option<string>,
    criticite: Option<int>,
    probabilite: Option<int>,
    impact: Option<int>,
    statut: Option<string>,
    vulnerabilites: Option<string>,
    commentaire: Option<string>)

  predicate SliderValue(v: int) { 1 <= v <= 5 }

  /** `x || d` on a number: NULL and 0 are falsy. */
  function NumberOr(x: Option<int>, d: int): (r: int)
    ensures x.Some? && x.value != 0 ==> r == x.value
    ensures x.None? || x.value == 0 ==> r == d
  {
    if x.Some? && x.value != 0 then x.value else d
  }

  /** `s || d` on a string: NULL and "" are falsy. */
  function TextOr(x: Option<string>, d: string): (r: string)
    ensures x.Some? && x.value != "" ==> r == x.value
    ensures x.None? || x.value == "" ==> r == d
  {
    if x.Some? && x.value != "" then x.value else d
  }

  /** The form of a new risk. */
  const DEFAULT_FORM := Form(None, "", 3, 3, 3, "Identifié", "", "")

  /** The form the dialog opens with: the stored values with their fallbacks, or the defaults.
      The selected treatment id is kept as a number; its string round trip is not modelled. */
  function OpenForm(risque: Option<StoredRisk>): (r: Form)
    ensures risque.None? ==> r == DEFAULT_FORM
    ensures risque.Some? ==>
      (r.traitementId == risque.value.traitementId
       && r.criticite == NumberOr(risque.value.criticite, 3)
       && r.probabilite == NumberOr(risque.value.probabilite, 3)
       && r.impact == NumberOr(risque.value.impact, 3)
       && r.statut == TextOr(risque.value.statut, "Identifié"))
  {
    if risque.None? then DEFAULT_FORM
    else
      var s := risque.value;
      Form(s.traitementId, TextOr(s.typeRisque, ""), NumberOr(s.criticite, 3), NumberOr(s.probabilite, 3),
        NumberOr(s.impact, 3), TextOr(s.statut, "Identifié"), TextOr(s.vulnerabilites, ""),
        TextOr(s.commentaire, ""))
  }

  /** `scoreRisque`: the product of the three sliders. */
  function Score(f: Form): int
  {
    f.criticite * f.probabilite * f.impact
  }

  /** With the sliders in range the score lies in [1,125], each axis pushing it up. */
  lemma ScoreBounds(f: Form)
    requires SliderValue(f.criticite) && SliderValue(f.probabilite) && SliderValue(f.impact)
    ensures 1 <= Score(f) <= 125
    ensures f.criticite < 5 ==> Score(f) < Score(f.(criticite := f.criticite + 1))
    ensures f.probabilite < 5 ==> Score(f) < Score(f.(probabilite := f.probabilite + 1))
    ensures f.impact < 5 ==> Score(f) < Score(f.(impact := f.impact + 1))
  {
    var c, p, i := f.criticite, f.probabilite, f.impact;
    ProductBounds(c, p, i);
    ProductGrows(c, p, i);
    ProductGrows(p, c, i);
    ProductGrows(i, c, p);
  }

  /** A product of three values in [1,5] lies in [1,125]. */
  lemma ProductBounds(x: int, y: int, z: int)
    requires SliderValue(x) && SliderValue(y) && SliderValue(z)
    ensures 1 <= x * y * z <= 125
  {
    assert 1 <= x * y <= 25;
  }

  /** Raising any one factor of a product of three positives raises the product. */
  lemma ProductGrows(x: int, y: int, z: int)
    requires 1 <= x && 1 <= y && 1 <= z
    ensures x * y * z < (x + 1) * y * z
    ensures y * x * z < y * (x + 1) * z
    ensures y * z * x < y * z * (x + 1)
  {
    assert 1 <= y * z;
    calc {
      (x + 1) * y * z;
      == (x * y + y) * z;
      == x * y * z + y * z;
    }
    calc {
      y * (x + 1) * z;
      == (y * x + y) * z;
      == y * x * z + y * z;
    }
    calc {
      y * z * (x + 1);
      == y * z * x + y * z;
    }
  }

  /** The nested ternary that labels the score. */
  function ScoreLabel(score: int): (r: string)
    ensures r == Dashboard.LevelName(Dashboard.RiskLevel(Some(score)))
  {
    if score >= 80 then "Critique" else if score >= 60 then "Élevé" else if score >= 40 then "Moyen" else "Faible"
  }

  /** The default sliders (3,3,3) score 27, labelled "Faible". */
  lemma DefaultScore()
    ensures Score(DEFAULT_FORM) == 27 && ScoreLabel(Score(DEFAULT_FORM)) == "Faible"
  {
  }

  /** The highest label needs a product of at least 80: 4·4·5 does, 4·4·4 does not. */
  lemma CritiqueThreshold()
    ensures ScoreLabel(4 * 4 * 5) == "Critique" && ScoreLabel(4 * 4 * 4) == "Élevé"
  {
  }

  datatype Verb = Post | Put
  /** `/api/risques` or `/api/risques/{id}`. */
  datatype Target = Collection | Item(id: int)

  datatype Payload = Payload(
    traitementId: Option<int>,
    typeRisque: string,
    criticite: int,
    probabilite: int,
    impact: int,
    statut: string,
    vulnerabilites: string,
    commentaire: string)

  datatype Request = Request(verb: Verb, target: Target, body: Payload)

  /** `handleSubmit`: PUT to the risk's own path when editing, POST to the collection otherwise,
      carrying the form with each slider's first value. */
  function Submit(risque: Option<StoredRisk>, f: Form): (r: Request)
    ensures r.verb == Put <==> risque.Some?
    ensures risque.Some? ==> r.target == Item(risque.value.id)
    ensures risque.None? ==> r.target == Collection
    ensures r.body.criticite == f.criticite && r.body.probabilite == f.probabilite && r.body.impact == f.impact
    ensures r.body.traitementId == f.traitementId && r.body.statut == f.statut
  {
    var body := Payload(f.traitementId, f.typeRisque, f.criticite, f.probabilite, f.impact, f.statut,
      f.vulnerabilites, f.commentaire);
    if risque.Some? then Request(Put, Item(risque.value.id), body) else Request(Post, Collection, body)
  }

  /** Opening a stored risk with in-range axes and submitting unchanged sends those axes back. */
  lemma EditRoundTrip(s: StoredRisk)
    requires s.criticite.Some? && SliderValue(s.criticite.value)
    requires s.probabilite.Some? && SliderValue(s.probabilite.value)
    requires s.impact.Some? && SliderValue(s.impact.value)
    ensures var r := Submit(Some(s), OpenForm(Some(s)));
      r.verb == Put && r.body.criticite == s.criticite.value && r.body.probabilite == s.probabilite.value
      && r.body.impact == s.impact.value && r.body.traitementId == s.traitementId
  {
  }
}

=== FILE: risk_page.dfy ===
/** The risk list page: the 1..5 level badges of the three axes, the
    score-based row tint and badge, and the four summary cards. */
module RiskPage {
  import opened Common
  import opened Records
  import RiskAssessment
  import Dashboard

  /** The text of a level badge: a named level, or the raw value over five. */
  datatype LevelText = Named(text: string) | OutOfFive(value: real)

  const LEVEL_NAMES := ["Très faible", "Faible", "Modéré", "Élevé", "Critique"]

  /** `Math.max(1, Math.min(5, v))` */
  function ClampScale(v: real): (r: real)
    ensures 1.0 <= r <= 5.0
    ensures 1.0 <= v <= 5.0 ==> r == v
    ensures v < 1.0 ==> r == 1.0
    ensures v > 5.0 ==> r == 5.0
  {
    if v < 1.0 then 1.0 else if v > 5.0 then 5.0 else v
  }

  /** `levelLabel(v)`: the switch over the clamped value; only the five whole values have a
      case, anything else falls to the default, which shows the value as given. */
  function LevelLabel(v: real): (r: LevelText)
    ensures v <= 1.0 ==> r == Named(LEVEL_NAMES[0])
    ensures v >= 5.0 ==> r == Named(LEVEL_NAMES[4])
    ensures 1.0 <= v <= 5.0 && v == v.Floor as real ==> r == Named(LEVEL_NAMES[v.Floor - 1])
    ensures 1.0 < v < 5.0 && v != v.Floor as real ==> r == OutOfFive(v)
  {
    var c := ClampScale(v);
    if c == 1.0 then Named("Très faible")
    else if c == 2.0 then Named("Faible")
    else if c == 3.0 then Named("Modéré")
    else if c == 4.0 then Named("Élevé")
    else if c == 5.0 then Named("Critique")
    else OutOfFive(v)
  }

  /** Out-of-scale values are clamped before labelling. */
  lemma LevelLabelClamps()
    ensures LevelLabel(0.0) == Named("Très faible")
    ensures LevelLabel(9.0) == Named("Critique")
    ensures LevelLabel(2.5) == OutOfFive(2.5)
  {
    assert (2.5).Floor == 2;
  }

  /** Every axis the evaluator produces gets a named badge. */
  lemma EvaluatedAxesAreNamed(t: Treatment)
    ensures LevelLabel(RiskAssessment.Evaluate(t).criticite as real).Named?
    ensures LevelLabel(RiskAssessment.Evaluate(t).probabilite as real).Named?
    ensures LevelLabel(RiskAssessment.Evaluate(t).impact as real).Named?
  {
  }

  /** The four row tints, from the most to the least severe. */
  datatype Tint = Red | Orange | Yellow | Emerald

  /** `rowTint(score)`; a NULL score compares as 0. */
  function RowTint(score: Option<int>): (r: Tint)
    ensures r == Red <==> RiskAssessment.JsNumber(score) >= 80
    ensures r == Emerald <==> RiskAssessment.JsNumber(score) < 40
  {
    var s := RiskAssessment.JsNumber(score);
    if s >= 80 then Red else if s >= 60 then Orange else if s >= 40 then Yellow else Emerald
  }

  /** `getRiskBadge(score)`: the badge text; a NULL score compares as 0. */
  function RiskBadge(score: Option<int>): (r: string)
    ensures r in ["Critique", "Élevé", "Moyen", "Faible"]
  {
    var s := RiskAssessment.JsNumber(score);
    if s >= 80 then "Critique" else if s >= 60 then "Élevé" else if s >= 40 then "Moyen" else "Faible"
  }

  function TintLevel(t: Tint): Dashboard.Level
  {
    match t
    case Red => Dashboard.Critique
    case Orange => Dashboard.Eleve
    case Yellow => Dashboard.Moyen
    case Emerald => Dashboard.Faible
  }

  /** The tint and the badge draw the dashboard's boundaries: for every score, NULL included,
      they show the level the dashboard's CASE counts the risk under. */
  lemma SameBoundariesAsDashboard(score: Option<int>)
    ensures RiskBadge(score) == Dashboard.LevelName(Dashboard.RiskLevel(score))
    ensures TintLevel(RowTint(score)) == Dashboard.RiskLevel(score)
  {
  }

  predicate IsCritical(r: Risk) { RiskAssessment.JsNumber(r.scoreRisque) >= 80 }

  /** The "Critiques", "En cours" and "Traités" cards. */
  function CriticalCount(rs: seq<Risk>): nat { CountIf(rs, IsCritical) }
  function InProgressCount(rs: seq<Risk>): nat { CountIf(rs, (r: Risk) => r.statut == Some("En cours")) }
  function TreatedCount(rs: seq<Risk>): nat { CountIf(rs, (r: Risk) => r.statut == Some("Traité")) }

  /** The "Critiques" card shows the dashboard's 'Critique' group count. */
  lemma {:induction false} CriticalCardMatchesDashboard(rs: seq<Risk>)
    ensures CriticalCount(rs) == Occurrences(Column(rs, Dashboard.LevelOf), Dashboard.Critique)
  {
    if rs != [] {
      CriticalCardMatchesDashboard(rs[1..]);
      assert Column(rs, Dashboard.LevelOf)[1..] == Column(rs[1..], Dashboard.LevelOf);
    }
  }

  /** The status cards count disjoint sets of risks, so together never exceed the total. */
  lemma StatusCardsBounded(rs: seq<Risk>)
    ensures InProgressCount(rs) + TreatedCount(rs) <= |rs|
  {
    CountExclusive(rs, (r: Risk) => r.statut == Some("En cours"), (r: Risk) => r.statut == Some("Traité"));
  }
}

=== FILE: role_guard.dfy ===
/** The client page guard: reads the stored user, lower-cases its role, and
    redirects to the login page or the dashboard. The DPO role is never
    redirected. */
module RoleGuard {
  import opened Common
  import opened Text
  import RoleMiddleware

  /** What `localStorage.getItem("user")` holds, as seen by `JSON.parse`. */
  datatype Stored =
    | NoEntry                        // null, or the empty string
    | Unparsable                     // JSON.parse throws
    | JsonNull                       // parses to null: reading `.role` throws
    | JsonValue(role: Option<string>)  // any other value; `role` when it is a string

  /** The effect's result: where it navigates, and the role state it sets (None keeps null). */
  datatype GuardResult = GuardResult(redirect: Option<string>, role: Option<string>)

  /** `allowedRoles.map((r) => r.toLowerCase())` */
  function LowerAll(roles: seq<string>): (r: seq<string>)
    ensures |r| == |roles|
    ensures forall i :: 0 <= i < |roles| ==> r[i] == LowerStr(roles[i])
  {
    if roles == [] then [] else [LowerStr(roles[0])] + LowerAll(roles[1..])
  }

  /** `typeof user.role === "string" ? user.role.toLowerCase() : ""` */
  function CurrentRole(role: Option<string>): (r: string)
    ensures role.None? ==> r == ""
    ensures role.Some? ==> |r| == |role.value| && r == LowerStr(role.value)
    ensures LowerStr(r) == r
  {
    LowerLower(if role.Some? then role.value else "");
    if role.Some? then LowerStr(role.value) else ""
  }

  /** The decision inside the effect of `useRoleGuard(allowedRoles)`. */
  function Guard(allowedRoles: seq<string>, stored: Stored): GuardResult
  {
    match stored
    case NoEntry => GuardResult(Some("/login"), None)
    case Unparsable => GuardResult(Some("/login"), None)
    case JsonNull => GuardResult(Some("/login"), None)
    case JsonValue(role) =>
      var current := CurrentRole(role);
      if current != "dpo" && !Includes(LowerAll(allowedRoles), current) then
        GuardResult(Some("/dashboard"), Some(current))
      else
        GuardResult(None, Some(current))
  }

  /** No usable stored user sends the visitor to the login page and leaves the role null. */
  lemma LoginWhenNoUser(allowedRoles: seq<string>, stored: Stored)
    ensures Guard(allowedRoles, stored).redirect == Some("/login") <==> !stored.JsonValue?
    ensures !stored.JsonValue? ==> Guard(allowedRoles, stored).role.None?
  {
  }

  /** A parsed user: the role state is the lower-cased role ("" when not a string), and the
      guard redirects to the dashboard exactly when that role is neither "dpo" nor allowed
      up to case. */
  lemma DashboardRule(allowedRoles: seq<string>, role: Option<string>)
    ensures var g := Guard(allowedRoles, JsonValue(role));
      g.role == Some(CurrentRole(role))
      && (g.redirect == Some("/dashboard") <==>
            CurrentRole(role) != "dpo"
            && forall i :: 0 <= i < |allowedRoles| ==> LowerStr(allowedRoles[i]) != CurrentRole(role))
      && (g.redirect.None? || g.redirect == Some("/dashboard"))
  {
    var low := LowerAll(allowedRoles);
    if CurrentRole(role) in low {
      var i :| 0 <= i < |low| && low[i] == CurrentRole(role);
      assert LowerStr(allowedRoles[i]) == CurrentRole(role);
    }
  }

  /** Whatever the list, even empty, a stored role spelt "DPO" in any case stays. */
  lemma DpoNeverRedirected(allowedRoles: seq<string>, role: string)
    requires LowerStr(role) == "dpo"
    ensures Guard(allowedRoles, JsonValue(Some(role))).redirect.None?
  {
  }

  /** A non-string role counts as "", which only an allowed "" admits. */
  lemma NonStringRole(allowedRoles: seq<string>)
    requires forall i :: 0 <= i < |allowedRoles| ==> allowedRoles[i] != ""
    ensures Guard(allowedRoles, JsonValue(None)) == GuardResult(Some("/dashboard"), Some(""))
  {
    forall i | 0 <= i < |allowedRoles| ensures LowerAll(allowedRoles)[i] != "" {
      assert |LowerStr(allowedRoles[i])| == |allowedRoles[i]|;
    }
  }

  /** The page guard and the API middleware disagree on case: a user whose role is "Admin"
      passes the guard of a page that allows "admin", while the middleware of the journal
      route, whose list is lower-case, refuses the same user. */
  lemma GuardAndMiddlewareDisagree(id: int)
    ensures Guard(["admin", "dpo", "super admin"], JsonValue(Some("Admin"))).redirect.None?
    ensures RoleMiddleware.Decide(["admin", "dpo", "super admin"],
      Some(RoleMiddleware.ReqUser(id, Some("Admin")))).Respond?
  {
    assert LowerStr("Admin") == "admin";
    assert LowerAll(["admin", "dpo", "super admin"])[0] == LowerStr("admin") == "admin";
    RoleMiddleware.LowercaseListRejectsAdmin(id);
  }
}

=== FILE: roles.dfy ===
/** The client-side role and permission table. */
module Roles {
  import opened Common

  datatype Role = Admin | Editor | Viewer
  datatype Permission = Read | Write | Delete

  datatype User = User(id: int, roles: seq<Role>)

  /** `rolePermissions`: admin reads, writes and deletes; editor reads and writes; viewer reads. */
  function RolePermissions(role: Role): (r: seq<Permission>)
    ensures Read in r
  {
    match role
    case Admin => [Read, Write, Delete]
    case Editor => [Read, Write]
    case Viewer => [Read]
  }

  /** `hasRole(user, role)` */
  function HasRole(user: User, role: Role): (r: bool)
    ensures r <==> role in user.roles
  {
    Includes(user.roles, role)
  }

  /** `authorize(user, allowed)`: some allowed role is held. */
  function Authorize(user: User, allowed: seq<Role>): (r: bool)
    ensures r <==> exists role :: role in allowed && role in user.roles
  {
    var r := AnyOf(allowed, (role: Role) => HasRole(user, role));
    assert r ==> exists i :: 0 <= i < |allowed| && HasRole(user, allowed[i]);
    r
  }

  /** `hasPermission(user, permission)`: some held role grants it. */
  function HasPermission(user: User, permission: Permission): (r: bool)
    ensures r <==> exists role :: role in user.roles && permission in RolePermissions(role)
  {
    var r := AnyOf(user.roles, (role: Role) => Includes(RolePermissions(role), permission));
    assert r ==> exists i :: 0 <= i < |user.roles| && permission in RolePermissions(user.roles[i]);
    r
  }

  /** An empty allowed list authorizes nobody. */
  lemma AuthorizeEmpty(user: User)
    ensures !Authorize(user, [])
  {
  }

  /** Enlarging the allowed list never withdraws authorization. */
  lemma AuthorizeMonotone(user: User, a: seq<Role>, b: seq<Role>)
    requires forall role :: role in a ==> role in b
    ensures Authorize(user, a) ==> Authorize(user, b)
  {
  }

  /** A user with no roles has no permission. */
  lemma NoRolesNoPermission(user: User, p: Permission)
    requires user.roles == []
    ensures !HasPermission(user, p)
  {
  }

  /** Permissions are nested: delete implies write, write implies read. */
  lemma PermissionsNested(user: User)
    ensures HasPermission(user, Delete) ==> HasPermission(user, Write)
    ensures HasPermission(user, Write) ==> HasPermission(user, Read)
    ensures HasPermission(user, Read) <==> user.roles != []
  {
    if user.roles != [] {
      assert Read in RolePermissions(user.roles[0]);
    }
  }

  /** Holding an allowed role is exactly what `authorize` checks, role by role. */
  lemma AuthorizeSingle(user: User, role: Role)
    ensures Authorize(user, [role]) == HasRole(user, role)
  {
  }
}

=== FILE: text.dfy ===
/** String operations of the JavaScript runtime that the register relies on:
    case mapping, `includes`, `endsWith`, `split(" ")`, and the initials that
    three pages derive from a user name. Case mapping covers ASCII and the
    Latin-1 supplement, which holds every accented letter of the French
    keywords the register tests for. */
module Text {

  predicate IsAsciiUpper(c: char) { 'A' <= c <= 'Z' }
  predicate IsAsciiLower(c: char) { 'a' <= c <= 'z' }
  predicate IsDigit(c: char) { '0' <= c <= '9' }

  /** Latin-1 capitals À..Þ other than the multiplication sign. */
  predicate IsLatinUpper(c: char) { 'À' <= c <= 'Þ' && c != '×' }
  /** Latin-1 small letters à..þ other than the division sign. */
  predicate IsLatinLower(c: char) { 'à' <= c <= 'þ' && c != '÷' }

  /** `toLowerCase` of one character. */
  function Lower(c: char): (r: char)
    ensures IsAsciiUpper(c) ==> IsAsciiLower(r)
    ensures !IsAsciiUpper(c) && !IsLatinUpper(c) ==> r == c
  {
    if IsAsciiUpper(c) || IsLatinUpper(c) then (c as int + 32) as char else c
  }

  /** `toUpperCase` of one character. */
  function Upper(c: char): (r: char)
    ensures IsAsciiLower(c) ==> IsAsciiUpper(r)
    ensures !IsAsciiLower(c) && !IsLatinLower(c) ==> r == c
  {
    if IsAsciiLower(c) || IsLatinLower(c) then (c as int - 32) as char else c
  }

  function LowerStr(s: string): (r: string)
    ensures |r| == |s|
  {
    seq(|s|, i requires 0 <= i < |s| => Lower(s[i]))
  }

  function UpperStr(s: string): (r: string)
    ensures |r| == |s|
  {
    seq(|s|, i requires 0 <= i < |s| => Upper(s[i]))
  }

  /** Lowering is idempotent: a lowered string has no capitals left. */
  lemma LowerLower(s: string)
    ensures LowerStr(LowerStr(s)) == LowerStr(s)
  {
  }

  /** Lowering after raising gives the plain lowering: raising loses no letter that lowering
      would distinguish. */
  lemma LowerUpper(s: string)
    ensures LowerStr(UpperStr(s)) == LowerStr(s)
  {
    forall i | 0 <= i < |s| ensures Lower(Upper(s[i])) == Lower(s[i]) {
      var c := s[i];
      if IsLatinLower(c) {
        assert IsLatinUpper((c as int - 32) as char);
      }
    }
  }

  /** A text of small ASCII letters and spaces is its own lower case. */
  lemma LowerStrFixed(s: string)
    requires forall i :: 0 <= i < |s| ==> IsAsciiLower(s[i]) || s[i] == ' '
    ensures LowerStr(s) == s
  {
  }

  predicate StartsWith(s: string, prefix: string)
  {
    |prefix| <= |s| && s[..|prefix|] == prefix
  }

  /** `String.prototype.endsWith` */
  predicate EndsWith(s: string, suffix: string)
  {
    |suffix| <= |s| && s[|s| - |suffix|..] == suffix
  }

  /** `sub` occurs in `s` at position `i`. */
  predicate OccursAt(s: string, sub: string, i: int)
  {
    0 <= i <= |s| - |sub| && s[i..i + |sub|] == sub
  }

  /** `String.prototype.includes`: `sub` occurs somewhere in `s`. */
  predicate Contains(s: string, sub: string)
  {
    exists i :: 0 <= i <= |s| && OccursAt(s, sub, i)
  }

  /** `hay.toLowerCase().includes(term.toLowerCase())` */
  predicate ContainsIgnoringCase(hay: string, term: string)
  {
    Contains(LowerStr(hay), LowerStr(term))
  }

  /** The empty string occurs in every string, so an empty search term matches everything. */
  lemma ContainsEmpty(s: string)
    ensures Contains(s, "")
  {
    assert OccursAt(s, "", 0);
  }

  /** A prefix is an occurrence. */
  lemma StartsWithContains(s: string, sub: string)
    requires StartsWith(s, sub)
    ensures Contains(s, sub)
  {
    assert OccursAt(s, sub, 0);
  }

  /** A word with a character that `s` lacks does not occur in `s`. */
  lemma MissingCharNotContained(s: string, sub: string, d: int)
    requires 0 <= d < |sub| && sub[d] !in s
    ensures !Contains(s, sub)
  {
    forall i | 0 <= i <= |s| ensures !OccursAt(s, sub, i) {
      if i <= |s| - |sub| {
        assert s[i..i + |sub|][d] == s[i + d];
      }
    }
  }

  /** `s.split(" ")`: the pieces between single spaces, empty pieces included. */
  function Split(s: string): (r: seq<string>)
    ensures |r| >= 1
  {
    if s == [] then [[]]
    else if s[0] == ' ' then [[]] + Split(s[1..])
    else
      var rest := Split(s[1..]);
      [[s[0]] + rest[0]] + rest[1..]
  }

  /** `words.join(" ")` */
  function Join(words: seq<string>): string
  {
    if words == [] then []
    else if |words| == 1 then words[0]
    else words[0] + " " + Join(words[1..])
  }

  /** Splitting on spaces and joining with spaces gives the text back. */
  lemma {:induction false} JoinSplit(s: string)
    ensures Join(Split(s)) == s
    ensures forall w :: w in Split(s) ==> ' ' !in w
  {
    if s != [] {
      JoinSplit(s[1..]);
      var rest := Split(s[1..]);
      if s[0] == ' ' {
        assert Split(s) == [[]] + rest;
        assert ([[]] + rest)[1..] == rest;
        assert s == [' '] + s[1..];
      } else {
        var r := Split(s);
        assert r == [[s[0]] + rest[0]] + rest[1..];
        assert r[1..] == rest[1..];
        if |rest| > 1 {
          assert Join(rest) == rest[0] + " " + Join(rest[1..]);
        }
        assert s == [s[0]] + s[1..];
        assert forall w :: w in r ==> w == [s[0]] + rest[0] || w in rest;
      }
    }
  }

  /** `words.map(w => w[0]).join("")`: `w[0]` of an empty word is undefined and joins as "". */
  function Heads(words: seq<string>): string
  {
    if words == [] then []
    else (if words[0] == [] then [] else [words[0][0]]) + Heads(words[1..])
  }

  lemma {:induction false} HeadsAppend(a: seq<string>, b: seq<string>)
    ensures Heads(a + b) == Heads(a) + Heads(b)
  {
    if a != [] {
      assert (a + b)[1..] == a[1..] + b;
      HeadsAppend(a[1..], b);
    } else {
      assert a + b == b;
    }
  }

  /** The characters that begin a word: non-space, at the start or after a space. */
  function WordStarts(s: string, atStart: bool): string
  {
    if s == [] then []
    else (if s[0] != ' ' && atStart then [s[0]] else []) + WordStarts(s[1..], s[0] == ' ')
  }

  /** The heads of the split words are exactly the word-start characters. */
  lemma {:induction false} HeadsOfSplit(s: string)
    ensures Heads(Split(s)) == WordStarts(s, true)
    ensures Heads(Split(s)[1..]) == WordStarts(s, false)
  {
    if s != [] {
      HeadsOfSplit(s[1..]);
      var rest := Split(s[1..]);
      if s[0] == ' ' {
        assert Split(s) == [[]] + rest;
        assert ([[]] + rest)[1..] == rest;
        HeadsAppend([[]], rest);
      } else {
        var first: string := [s[0]] + rest[0];
        assert Split(s) == [first] + rest[1..];
        assert ([first] + rest[1..])[1..] == rest[1..];
        HeadsAppend([first], rest[1..]);
      }
    }
  }

  /** `text.slice(0, 2)` */
  function TakeTwo(s: string): (r: string)
    ensures |r| <= 2
  {
    if |s| <= 2 then s else s[..2]
  }

  /** `nom.split(" ").map(n => n[0]).join("").toUpperCase().slice(0, 2)` */
  function InitialsOf(nom: string): (r: string)
    ensures |r| <= 2
  {
    TakeTwo(UpperStr(Heads(Split(nom))))
  }

  /** The initials are the first two word-start characters, upper-cased. */
  lemma InitialsAreWordStarts(nom: string)
    ensures InitialsOf(nom) == TakeTwo(UpperStr(WordStarts(nom, true)))
    ensures forall i :: 0 <= i < |InitialsOf(nom)| ==> ' ' != InitialsOf(nom)[i]
  {
    HeadsOfSplit(nom);
    WordStartsNoSpace(nom, true);
  }

  /** Upper-casing leaves no ASCII small letter. */
  lemma UpperStrNoSmall(s: string)
    ensures forall i :: 0 <= i < |UpperStr(s)| ==> !IsAsciiLower(UpperStr(s)[i])
  {
  }

  /** Initials never hold a space or an ASCII small letter. */
  lemma InitialsShape(nom: string)
    ensures forall i :: 0 <= i < |InitialsOf(nom)| ==> InitialsOf(nom)[i] != ' ' && !IsAsciiLower(InitialsOf(nom)[i])
  {
    InitialsAreWordStarts(nom);
    UpperStrNoSmall(Heads(Split(nom)));
  }

  lemma {:induction false} WordStartsNoSpace(s: string, atStart: bool)
    ensures ' ' !in WordStarts(s, atStart)
  {
    if s != [] {
      WordStartsNoSpace(s[1..], s[0] == ' ');
    }
  }

  /** JavaScript's `\s` class: white space and line terminators. */
  predicate IsSpace(c: char)
  {
    c == '\t' || c == '\n' || c == '\U{000B}' || c == '\U{000C}' || c == '\r' || c == ' '
    || c == '\U{00A0}' || c == '\U{1680}' || ('\U{2000}' <= c <= '\U{200A}')
    || c == '\U{2028}' || c == '\U{2029}' || c == '\U{202F}' || c == '\U{205F}'
    || c == '\U{3000}' || c == '\U{FEFF}'
  }
}

=== FILE: treatments_page.dfy ===
/** The treatment list page: the three-step filter, the risk cell that
    labels the rounded average score, and the pole choices. */
module TreatmentsPage {
  import opened Common
  import opened Text
  import Dashboard

  /** A row of the listing: the treatment's columns the page reads, with the average score of
      its risks. */
  datatype ListedTreatment = ListedTreatment(
    nom: string,
    finalite: Option<string>,
    statutConformite: Option<string>,
    pole: Option<string>,
    scoreMoyen: Option<real>)

  /** The search matches the name, or the purpose when there is one, ignoring case. */
  predicate MatchesSearch(t: ListedTreatment, term: string)
  {
    ContainsIgnoringCase(t.nom, term) || (t.finalite.Some? && ContainsIgnoringCase(t.finalite.value, term))
  }

  /** What the three filters together let through: an empty search and "all" filter nothing. */
  predicate Shown(t: ListedTreatment, term: string, status: string, pole: string)
  {
    (term == "" || MatchesSearch(t, term))
    && (status == "all" || t.statutConformite == Some(status))
    && (pole == "all" || t.pole == Some(pole))
  }

  function SearchBy(term: string): ListedTreatment -> bool { t => MatchesSearch(t, term) }
  function StatusBy(status: string): ListedTreatment -> bool { (t: ListedTreatment) => t.statutConformite == Some(status) }
  function PoleBy(pole: string): ListedTreatment -> bool { (t: ListedTreatment) => t.pole == Some(pole) }
  function ShownBy(term: string, status: string, pole: string): ListedTreatment -> bool
  {
    t => Shown(t, term, status, pole)
  }

  function AfterSearch(term: string): ListedTreatment -> bool
  {
    t => term == "" || MatchesSearch(t, term)
  }

  function AfterStatus(term: string, status: string): ListedTreatment -> bool
  {
    t => (term == "" || MatchesSearch(t, term)) && (status == "all" || t.statutConformite == Some(status))
  }

  /** `filterTraitements`: the listing narrowed step by step, in order. */
  method FilterTraitements(ts: seq<ListedTreatment>, searchTerm: string, statusFilter: string, poleFilter: string)
    returns (filtered: seq<ListedTreatment>)
    ensures filtered == Keep(ts, ShownBy(searchTerm, statusFilter, poleFilter))
    ensures IsSubsequence(filtered, ts)
    ensures forall t :: t in filtered <==> t in ts && Shown(t, searchTerm, statusFilter, poleFilter)
  {
    filtered := ts;
    if searchTerm != "" {
      filtered := Keep(filtered, SearchBy(searchTerm));
      KeepSame(ts, SearchBy(searchTerm), AfterSearch(searchTerm));
    } else {
      KeepAll(ts, AfterSearch(searchTerm));
    }

    if statusFilter != "all" {
      filtered := Keep(filtered, StatusBy(statusFilter));
      KeepThen(ts, AfterSearch(searchTerm), StatusBy(statusFilter), AfterStatus(searchTerm, statusFilter));
    } else {
      KeepSame(ts, AfterSearch(searchTerm), AfterStatus(searchTerm, statusFilter));
    }

    if poleFilter != "all" {
      filtered := Keep(filtered, PoleBy(poleFilter));
      KeepThen(ts, AfterStatus(searchTerm, statusFilter), PoleBy(poleFilter),
        ShownBy(searchTerm, statusFilter, poleFilter));
    } else {
      KeepSame(ts, AfterStatus(searchTerm, statusFilter), ShownBy(searchTerm, statusFilter, poleFilter));
    }
    KeepSpec(ts, ShownBy(searchTerm, statusFilter, poleFilter));
  }

  /** With no search and both filters on "all", every treatment is shown. */
  lemma NoFilterShowsAll(t: ListedTreatment)
    ensures Shown(t, "", "all", "all")
  {
  }

  /** A status filter demands the exact status: a treatment with no status is never shown. */
  lemma NullStatusHidden(t: ListedTreatment, term: string, status: string, pole: string)
    requires t.statutConformite.None? && status != "all"
    ensures !Shown(t, term, status, pole)
  {
  }

  /** `Math.round`: halves round up. */
  function Round(x: real): (r: int)
    ensures x - 0.5 < r as real <= x + 0.5
  {
    (x + 0.5).Floor
  }

  /** The risk cell: "N/A" when the average is NULL, otherwise the label of the rounded
      average. The driver hands the average over as a DECIMAL string, and a string such as
      "0.0000" is truthy, so a zero average is labelled too. */
  datatype RiskCell = NotAvailable | Labelled(text: string)

  function ScoreCell(avg: Option<real>): (r: RiskCell)
    ensures r == NotAvailable <==> avg.None?
    ensures r.Labelled? ==> r.text == Dashboard.LevelName(Dashboard.RiskLevel(Some(Round(avg.value))))
  {
    if avg.None? then NotAvailable
    else
      var s := Round(avg.value);
      Labelled(if s >= 80 then "Critique" else if s >= 60 then "Élevé" else if s >= 40 then "Moyen" else "Faible")
  }

  /** Rounding decides the boundary: 79.5 rounds to a critical level, 79.4 does not. */
  lemma RoundingAtBoundary()
    ensures ScoreCell(Some(79.5)) == Labelled("Critique")
    ensures ScoreCell(Some(79.4)) == Labelled("Élevé")
    ensures ScoreCell(Some(0.0)) == Labelled("Faible")
  {
    assert Round(79.5) == 80;
    assert Round(79.4) == 79;
    assert Round(0.0) == 0;
  }

  /** The poles that are set and non-empty, in order, repeats included. */
  function SetPoles(ts: seq<ListedTreatment>): (r: seq<string>)
    ensures forall p :: p in r <==> p != "" && exists i :: 0 <= i < |ts| && ts[i].pole == Some(p)
  {
    if ts == [] then []
    else
      var rest := SetPoles(ts[1..]);
      assert forall p :: (exists i :: 0 <= i < |ts[1..]| && ts[1..][i].pole == Some(p)) <==>
                         (exists i :: 1 <= i < |ts| && ts[i].pole == Some(p)) by {
        forall p | exists i :: 1 <= i < |ts| && ts[i].pole == Some(p)
          ensures exists i :: 0 <= i < |ts[1..]| && ts[1..][i].pole == Some(p)
        {
          var i :| 1 <= i < |ts| && ts[i].pole == Some(p);
          assert ts[1..][i - 1] == ts[i];
        }
      }
      (if ts[0].pole.Some? && ts[0].pole.value != "" then [ts[0].pole.value] else []) + rest
  }

  /** `poles`: each set, non-empty pole once. */
  function Poles(ts: seq<ListedTreatment>): (r: seq<string>)
    ensures NoDuplicates(r)
    ensures forall p :: p in r <==> p != "" && exists i :: 0 <= i < |ts| && ts[i].pole == Some(p)
  {
    Distinct(SetPoles(ts))
  }
}

=== FILE: users_page.dfy ===
/** The user administration page: the search over names and e-mails and the
    per-role cards. */
module UsersPage {
  import opened Common
  import opened Text

  /** A row of the user listing. */
  datatype UserRow = UserRow(nom: string, email: string, role: string)

  predicate MatchesSearch(u: UserRow, term: string)
  {
    ContainsIgnoringCase(u.nom, term) || ContainsIgnoringCase(u.email, term)
  }

  function SearchBy(term: string): UserRow -> bool { u => MatchesSearch(u, term) }

  /** `filterUsers`: an empty search keeps everyone, otherwise the name or e-mail must match. */
  method FilterUsers(users: seq<UserRow>, searchTerm: string) returns (filtered: seq<UserRow>)
    ensures searchTerm == "" ==> filtered == users
    ensures searchTerm != "" ==> filtered == Keep(users, SearchBy(searchTerm))
    ensures IsSubsequence(filtered, users)
    ensures forall u :: u in filtered <==> u in users && (searchTerm == "" || MatchesSearch(u, searchTerm))
  {
    filtered := users;
    if searchTerm != "" {
      filtered := Keep(filtered, SearchBy(searchTerm));
      KeepSpec(users, SearchBy(searchTerm));
    } else {
      KeepAll(users, (u: UserRow) => true);
      KeepSpec(users, (u: UserRow) => true);
    }
  }

  predicate IsDpo(u: UserRow) { u.role == "DPO" }
  predicate IsAdmin(u: UserRow) { u.role == "Admin" }
  predicate IsCollaborateur(u: UserRow) { u.role == "Collaborateur" }

  /** The role cards count exact role names; together they never exceed the total card. */
  lemma {:induction false} RoleCardsBounded(users: seq<UserRow>)
    ensures CountIf(users, IsDpo) + CountIf(users, IsAdmin) + CountIf(users, IsCollaborateur) <= |users|
    ensures (forall i :: 0 <= i < |users| ==> users[i].role in {"DPO", "Admin", "Collaborateur"}) ==>
              CountIf(users, IsDpo) + CountIf(users, IsAdmin) + CountIf(users, IsCollaborateur) == |users|
  {
    if users != [] {
      RoleCardsBounded(users[1..]);
    }
  }
}

=== FILE: utils.dfy ===
/** The frontend's string helpers: `truncate`, `isValidEmail`, and the steps
    of `slugify` that follow Unicode normalisation. */
module Utils {
  import opened Common
  import opened Text

  // ------------------------------------------------------------ truncate

  /** `s.slice(0, n)`: a negative end counts from the end of the string. */
  function SliceTo(s: string, n: int): string
  {
    if n >= 0 then s[..if n < |s| then n else |s|]
    else s[..if |s| + n < 0 then 0 else |s| + n]
  }

  /** `truncate(text, length)` */
  function Truncate(text: string, n: int): (r: string)
    ensures |text| <= n ==> r == text
    ensures 0 <= n < |text| ==> r == text[..n] + "..." && |r| == n + 3
    ensures |text| > n ==> EndsWith(r, "...") && StartsWith(text, r[..|r| - 3])
  {
    if |text| <= n then text else SliceTo(text, n) + "..."
  }

  // ------------------------------------------------------------ email

  /** A non-empty run of characters that are neither white space nor '@' (`[^\s@]+`). */
  predicate PlainRun(x: string)
  {
    x != [] && forall k :: 0 <= k < |x| ==> !IsSpace(x[k]) && x[k] != '@'
  }

  /** The regular expression `^[^\s@]+@[^\s@]+\.[^\s@]+$`, read as a split of the text. */
  ghost predicate EmailRegex(s: string)
  {
    exists i, j :: 0 < i && i + 1 < j < |s| - 1 && s[i] == '@' && s[j] == '.'
      && PlainRun(s[..i]) && PlainRun(s[i + 1..j]) && PlainRun(s[j + 1..])
  }

  /** The first position of `c` in `s`. */
  function IndexOfChar(s: string, c: char): (r: Option<nat>)
    ensures r.Some? ==> r.value < |s| && s[r.value] == c && c !in s[..r.value]
    ensures r.None? ==> c !in s
  {
    if s == [] then None
    else if s[0] == c then Some(0)
    else
      var r := IndexOfChar(s[1..], c);
      if r.Some? then
        assert s[..r.value + 1] == [s[0]] + s[1..][..r.value];
        Some(r.value + 1)
      else None
  }

  /** A '.' strictly inside the text, neither first nor last. */
  predicate HasInnerDot(d: string)
  {
    exists j :: 1 <= j < |d| - 1 && d[j] == '.'
  }

  /** `isValidEmail(email)`: the part before the first '@' and the part after it are plain
      runs, and the part after it has a '.' neither first nor last. */
  function IsValidEmail(email: string): bool
  {
    var at := IndexOfChar(email, '@');
    at.Some? && at.value > 0 && PlainRun(email[..at.value])
    && PlainRun(email[at.value + 1..]) && HasInnerDot(email[at.value + 1..])
  }

  lemma PlainRunSlice(x: string, a: int, b: int)
    requires PlainRun(x) && 0 <= a < b <= |x|
    ensures PlainRun(x[a..b])
  {
    assert forall k :: 0 <= k < b - a ==> x[a..b][k] == x[a + k];
  }

  lemma {:induction false} IndexOfCharAt(s: string, c: char, i: nat)
    requires i < |s| && s[i] == c && c !in s[..i]
    ensures IndexOfChar(s, c) == Some(i)
  {
    if i > 0 {
      assert s[0] == s[..i][0];
      assert s[1..][..i - 1] == s[1..i];
      assert s[1..i] == s[..i][1..];
      IndexOfCharAt(s[1..], c, i - 1);
    }
  }

  lemma ValidEmailMatches(s: string)
    requires IsValidEmail(s)
    ensures EmailRegex(s)
  {
    var i := IndexOfChar(s, '@').value;
    var d := s[i + 1..];
    var j :| 1 <= j < |d| - 1 && d[j] == '.';
    PlainRunSlice(d, 0, j);
    PlainRunSlice(d, j + 1, |d|);
    assert s[i + 1..i + 1 + j] == d[0..j];
    assert s[i + 1 + j + 1..] == d[j + 1..|d|];
    assert s[i + 1 + j] == d[j];
    assert 0 < i && i + 1 < i + 1 + j < |s| - 1 && s[i] == '@' && s[i + 1 + j] == '.'
      && PlainRun(s[..i]) && PlainRun(s[i + 1..i + 1 + j]) && PlainRun(s[i + 1 + j + 1..]);
  }

  lemma MatchesValidEmail(s: string)
    requires EmailRegex(s)
    ensures IsValidEmail(s)
  {
    var i, j :| 0 < i && i + 1 < j < |s| - 1 && s[i] == '@' && s[j] == '.'
      && PlainRun(s[..i]) && PlainRun(s[i + 1..j]) && PlainRun(s[j + 1..]);
    SplitIsValid(s, i, j);
  }

  /** A text split by the pattern at `i` and `j` passes the check. */
  lemma SplitIsValid(s: string, i: int, j: int)
    requires 0 < i && i + 1 < j < |s| - 1 && s[i] == '@' && s[j] == '.'
    requires PlainRun(s[..i]) && PlainRun(s[i + 1..j]) && PlainRun(s[j + 1..])
    ensures IsValidEmail(s)
  {
    assert '@' !in s[..i];
    IndexOfCharAt(s, '@', i);
    var a, b := s[i + 1..j], s[j + 1..];
    assert s[i + 1..] == a + ['.'] + b;
    DottedRun(a, b);
  }

  /** Two plain runs joined by a dot form a plain run with an inner dot. */
  lemma DottedRun(a: string, b: string)
    requires PlainRun(a) && PlainRun(b)
    ensures PlainRun(a + ['.'] + b) && HasInnerDot(a + ['.'] + b)
  {
    var d := a + ['.'] + b;
    assert d[|a|] == '.';
    assert forall k :: 0 <= k < |a| ==> d[k] == a[k];
    assert forall k :: |a| < k < |d| ==> d[k] == b[k - |a| - 1];
  }

  /** The check accepts exactly the texts the regular expression matches. */
  lemma IsValidEmailSpec(s: string)
    ensures IsValidEmail(s) <==> EmailRegex(s)
  {
    if IsValidEmail(s) {
      ValidEmailMatches(s);
    }
    if EmailRegex(s) {
      MatchesValidEmail(s);
    }
  }

  /** An accepted address has no white space and exactly one '@', with text on both sides. */
  lemma ValidEmailShape(s: string)
    requires IsValidEmail(s)
    ensures forall k :: 0 <= k < |s| ==> !IsSpace(s[k])
    ensures exists i :: 0 < i < |s| - 1 && s[i] == '@' && '@' !in s[..i] && '@' !in s[i + 1..]
  {
    var i := IndexOfChar(s, '@').value;
    assert forall k :: 0 <= k < i ==> s[k] == s[..i][k];
    assert forall k :: i < k < |s| ==> s[k] == s[i + 1..][k - i - 1];
  }

  /** A few addresses. */
  lemma EmailExamples()
    ensures IsValidEmail("a@b.c")
    ensures !IsValidEmail("a@.c")
    ensures !IsValidEmail("@b.c")
  {
    IsValidEmailSpec("a@.c");
    assert "a@b.c"[2..] == "b.c";
    assert "b.c"[1] == '.';
    assert "a@.c"[2..] == ".c";
  }

  // ------------------------------------------------------------ slugify

  /** `[a-z0-9]` */
  predicate IsSlugChar(c: char) { 'a' <= c <= 'z' || '0' <= c <= '9' }

  predicate SlugChars(s: string)
  {
    forall i :: 0 <= i < |s| ==> IsSlugChar(s[i]) || s[i] == '-'
  }

  predicate NoDoubleDash(s: string)
  {
    forall i :: 0 <= i < |s| - 1 ==> !(s[i] == '-' && s[i + 1] == '-')
  }

  /** A slug: letters, digits and single dashes, with no dash at either end. */
  predicate IsSlug(s: string)
  {
    SlugChars(s) && NoDoubleDash(s) && (s != [] ==> s[0] != '-' && s[|s| - 1] != '-')
  }

  /** A combining diacritical mark, U+0300 to U+036F. */
  predicate IsMark(c: char) { '\U{0300}' <= c <= '\U{036F}' }

  predicate NotMark(c: char) { !IsMark(c) }

  /** `.replace(/[\u0300-\u036f]/g, "")`: the combining diacritical marks are removed and every
      other character is kept, in order. */
  function StripMarks(s: string): (r: string)
    ensures r == Keep(s, NotMark)
    ensures forall c :: c in r <==> c in s && !IsMark(c)
  {
    if s == [] then []
    else (if IsMark(s[0]) then [] else [s[0]]) + StripMarks(s[1..])
  }

  /** The characters left after the run of non-slug characters at the front. */
  function DropRun(s: string): (r: string)
    ensures |r| <= |s|
    ensures r == [] || IsSlugChar(r[0])
  {
    if s == [] || IsSlugChar(s[0]) then s else DropRun(s[1..])
  }

  /** What `DropRun` drops is a prefix of separators: the rest is a suffix with the same letters
      and digits. */
  lemma DropRunSpec(s: string)
    ensures DropRun(s) == s[|s| - |DropRun(s)|..]
    ensures forall i :: 0 <= i < |s| - |DropRun(s)| ==> !IsSlugChar(s[i])
    ensures Keep(DropRun(s), IsSlugChar) == Keep(s, IsSlugChar)
  {
    DropRunSuffix(s);
    DropRunKeeps(s);
  }

  lemma {:induction false} DropRunSuffix(s: string)
    ensures DropRun(s) == s[|s| - |DropRun(s)|..]
    ensures forall i :: 0 <= i < |s| - |DropRun(s)| ==> !IsSlugChar(s[i])
  {
    if s != [] && !IsSlugChar(s[0]) {
      var t := s[1..];
      var d := DropRun(t);
      DropRunSuffix(t);
      assert DropRun(s) == d;
      assert t[|t| - |d|..] == s[|s| - |d|..];
      forall i | 0 <= i < |s| - |d| ensures !IsSlugChar(s[i]) {
        if i > 0 {
          assert s[i] == t[i - 1];
        }
      }
    }
  }

  lemma {:induction false} DropRunKeeps(s: string)
    ensures Keep(DropRun(s), IsSlugChar) == Keep(s, IsSlugChar)
  {
    if s != [] && !IsSlugChar(s[0]) {
      DropRunKeeps(s[1..]);
      assert DropRun(s) == DropRun(s[1..]);
      assert Keep(s, IsSlugChar) == Keep(s[1..], IsSlugChar);
    }
  }

  /** `.replace(/[^a-z0-9]+/g, "-")`: every maximal run of other characters becomes one dash. */
  function Collapse(s: string): (r: string)
    ensures r == [] <==> s == []
    ensures s != [] && IsSlugChar(s[0]) ==> r[0] == s[0]
    decreases |s|
  {
    if s == [] then []
    else if IsSlugChar(s[0]) then [s[0]] + Collapse(s[1..])
    else "-" + Collapse(DropRun(s[1..]))
  }

  /** Only letters, digits and single dashes remain. */
  lemma {:induction false} CollapseShape(s: string)
    ensures SlugChars(Collapse(s)) && NoDoubleDash(Collapse(s))
    decreases |s|
  {
    if s != [] {
      var head, rest;
      if IsSlugChar(s[0]) {
        head, rest := [s[0]], s[1..];
      } else {
        head, rest := "-", DropRun(s[1..]);
      }
      var c := Collapse(rest);
      CollapseShape(rest);
      assert Collapse(s) == head + c;
      assert head == "-" ==> c == [] || c[0] != '-';
      forall i | 0 <= i < |head + c|
        ensures IsSlugChar((head + c)[i]) || (head + c)[i] == '-'
      {
        if i > 0 {
          assert (head + c)[i] == c[i - 1];
        }
      }
      forall i | 0 <= i < |head + c| - 1
        ensures !((head + c)[i] == '-' && (head + c)[i + 1] == '-')
      {
        if i > 0 {
          assert (head + c)[i] == c[i - 1] && (head + c)[i + 1] == c[i];
        } else {
          assert (head + c)[1] == c[0];
        }
      }
    }
  }

  /** Collapsing keeps the letters and digits in order, starts with a dash exactly when the text
      starts with a separator, and ends with one exactly when the text ends with one. */
  lemma CollapseSpec(s: string)
    ensures Keep(Collapse(s), IsSlugChar) == Keep(s, IsSlugChar)
    ensures s != [] ==> (Collapse(s)[0] == '-' <==> !IsSlugChar(s[0]))
    ensures s != [] ==> (Collapse(s)[|Collapse(s)| - 1] == '-' <==> !IsSlugChar(s[|s| - 1]))
  {
    CollapseKeeps(s);
    CollapseFirst(s);
    CollapseLast(s);
  }

  lemma {:induction false} CollapseKeeps(s: string)
    ensures Keep(Collapse(s), IsSlugChar) == Keep(s, IsSlugChar)
    decreases |s|
  {
    if s != [] {
      assert Keep(s, IsSlugChar) == (if IsSlugChar(s[0]) then [s[0]] else []) + Keep(s[1..], IsSlugChar);
      if IsSlugChar(s[0]) {
        CollapseKeeps(s[1..]);
        assert Collapse(s) == [s[0]] + Collapse(s[1..]);
        KeepAppend([s[0]], Collapse(s[1..]), IsSlugChar);
      } else {
        var d := DropRun(s[1..]);
        DropRunKeeps(s[1..]);
        CollapseKeeps(d);
        assert Collapse(s) == "-" + Collapse(d);
        KeepAppend("-", Collapse(d), IsSlugChar);
      }
    }
  }

  lemma CollapseFirst(s: string)
    ensures s != [] ==> (Collapse(s)[0] == '-' <==> !IsSlugChar(s[0]))
  {
  }

  /** `DropRun` keeps the last character, unless that character is a separator. */
  lemma {:induction false} DropRunLast(s: string)
    requires s != []
    ensures DropRun(s) != [] ==> DropRun(s)[|DropRun(s)| - 1] == s[|s| - 1]
    ensures DropRun(s) == [] ==> !IsSlugChar(s[|s| - 1])
  {
    if !IsSlugChar(s[0]) && |s| > 1 {
      DropRunLast(s[1..]);
      assert s[1..][|s| - 2] == s[|s| - 1];
    }
  }

  lemma {:induction false} CollapseLast(s: string)
    ensures s != [] ==> (Collapse(s)[|Collapse(s)| - 1] == '-' <==> !IsSlugChar(s[|s| - 1]))
    decreases |s|
  {
    if s != [] {
      var t := s[1..];
      if IsSlugChar(s[0]) {
        var c := Collapse(t);
        assert Collapse(s) == [s[0]] + c;
        if t != [] {
          CollapseLast(t);
          assert t[|t| - 1] == s[|s| - 1];
          assert Collapse(s)[|Collapse(s)| - 1] == c[|c| - 1];
        }
      } else if t != [] {
        var d := DropRun(t);
        var c := Collapse(d);
        assert Collapse(s) == "-" + c;
        DropRunLast(t);
        assert t[|t| - 1] == s[|s| - 1];
        if d != [] {
          CollapseLast(d);
          assert Collapse(s)[|Collapse(s)| - 1] == c[|c| - 1];
        }
      }
    }
  }

  /** Text made only of separators. */
  predicate AllSeparators(w: string)
  {
    forall i :: 0 <= i < |w| ==> !IsSlugChar(w[i])
  }

  /** Text made only of letters a-z and digits. */
  predicate AllSlugChars(u: string)
  {
    forall i :: 0 <= i < |u| ==> IsSlugChar(u[i])
  }

  /** `DropRun` over a concatenation: it stops inside `s` when `s` holds a letter or digit, and
      otherwise goes on into `t`. */
  lemma {:induction false} DropRunAppend(s: string, t: string)
    ensures DropRun(s) != [] ==> DropRun(s + t) == DropRun(s) + t
    ensures DropRun(s) == [] ==> DropRun(s + t) == DropRun(t)
  {
    if s == [] {
      assert s + t == t;
    } else if !IsSlugChar(s[0]) {
      DropRunAppend(s[1..], t);
      assert (s + t)[1..] == s[1..] + t;
    }
  }

  /** `DropRun` drops the whole of a run of separators. */
  lemma {:induction false} DropRunSeparators(w: string)
    requires AllSeparators(w)
    ensures DropRun(w) == []
  {
    if w != [] {
      assert AllSeparators(w[1..]) by {
        forall i | 0 <= i < |w| - 1 ensures !IsSlugChar(w[1..][i]) {
          assert w[1..][i] == w[i + 1];
        }
      }
      DropRunSeparators(w[1..]);
    }
  }

  /** A non-empty run of separators collapses to a single dash. */
  lemma CollapseSeparators(w: string)
    requires w != [] && AllSeparators(w)
    ensures Collapse(w) == "-"
  {
    assert !IsSlugChar(w[0]);
    assert AllSeparators(w[1..]) by {
      forall i | 0 <= i < |w| - 1 ensures !IsSlugChar(w[1..][i]) {
        assert w[1..][i] == w[i + 1];
      }
    }
    DropRunSeparators(w[1..]);
  }

  /** A letter or digit collapses to itself. */
  lemma CollapseSlugChar(c: char)
    requires IsSlugChar(c)
    ensures Collapse([c]) == [c]
  {
    assert [c][1..] == [];
  }

  /** Collapsing distributes over a concatenation whose junction has a letter or digit on at
      least one side, so that no run of separators spans it. */
  lemma {:induction false} CollapseAppend(s: string, t: string)
    ensures (s == [] || t == [] || IsSlugChar(s[|s| - 1]) || IsSlugChar(t[0])) ==>
      Collapse(s + t) == Collapse(s) + Collapse(t)
    decreases |s|, 2
  {
    if s == [] {
      assert s + t == t;
    } else if t == [] {
      assert s + t == s;
    } else if IsSlugChar(s[|s| - 1]) || IsSlugChar(t[0]) {
      if IsSlugChar(s[0]) {
        CollapseSlugStep(s, t);
      } else {
        CollapseSeparatorStep(s, t);
      }
    }
  }

  /** A letter or digit in front is kept as it is. */
  lemma CollapseConsSlug(c: char, x: string)
    requires IsSlugChar(c)
    ensures Collapse([c] + x) == [c] + Collapse(x)
  {
    assert ([c] + x)[0] == c && ([c] + x)[1..] == x;
  }

  /** A separator in front becomes a dash, and the separators after it are dropped. */
  lemma CollapseConsSeparator(c: char, x: string)
    requires !IsSlugChar(c)
    ensures Collapse([c] + x) == "-" + Collapse(DropRun(x))
  {
    assert ([c] + x)[0] == c && ([c] + x)[1..] == x;
  }

  /** Text split into its first character and the rest, with more text appended. */
  lemma ConsSplit(s: string, t: string)
    requires s != []
    ensures s == [s[0]] + s[1..] && s + t == [s[0]] + (s[1..] + t)
    ensures s[1..] != [] ==> s[1..][|s| - 2] == s[|s| - 1]
  {
  }

  /** Concatenation is associative. */
  lemma ConcatAssoc(a: string, b: string, c: string)
    ensures a + (b + c) == (a + b) + c
  {
  }

  /** The step of `CollapseAppend` for text that starts with a letter or digit. */
  lemma {:induction false} CollapseSlugStep(s: string, t: string)
    requires s != [] && t != [] && IsSlugChar(s[0])
    requires IsSlugChar(s[|s| - 1]) || IsSlugChar(t[0])
    ensures Collapse(s + t) == Collapse(s) + Collapse(t)
    decreases |s|, 0
  {
    var s' := s[1..];
    ConsSplit(s, t);
    CollapseConsSlug(s[0], s' + t);
    CollapseConsSlug(s[0], s');
    CollapseAppend(s', t);
    ConcatAssoc([s[0]], Collapse(s'), Collapse(t));
  }

  /** The step of `CollapseAppend` for text that starts with a separator. */
  lemma {:induction false} CollapseSeparatorStep(s: string, t: string)
    requires s != [] && t != [] && !IsSlugChar(s[0])
    requires IsSlugChar(s[|s| - 1]) || IsSlugChar(t[0])
    ensures Collapse(s + t) == Collapse(s) + Collapse(t)
    decreases |s|, 0
  {
    var s' := s[1..];
    ConsSplit(s, t);
    CollapseConsSeparator(s[0], s' + t);
    CollapseConsSeparator(s[0], s');
    SeparatorTail(s', t);
    ConcatAssoc("-", Collapse(DropRun(s')), Collapse(t));
  }

  /** What follows the leading separator in `CollapseSeparatorStep`. */
  lemma {:induction false} SeparatorTail(s': string, t: string)
    requires t != []
    requires (s' != [] && IsSlugChar(s'[|s'| - 1])) || IsSlugChar(t[0])
    ensures Collapse(DropRun(s' + t)) == Collapse(DropRun(s')) + Collapse(t)
    decreases |s'|, 3
  {
    var d := DropRun(s');
    DropRunAppend(s', t);
    if d != [] {
      DropRunLast(s');
      CollapseAppend(d, t);
    } else {
      if s' != [] {
        DropRunLast(s');
      }
      assert DropRun(t) == t;
    }
  }

  /** `.replace(/(^-|-$)/g, "")`: one dash at the front and one at the end are removed. */
  function TrimDashes(s: string): (r: string)
    ensures SlugChars(s) && NoDoubleDash(s) ==> IsSlug(r)
  {
    var a := if s != [] && s[0] == '-' then s[1..] else s;
    if a != [] && a[|a| - 1] == '-' then a[..|a| - 1] else a
  }

  /** `r` is `s` with its first `a` characters and everything after `a + |r|` removed, where
      the first is removed exactly when it is a dash and everything removed at the end is a dash. */
  predicate TrimmedAt(r: string, s: string, a: int)
  {
    0 <= a && a + |r| <= |s| && r == s[a..a + |r|]
    && (a == 1 <==> s != [] && s[0] == '-')
    && forall i :: a + |r| <= i < |s| ==> s[i] == '-'
  }

  /** Trimming removes at most one leading and one trailing dash, and nothing else. */
  lemma TrimDashesSpec(s: string)
    ensures |s| - 2 <= |TrimDashes(s)| <= |s|
    ensures exists a :: 0 <= a <= 1 && TrimmedAt(TrimDashes(s), s, a)
  {
    var a := if s != [] && s[0] == '-' then 1 else 0;
    assert TrimmedAt(TrimDashes(s), s, a);
  }

  /** Trimming removes dashes only, so the letters and digits stay. */
  lemma TrimKeepsSlugChars(s: string)
    ensures Keep(TrimDashes(s), IsSlugChar) == Keep(s, IsSlugChar)
  {
    var a := if s != [] && s[0] == '-' then s[1..] else s;
    assert Keep(a, IsSlugChar) == Keep(s, IsSlugChar);
    if a != [] && a[|a| - 1] == '-' {
      var b := a[..|a| - 1];
      assert a == b + [a[|a| - 1]];
      KeepAppend(b, [a[|a| - 1]], IsSlugChar);
      assert Keep([a[|a| - 1]], IsSlugChar) == [];
    }
  }

  /** `slugify(text)`. The decomposition `normalize("NFD")` is not modelled: the later steps
      apply to the lowered text directly, which is exact for text with no precomposed
      letters, ASCII included. The slug keeps exactly the lowered text's letters a-z and
      digits, in order. */
  function Slugify(text: string): (r: string)
    ensures IsSlug(r)
    ensures Keep(r, IsSlugChar) == Keep(LowerStr(text), IsSlugChar)
  {
    var lowered := LowerStr(text);
    var c := Collapse(StripMarks(lowered));
    KeepThen(lowered, NotMark, IsSlugChar, IsSlugChar);
    CollapseSpec(StripMarks(lowered));
    CollapseShape(StripMarks(lowered));
    TrimKeepsSlugChars(c);
    TrimDashes(c)
  }

  /** A slug is its own slug. */
  lemma {:induction false} SlugFixedPoint(s: string)
    requires IsSlug(s)
    ensures Slugify(s) == s
  {
    assert LowerStr(s) == s;
    StripMarksIdentity(s);
    CollapseSlugChars(s);
  }

  lemma {:induction false} StripMarksIdentity(s: string)
    requires SlugChars(s)
    ensures StripMarks(s) == s
  {
    if s != [] {
      StripMarksIdentity(s[1..]);
    }
  }

  /** On slug characters without doubled or leading dashes, collapsing changes nothing. */
  lemma {:induction false} CollapseSlugChars(s: string)
    requires SlugChars(s) && NoDoubleDash(s)
    requires s != [] ==> s[0] != '-'
    ensures Collapse(s) == s
  {
    if s != [] {
      if |s| >= 2 && s[1] == '-' {
        var t := s[2..];
        assert t == [] || t[0] != '-';
        assert DropRun(t) == t;
        CollapseSlugChars(t);
        assert Collapse(s[1..]) == "-" + Collapse(t);
        assert s == [s[0]] + "-" + t;
      } else {
        CollapseSlugChars(s[1..]);
      }
    }
  }

  /** `slugify` is idempotent. */
  lemma SlugifyIdempotent(text: string)
    ensures Slugify(Slugify(text)) == Slugify(text)
  {
    SlugFixedPoint(Slugify(text));
  }

  /** Two words separated by a run of separators become the two words joined by one dash. */
  lemma SlugifyWords(u: string, w: string, v: string)
    requires u != [] && v != [] && AllSlugChars(u) && AllSlugChars(v)
    requires w != [] && AllSeparators(w) && LowerStr(w) == w
    requires forall i :: 0 <= i < |w| ==> !IsMark(w[i])
    ensures Slugify(u + w + v) == u + "-" + v
  {
    var x := u + w + v;
    WordsUnchanged(u, w, v);
    CollapseWords(u, w, v);
    var r := u + "-" + v;
    assert r[0] == u[0] && r[|r| - 1] == v[|v| - 1];
  }

  /** Lowering and stripping marks leave such text as it is. */
  lemma WordsUnchanged(u: string, w: string, v: string)
    requires AllSlugChars(u) && AllSlugChars(v) && LowerStr(w) == w
    requires forall i :: 0 <= i < |w| ==> !IsMark(w[i])
    ensures LowerStr(u + w + v) == u + w + v && StripMarks(u + w + v) == u + w + v
  {
    var x := u + w + v;
    forall i | 0 <= i < |x| ensures LowerStr(x)[i] == x[i] && NotMark(x[i]) {
      if i < |u| {
        assert x[i] == u[i];
      } else if i < |u| + |w| {
        assert x[i] == w[i - |u|] == LowerStr(w)[i - |u|];
      } else {
        assert x[i] == v[i - |u| - |w|];
      }
    }
    KeepAll(x, NotMark);
  }

  /** The run between the words becomes one dash and the words stay. */
  lemma CollapseWords(u: string, w: string, v: string)
    requires u != [] && v != [] && AllSlugChars(u) && AllSlugChars(v)
    requires w != [] && AllSeparators(w)
    ensures Collapse(u + w + v) == u + "-" + v
  {
    WordCollapses(u);
    WordCollapses(v);
    CollapseSeparators(w);
    CollapseAppend(w, v);
    assert Collapse(w + v) == "-" + v;
    CollapseAppend(u, w + v);
    assert u + w + v == u + (w + v);
  }

  /** A word of letters and digits collapses to itself. */
  lemma WordCollapses(u: string)
    requires AllSlugChars(u)
    ensures Collapse(u) == u
  {
    CollapseSlugChars(u);
  }

  /** Runs of separators become one dash, and separators at either end disappear. */
  lemma SlugExample()
    ensures Collapse("a  b!") == "a-b-" && TrimDashes("-a-b-") == "a-b"
  {
    assert DropRun(" b!") == "b!";
    assert DropRun("") == "";
  }
}
